=== FILE: README.md ===
# blazestart, modelled in Dafny

blazestart is a command-line project scaffolder. `create` asks a wizard's
questions, or takes them from flags and a saved profile. It then has the
generator write a project: `.gitignore`, `LICENSE`, `README.md`, the
language's manifest (`package.json`, `requirements.txt`/`pyproject.toml`,
`go.mod`, `Cargo.toml`), an entry file, configuration files, linter
configuration and git-hook configuration. `init` does the same in the
current directory. `fork` clones a repository and rewrites its README,
`package.json` and license. `config` manages the saved profiles and the
default-profile pointer in `~/.blazestart`.

The model keeps the decisions and leaves out the effects. The file system
is a value:
- the saved state is a `Store` of settings and profiles;
- a cloned project is a map from path to contents;
- the generator's output is a list of `File`s with their paths.

Each command becomes a pure function of its flags, the profile and the
wizard's replies. JSON documents are a `Json.Value`, or a map from key to
value for a top-level object. `JSON.parse` is a parameter.

Modules, in dependency order:
- `Wrappers`: `Option` and `Result`, and JavaScript's `||` and `??` on
  possibly undefined values.
- `Text`: `toLowerCase`, `toUpperCase`, `split`, `join`, `indexOf`, `trim`
  and decimal rendering, on ASCII.
- `Json`: JSON values.
- `Catalog`: the language, framework, license, package-manager,
  template-directory and ignore-pattern tables.
- `Options`: profiles, project options and the install command per
  package manager.
- `PackageJson`: `generatePackageJson`, as a baseline followed by five
  layers of assignments.
- `Readme`: the three README styles and their helpers.
- `Generator`: `generateProject`, its directories and its files.
- `Prompts`: what the wizards share — asked questions, choice lists, the
  name check, the merge into options, the steps after generation, the
  repository name and the closing hint.
- `ProfileStore`: profile files and the settings file.
- `Create` and `Init`: the two wizards.
- `ConfigCommand`: the `config` command.
- `Fork` and `ForkReadme`: the `fork` command after the clone.

## Model

| member | source | states |
|---|---|---|
| Catalog.LanguageIdsDistinct | src/config/templates.ts:31-44 | No two languages share an id. |
| Catalog.FrameworkIdsDistinct | src/config/templates.ts:46-83 | No two frameworks share an id. |
| Catalog.LicenseIdsDistinct | src/config/templates.ts:85-94 | No two licenses share an id, and `none` is one of them. |
| Catalog.PackageManagerIdsDistinct | src/config/templates.ts:96-107 | No two package managers share an id. |
| Catalog.FrameworkLanguagesKnown | src/config/templates.ts:46-83 | Every language a framework declares is a row of the language table. |
| Catalog.PackageManagerLanguagesKnown | src/config/templates.ts:96-107 | Every language a package manager declares is a row of the language table. |
| Catalog.TemplateKeysCompatible | src/config/templates.ts:109-138 | Every template key names a known language. Its framework is `none` or declares that language. |
| Catalog.TemplateKeyParts | src/config/templates.ts:109-138 | A `language-framework` key with a hyphen-free language splits back at its first hyphen into the two parts. |
| Catalog.KeysDistinctFromPairs | src/config/templates.ts:109-138 | Distinct (language, framework) pairs with hyphen-free languages give distinct keys. |
| Catalog.TemplateKeysDistinct | src/config/templates.ts:109-138 | No two template entries share a key, so none is shadowed in the record. |
| Catalog.TemplatePairsDistinct | src/config/templates.ts:109-138 | No template entry repeats a (language, framework) pair. |
| Catalog.EntriesToMapLookup | src/config/templates.ts:109-138 | With distinct keys, the keyed record maps each entry's key to its directory and has no other key. |
| Catalog.TemplatePathsLookup | src/config/templates.ts:109-138 | Looking up any entry's key in the template table yields that entry's directory. |
| Catalog.GitignoreKeysAreLanguages | src/config/templates.ts:140-280 | The ignore table is keyed by catalog languages only. Java, Kotlin, Swift and C++ have no entry; JavaScript, the fallback, does. |
| Options.ProfileActiveIff | src/commands/create.ts:49 | A profile is active exactly when it has at least one property. |
| Options.PmInstall | src/commands/create.ts:364-368 | Any manager other than yarn and pnpm installs with `npm install`. Each known manager's command starts with its own name. |
| Options.PmInstallCoversCatalog | src/commands/create.ts:364-368 | The catalog's JavaScript package managers are exactly npm, yarn and pnpm, each with its own command. Every other manager falls back to npm's. |
| Json.Strings | src/utils/generator.ts:211-235 | A string list becomes a JSON array of the same length, holding the same strings in the same order. |
| Text.Lower | src/utils/packageJson.ts:22 | Lower-casing keeps the length and maps each character on its own. |
| Text.Upper | src/commands/fork.ts:259 | Upper-casing keeps the length and maps each character on its own. |
| Text.Split | src/commands/fork.ts:185 | Splitting yields at least one piece, and no piece holds the separator. |
| Text.JoinSplit | src/commands/fork.ts:185-189 | Joining the pieces of a split with the same separator gives back the input. |
| Text.SplitJoin | src/commands/fork.ts:185-189 | Splitting a join of separator-free pieces gives back the pieces: the inverse of `JoinSplit`. |
| Text.IndexOf | src/commands/config.ts:415 | Returns -1 exactly when the character is absent. Otherwise it is the position of the first occurrence. |
| Text.SplitHead | src/commands/config.ts:415-417 | The first piece is the text before the first separator. The other pieces, re-joined, are the text after it. |
| Text.SplitAfter | src/commands/fork.ts:185 | Splitting `a + [c] + b`, where `a` lacks `c`, gives `a` followed by the pieces of `b`. |
| Text.TrimStart | src/commands/config.ts:140 | Trimming the start yields a suffix that does not start with white space. Everything dropped was white space. |
| Text.TrimEnd | src/commands/config.ts:140 | Trimming the end yields a prefix that does not end with white space. Everything dropped was white space. |
| Text.TrimEmpty | src/commands/config.ts:140 | `trim()` is empty exactly when every character is white space. |
| Text.NatToString | src/commands/fork.ts:259 | The decimal rendering of a year is non-empty and all digits. |
| Text.NatToStringValue | src/commands/fork.ts:259 | The rendering's digits denote the number, and a positive number has no leading zero, so it is the number's decimal text. |
| Text.NatToStringInjective | src/commands/fork.ts:259 | Different numbers render as different texts. |
| PackageJson.SanitizeName | src/utils/packageJson.ts:22 | Read with ASCII-only lower-casing, the manifest name has the input's length, and every character is in `[a-z0-9-]`. |
| PackageJson.SanitizeNameFixed | src/utils/packageJson.ts:22 | A name is left unchanged exactly when it is already in `[a-z0-9-]*`. |
| PackageJson.SanitizeNameIdempotent | src/utils/packageJson.ts:22 | Sanitising twice equals sanitising once. |
| PackageJson.SanitizeNameAscii | src/utils/packageJson.ts:22 | An ASCII letter or digit becomes its lower-case form. Every other ASCII character becomes `-`. |
| PackageJson.WriteFacts | src/utils/packageJson.ts:45-236 | A run of assignments adds exactly the assigned keys. Each ends at its last assigned value, other keys keep theirs, and the record is non-empty iff something was there or assigned. |
| PackageJson.AssignsConcat | src/utils/packageJson.ts:45-236 | A key is assigned by two runs of assignments laid end to end iff one of them assigns it. |
| PackageJson.Baseline | src/utils/packageJson.ts:32-42 | The baseline has no dependencies yet and has `start` and `dev` scripts. `build` exists exactly for TypeScript. There is no `test`, `lint` or `format` yet. |
| PackageJson.FrameworkRule | src/utils/packageJson.ts:49-185 | There is a rule exactly for the frameworks with a `case`, and the rule is that case's assignments. |
| PackageJson.FrameworkCasesDistinct | src/utils/packageJson.ts:49-185 | The `case` labels are pairwise distinct, so every case is reachable. |
| PackageJson.WithFramework | src/utils/packageJson.ts:49-185 | A framework without a case changes nothing. A case adds runtime dependencies iff it is listed as doing so, assigns `lint` only for next, and never assigns `format`. |
| PackageJson.WithTypings | src/utils/packageJson.ts:188-206 | The typings step touches only development dependencies, and afterwards they are non-empty. |
| PackageJson.WithEslint | src/utils/packageJson.ts:209-226 | With eslint, `lint` becomes `eslint .`, eslint is a dev dependency, and so are the TypeScript parser and plugin for TypeScript. Other scripts are unchanged. |
| PackageJson.WithPrettier | src/utils/packageJson.ts:228-236 | With prettier, `format` is assigned. The two integration packages are added iff eslint is chosen too. |
| PackageJson.WithTest | src/utils/packageJson.ts:239 | `test` becomes the placeholder whatever was there before. Every other script is kept. |
| PackageJson.GeneratePackageJson | src/utils/packageJson.ts:15-29 | The manifest holds the sanitised name, version 1.0.0, MIT, an empty author and the keywords [framework, language, blazestart]. It is `"type": "module"` exactly for vue, svelte and vite. |
| PackageJson.GeneratedMain | src/utils/packageJson.ts:32-42 | `main` is `dist/index.js` for TypeScript and `src/index.js` otherwise. |
| PackageJson.GeneratedScripts | src/utils/packageJson.ts:32-239 | `test` is the placeholder, and `dev` and `start` always exist. `lint` exists iff eslint is chosen or the framework is next, and is `eslint .` with eslint. `format` exists iff prettier is chosen. |
| PackageJson.GeneratedDependencies | src/utils/packageJson.ts:241-248 | `dependencies` is present iff the framework adds runtime packages. `devDependencies` is always present, and holds the prettier integrations iff both linters are chosen. |
| PackageJson.GeneratedEslintPackages | src/utils/packageJson.ts:209-216 | With eslint chosen, eslint is a dev dependency, and for TypeScript so are the TypeScript ESLint parser and plugin. |
| PackageJson.UnknownFrameworkKeepsBaseline | src/utils/packageJson.ts:32-55 | A framework without a case adds no runtime dependency and keeps the baseline `main` and scripts. |
| PackageJson.ExpressLayer | src/utils/packageJson.ts:50-55 | Express adds express, cors and dotenv. Its `dev` script depends on the language. |
| PackageJson.TypeScriptExpressTypings | src/utils/packageJson.ts:188-197 | TypeScript with Express gets the server typings and `ts-node-dev` as dev dependencies. |
| PackageJson.ExpressTypings | src/utils/packageJson.ts:188-197 | The typings step for TypeScript with Express adds the compiler, the server typings and `ts-node-dev`, whatever it starts from. |
| PackageJson.TypeScriptExpressRuntime | src/utils/packageJson.ts:50-55 | TypeScript with Express runs `dev` through `ts-node-dev src/index.ts`, with Express's three runtime packages. |
| PackageJson.AngularLayer | src/utils/packageJson.ts:125-144 | Angular's layer writes `ng test` as `test` and `ng` as `ng`. |
| PackageJson.LayerWrites | src/utils/packageJson.ts:49-185 | A framework layer leaves each key at its case's last assigned value. |
| PackageJson.AngularTestOverwritten | src/utils/packageJson.ts:143-239 | Angular's `ng test` is lost to the final placeholder, while its `ng` script survives. |
| Readme.BadgeList | src/utils/readme.ts:220-248 | Badges come in push order: language, the framework only when it is not `none`, license, build status. |
| Readme.TestCommand | src/utils/readme.ts:379-390 | For the Node languages the test command is `<manager> test`. |
| Readme.FirstLine | src/utils/readme.ts:22-104 | The first line of a joined text is its first piece, when that piece holds no line feed. |
| Readme.LineShown | src/utils/readme.ts:22-104 | A line of a joined text, and anything inside it, occurs in the text. |
| Readme.StandardContents | src/utils/readme.ts:22-104 | The standard README's first line is `# <name>`. It names the framework or language and shows the badges, the install and run instructions and the test command. |
| Readme.AiContents | src/utils/readme.ts:126-218 | The AI-style README's first line is `# <name> 🚀`. It names the framework or language and shows the prerequisites and the install and dev commands. |
| Readme.MinimalQuickStart | src/utils/readme.ts:106-124 | The minimal README splits back into the lines it was built from. Its title is `# <name>`, and its two quick-start commands are `npm install` and `npm start` for the Node languages and a placeholder otherwise. |
| Readme.MinimalLinesSingle | src/utils/readme.ts:106-124 | No line of the minimal README holds a line feed of its own. |
| Readme.ShellBlockShows | src/utils/readme.ts:282-377 | Each line of a shell block occurs in it. |
| Readme.NodeRunInstructions | src/utils/readme.ts:332-344 | For the Node languages the run block calls `dev`, `build` and `start` through `npm run` for npm and through the manager's own name otherwise. |
| Readme.NodeInstallInstructions | src/utils/readme.ts:282-296 | For the Node languages the install block ends with the manager's install command, or npm's for an unknown manager. |
| Readme.BadgesNameChoices | src/utils/readme.ts:220-248 | The badge line names the language, the framework when there is one, and the license. |
| Readme.LanguageColorsKnown | src/utils/readme.ts:224-233 | Only catalog languages get a colour of their own. |
| Readme.FileExtensionsKnown | src/utils/readme.ts:251-263 | The eight languages the lookup knows get a real extension, and they are all catalog languages. Any other gets `txt`. |
| Readme.FileExtensionsMatchCatalog | src/utils/readme.ts:251-263 | The extension shown is the first one the catalog lists for that language. |
| Readme.UnknownLanguageFallbacks | src/utils/readme.ts:251-432 | A language the lookups do not know gets every fallback text. |
| Readme.StandardReadme | src/utils/readme.ts:22-104 | The standard README's first line is `# <name>`, and it names the framework or language. |
| Readme.MinimalReadme | src/utils/readme.ts:106-124 | The minimal README's first line is `# <name>`, and it names the framework or language. |
| Readme.AiReadme | src/utils/readme.ts:126-218 | The AI-style README's first line is `# <name> 🚀`, and it names the framework or language. |
| Readme.GenerateReadme | src/utils/readme.ts:10-20 | Every style titles the README with the project name, the AI style adding a rocket, and names what the project is built on; an unknown style is the standard one. |
| Generator.FileAt | src/utils/generator.ts:25-60 | A file found at a path is the one written under that path. |
| Generator.NonEmpty | src/utils/generator.ts:218-221 | `filter(Boolean)` keeps exactly the non-empty strings, and adds none. |
| Generator.NonEmptyConcat | src/utils/generator.ts:218-221 | The filter keeps order and multiplicity: filtering a concatenation filters each part in turn. |
| Generator.NonEmptySingle | src/utils/generator.ts:218-221 | One string is kept exactly when it is non-empty. |
| Generator.Directories | src/utils/generator.ts:62-85 | A directory is created iff it is a base directory or belongs to the group its framework or language selects. The three base directories come first, at most nine are listed, and none twice. |
| Generator.GenerateProject | src/utils/generator.ts:25-60 | The plan creates exactly the directories its language and framework select, and its files are the step-by-step file list. |
| Generator.EntryGuard | src/utils/generator.ts:152 | The guard before writing the entry file (non-empty path and text) holds exactly when the language has an entry file. |
| Generator.EntryTextNonEmpty | src/utils/generator.ts:133-155 | Every language with an entry path has a non-empty entry text. |
| Generator.EntryLinesHeadWith | src/utils/generator.ts:283-397 | Built from headed templates, the entry text of a language with an entry path has at least two lines, and the first is non-empty. |
| Generator.ProjectFilesSteps | src/utils/generator.ts:25-60 | The files of the artifacts the steps produce are exactly the step-by-step file list. |
| Generator.ConcatStagedOrdered | src/utils/generator.ts:25-60 | Per-step segments laid end to end give a list without repeats, in step order. |
| Generator.ConcatStagedAt | src/utils/generator.ts:25-60 | In per-step segments laid end to end, a file occurs iff it occurs in its own step's segment. |
| Generator.FileAtPathOf | src/utils/generator.ts:25-60 | Every file has its own path: looking the path up gives the file back, so no two files share one. |
| Generator.FilesInDirectories | src/utils/generator.ts:62-155 | Every file written lies at the top of the project or in a directory the plan creates. |
| Generator.TopDirectoryOf | src/utils/generator.ts:133-155 | Only the entry files under `src` lie below the top of the project. |
| Generator.ProjectFilesOrdered | src/utils/generator.ts:25-60 | No file is written twice, and files come in the order `generateProject` runs its steps. |
| Generator.ProjectFilesAt | src/utils/generator.ts:25-60 | Whether a file is written is decided by its own step alone. |
| Generator.CommonFilesWritten | src/utils/generator.ts:30-40 | `.gitignore` is written iff asked for, `LICENSE` iff the license is not `none`, and `README.md` always. |
| Generator.ManifestsWritten | src/utils/generator.ts:105-131 | Each manifest is written exactly for its language: `package.json` for JavaScript and TypeScript, the two Python manifests for Python, `go.mod` for Go, `Cargo.toml` for Rust. |
| Generator.EntryWritten | src/utils/generator.ts:133-155 | The entry file is written iff the language has one, and it is that language's file. |
| Generator.ConfigsWritten | src/utils/generator.ts:157-205 | `tsconfig.json` is written for TypeScript, `next.config.js` for next, and `vite.config.js` for vite or vue, whatever the language. |
| Generator.LintersWritten | src/utils/generator.ts:207-250 | Linter configurations are written only for JavaScript and TypeScript, each iff its linter was chosen. |
| Generator.HooksWritten | src/utils/generator.ts:252-280 | Hook configurations are written only when hooks were asked for: husky for JavaScript and TypeScript, pre-commit for Python. |
| Generator.GitignoreFallback | src/utils/generator.ts:87-93 | A language the ignore table lacks gets JavaScript's patterns; a listed one gets its own. |
| Generator.GitignoreText | src/utils/generator.ts:87-93 | The `.gitignore` opens with the first pattern, and every pattern of the language, or of the JavaScript fallback, occurs in it. |
| Generator.RequirementsRoundTrip | src/utils/generator.ts:399-411 | `requirements.txt` splits back into one pinned package per line, and is empty unless the framework is flask, django or fastapi. |
| Generator.GoModLines | src/utils/generator.ts:124-125 | `go.mod` declares the module under the project's name and Go 1.21, and ends with a line break. |
| Generator.PyProjectNamesProject | src/utils/generator.ts:413-434 | `pyproject.toml` opens the poetry table and names the project on its second line. |
| Generator.CargoTomlNamesCrate | src/utils/generator.ts:436-445 | `Cargo.toml` opens the package table and names the crate on its second line. |
| Generator.PythonManifestsAgree | src/utils/generator.ts:399-434 | `pyproject.toml` has a dependency line for the framework exactly when `requirements.txt` pins one. |
| Generator.EslintExtendsByLanguage | src/utils/generator.ts:211-235 | The ESLint configuration extends eslint's recommended set first, then the TypeScript plugin's only for TypeScript. |
| Generator.EslintConfig | src/utils/generator.ts:211-235 | The ESLint configuration is an object that names the TypeScript parser, and a non-empty plugin list, exactly for TypeScript. |
| Generator.EslintPackagesInstalled | src/utils/generator.ts:211-235 | The parser and plugin the TypeScript ESLint configuration names are dev dependencies of the manifest written beside it. |
| Generator.TypeScriptLayoutAgrees | src/utils/generator.ts:160-184 | For TypeScript the compiler reads `./src`, where the entry is written, and emits to `./dist`, where the manifest's `main` points. |
| Generator.HuskyHooksAgainstScripts | src/utils/generator.ts:255-266 | The husky hooks call `lint` and `test`. The manifest has `lint` only with eslint or next, and its `test` is the failing placeholder. |
| Generator.HuskyCommands | src/utils/generator.ts:255-266 | The pre-commit hook runs `npm run lint`; the pre-push hook runs `npm test`. |
| Generator.PlaceholderFails | src/utils/packageJson.ts:239 | The placeholder test script ends by exiting with status 1. |
| Generator.ReadmeConfigFileWritten | src/utils/readme.ts:265-280 | The manifest the README's structure listing names is a file the plan writes, exactly for JavaScript, TypeScript, Python, Go and Rust. |
| Generator.ReadmeEntryListed | src/utils/readme.ts:251-263 | The README lists `src/index.<ext>` as the entry point, and the plan writes that file only for JavaScript and TypeScript. |
| Generator.ReadmeEntryPath | src/utils/generator.ts:133-155 | Gives the file, if any, at the entry path the README names. |
| Prompts.Ask | src/commands/create.ts:81-194 | A question has a reply exactly when it is asked, and then the reply is the user's. |
| Prompts.Answer | src/commands/create.ts:81-194 | The answers record holds a reply exactly for each asked question, and it is the user's reply. |
| Prompts.Complete | src/commands/create.ts:198-212 | The model has a complete options record exactly when the merge left name, language, framework, license, git and install decided, and the record carries the merged values. Where the merge leaves a field undefined, the model stops. |
| Prompts.NameError | src/commands/create.ts:58-61 | No message exactly for a non-empty name of letters, digits, `-` and `_`. Otherwise the explanation. |
| Prompts.IdsFor | src/commands/create.ts:95-132 | Filtering a table by language lists exactly the ids of the rows that list the language, and no more entries than the table has. It serves both the framework and the package-manager choices. |
| Prompts.FrameworkChoicesSupported | src/commands/create.ts:95-105 | `none` leads the choices, and every other choice is a framework that supports the language. |
| Prompts.PackageManagerChoicesServe | src/commands/create.ts:124-132 | The choices are the managers that serve the language. For JavaScript each has its own install command. |
| Prompts.Then | src/commands/create.ts:351-412 | A step is added in front exactly when its condition holds, and the order of steps is kept. |
| Prompts.SafeName | src/commands/create.ts:383 | Read with ASCII-only lower-casing, the repository name has the input's length. A character is kept lower-cased when that is in `[a-z0-9_-]`, and turned into `-` otherwise. |
| Prompts.SafeNameAgainstManifest | src/commands/create.ts:383 | The repository name and the manifest name differ only where the repository name keeps `_`. |
| Prompts.SafeNameOfValid | src/commands/create.ts:383 | For a valid project name the repository name is the name lower-cased. |
| Prompts.RunHintAsWritten | src/commands/create.ts:415-430 | There is a hint exactly for JavaScript, TypeScript, Python, Go and Rust. |
| Prompts.RunHint | src/commands/create.ts:415-430 | The corrected hint exists for the same languages and differs only for Python. |
| Prompts.RunHintMissesPythonEntry | src/commands/create.ts:424-425 | As printed, the Python hint runs `main.py`. The generator writes no such file: it writes `src/main.py`, and the README runs that. |
| Prompts.RunHintAgrees | src/commands/create.ts:415-430 | The corrected hint runs the entry file the generator writes for Python and Go. For Python, Go and Rust it is the README's command; for the Node languages it is the README's run prefix followed by `dev`. |
| Prompts.RunHintScriptExists | src/utils/packageJson.ts:32-42 | Every generated manifest has the `dev` script the JavaScript hint runs. |
| ProfileStore.DefaultProfileName | src/commands/create.ts:40-41 | The pointer is followed exactly when it is present and truthy. A string is used as it is, a number by its decimal text and `true` as `true`; every name but an array's is non-empty. |
| ProfileStore.LoadProfile | src/utils/config.ts:38-46 | Loading succeeds exactly for a saved profile, with its contents. Otherwise it fails with `Profile "<name>" not found`. |
| ProfileStore.SaveProfile | src/utils/config.ts:48-52 | Saving sets that profile, leaves the others and the settings alone. |
| ProfileStore.DeleteProfile | src/utils/config.ts:67-75 | Deleting succeeds exactly for a saved profile and removes only it. A missing one is the not-found error. |
| ProfileStore.LoadAfterSave | src/utils/config.ts:38-52 | A saved profile reads back as saved, and every other profile reads as before. |
| ProfileStore.LoadAfterDelete | src/utils/config.ts:38-75 | A deleted profile no longer loads, and no other profile changes. |
| ProfileStore.GetValue | src/utils/config.ts:77-80 | A setting reads back its stored value, or nothing when absent. |
| ProfileStore.SetValue | src/utils/config.ts:82-86 | Writing a setting changes that key only. |
| ProfileStore.GetAfterSet | src/utils/config.ts:77-86 | A written setting reads back, and the other settings read as before. |
| ProfileStore.ImportProfile | src/utils/config.ts:99-106 | Text that is not JSON fails with `Invalid JSON format`. Otherwise the parsed profile is saved under the name. |
| ProfileStore.DefaultProfile | src/commands/create.ts:37-46 | The fallback profile is the one `defaultProfile` refers to. No pointer, a falsy one, or a pointer to a missing profile gives the empty profile. |
| Json.ToText | src/utils/config.ts:39 | Template interpolation: a string is itself, a number its decimal text with a sign when negative, a boolean `true` or `false`. A truthy value other than an array never reads as empty. |
| ProfileStore.NumericPointerFollowed | src/commands/create.ts:40-41 | A pointer of the number 123 makes the wizards load the saved profile `123`. |
| ProfileStore.FindFrom | src/utils/config.ts:64 | The search returns -1 exactly when the pattern occurs nowhere at or after the start; otherwise it returns the first position where it occurs. |
| ProfileStore.RemoveFirst | src/utils/config.ts:64 | `replace` with a string leaves the text alone when the pattern is absent. Otherwise it cuts out the first occurrence and keeps the text on both sides. |
| ProfileStore.ListProfiles | src/utils/config.ts:54-65 | Lists at most one name per file. Every file is listed exactly when every file ends in `.json`, and nothing is listed when none does. |
| ProfileStore.ListProfilesConcat | src/utils/config.ts:61-64 | Listing is a filter and a map: a concatenated listing lists each part in turn, in order. |
| ProfileStore.ListProfilesSkips | src/utils/config.ts:61-63 | A file not ending in `.json` is not listed, wherever it stands. |
| ProfileStore.ProfileFileName | src/utils/config.ts:50-64 | A dot-free profile name survives the listing's suffix removal. |
| ProfileStore.ListProfilesRoundTrip | src/utils/config.ts:48-65 | Listing the files of dot-free profile names gives back the names in order. |
| Create.CreateProfile | src/commands/create.ts:32-47 | A named profile that is missing ends the command with an error. Without `--config` the default profile is used, and its absence is ignored. |
| Create.CreateProfileFails | src/commands/create.ts:33-34 | The command stops only for a named profile that does not exist. |
| Create.CreateAsked | src/commands/create.ts:81-194 | The name is always asked. README, git, install and editor are asked exactly when no flag and no profile property decide them, and the remote only when git ends up on and the profile has no remote. |
| Create.Questions | src/commands/create.ts:81-194 | The answers hold the name, a reply for each list question exactly when it is asked, and the undecided confirmations; a remote reply only when git is on. |
| Create.CreateAsksOnlyUndecided | src/commands/create.ts:81-194 | A question is asked only when the profile lacks the property and no flag defines it. |
| Create.CreateAsksByLanguage | src/commands/create.ts:120-166 | The package-manager question is asked exactly for JavaScript and TypeScript projects whose profile has no package manager. The hooks question works the same way for its languages. |
| Create.CreateMerge | src/commands/create.ts:198-212 | The merge always turns the `.gitignore` on, and takes the linters from the profile, or none. |
| Create.CreateDecidesGitAndInstall | src/commands/create.ts:167-212 | The written merge always decides `git` and `installDeps`, and the name. |
| Create.CreateLanguageUndefined | src/commands/create.ts:89-200 | As written, the language stays undefined exactly when no flag names one and the profile's language is the empty string. |
| Create.CreateFrameworkLicenseUndefined | src/commands/create.ts:107-202 | As written, the same holds for framework and license. |
| Create.CreateEmptyLanguageExample | src/commands/create.ts:89-200 | A profile whose only property is an empty language leaves the merged language undefined, so the model stops where the merge leaves a field undefined. |
| Create.CreateOptions | src/commands/create.ts:198-212 | With the corrected questions the merge is always complete. |
| Create.CreatePrecedence | src/commands/create.ts:198-212 | Each of language, framework and license is the truthy flag, else the truthy profile value, else the reply. |
| Create.CreatePackageManager | src/commands/create.ts:120-204 | The package manager is the profile's when it names one. Otherwise it is the reply for a JavaScript or TypeScript project, and `npm` for the rest. |
| Create.CreateCorrectionAgrees | src/commands/create.ts:81-119 | Where the profile defines none of the three, the corrected and the written questions give the same options. |
| Create.CreateSteps | src/commands/create.ts:351-412 | The steps run in the command's order, none twice. |
| Create.CreateStepsRun | src/commands/create.ts:351-412 | Each step runs exactly when its option asks for it. The remote is created from the safe name even without `git`. Dependencies are installed with the manager's command only for the Node languages. |
| Create.NextSteps | src/commands/create.ts:415-430 | `cd <path>` first. A second line appears exactly for JavaScript, TypeScript, Python, Go and Rust, and it is the hint as printed: `python main.py`, `go run main.go`, `cargo run`, and `npm run dev` or `<manager> dev` for the Node languages. |
| Init.InitProceeds | src/commands/init.ts:20-40 | `init` goes on with a confirmation, in an empty directory or one holding only `.git`, and in no other case. Any entry other than `.git` makes the confirmation decide. |
| Init.IsEmptyDir | src/commands/init.ts:20-22 | A directory counts as empty exactly when it lists nothing or only `.git`. |
| Init.EmptyDirOnlyGit | src/commands/init.ts:20-22 | For a listing without repeats, "empty" means every entry is `.git`. |
| Init.NextSteps | src/commands/init.ts:238-248 | A hint line appears exactly for JavaScript, TypeScript, Python, Go and Rust, and it is the hint as printed: `python main.py`, `go run main.go`, `cargo run`, and `npm run dev` or `<manager> dev` for the Node languages. No `cd` line is printed. |
| Init.Questions | src/commands/init.ts:56-160 | The name and editor are never asked. An active profile silences every question but the three list questions, and git is asked only where no `.git` exists; the remote reply exists only when git is on. |
| Init.InitActiveProfileSilences | src/commands/init.ts:56-160 | An active profile silences every question but the corrected three. The git question is never asked where `.git` exists. As written, the profile silences language, framework and license too. |
| Init.InitMerge | src/commands/init.ts:163-177 | The project is named after the directory, and `git` and `installDeps` are always decided. |
| Init.InitFixedOptions | src/commands/init.ts:163-177 | The name, the empty linter list, the closed editor and the `.gitignore` do not depend on the profile or the answers. |
| Init.InitLanguageUndefined | src/commands/init.ts:66-165 | As written, the language stays undefined exactly when no flag names one and an active profile has no truthy language. |
| Init.InitFrameworkLicenseUndefined | src/commands/init.ts:84-167 | As written, the same holds for framework and license. |
| Init.InitGitOnlyProfileExample | src/commands/init.ts:53-165 | A default profile that only turns git on leaves language, framework and license undefined, so the model stops where the merge leaves a field undefined. |
| Init.InitOptions | src/commands/init.ts:163-177 | With the corrected questions the merge is always complete. |
| Init.InitPrecedence | src/commands/init.ts:143-177 | Each of language, framework and license comes from flag, then profile, then reply. `git` follows the profile, else the reply, and is never asked where a repository exists or a profile is active. |
| Init.InitCorrectionAgrees | src/commands/init.ts:56-177 | Without an active profile, or with one that names all three, the corrected and the written questions give the same options. |
| Init.InitSteps | src/commands/init.ts:185-233 | The steps run in the command's order, none twice. |
| Init.InitStepsRun | src/commands/init.ts:185-233 | git init runs iff `git` is on. The remote is created only on top of it. Install runs only for the Node languages, and the editor is never opened. |
| ConfigCommand.ParseCanonical | src/commands/config.ts:49-95 | Every action is reached by its own name. |
| ConfigCommand.ParseAction | src/commands/config.ts:42-95 | An action is selected exactly when the argument is truthy and its lower-case form is an accepted name or alias. |
| ConfigCommand.ParseAliases | src/commands/config.ts:50-63 | `ls`, `create` and `load` reach list, save and use. |
| ConfigCommand.ParseRemovalAliases | src/commands/config.ts:65-74 | `remove` and `rm` reach delete, and `view` reaches show. |
| ConfigCommand.ParseKnownNames | src/commands/config.ts:42-95 | An argument selects an action exactly when its lower-case form is an accepted name. Anything else, empty included, shows the help. |
| ConfigCommand.ParseIgnoresCase | src/commands/config.ts:42-47 | An argument and its lower-case form select the same action. |
| ConfigCommand.ClearPointer | src/commands/config.ts:335-338 | Removes the pointer and leaves every other setting and every profile. |
| ConfigCommand.PointTo | src/commands/config.ts:246-250 | Sets the pointer to the name and leaves every other setting and every profile. |
| ConfigCommand.SetProfileFlag | src/commands/config.ts:21-40 | `none` in any case, or a blank argument, clears the pointer. An existing profile's name sets it. Anything else changes nothing. |
| ConfigCommand.SavedProfile | src/commands/config.ts:233-242 | The saved profile has exactly eight properties: the answers, plus README `standard` and the `.gitignore` on. |
| ConfigCommand.SaveCommand | src/commands/config.ts:131-260 | The saved profile reads back. The pointer moves to it when asked for, and the settings stay otherwise. |
| ConfigCommand.UseCommand | src/commands/config.ts:263-297 | With no profile saved nothing happens. A missing name is an error. Otherwise the pointer moves to the name. |
| ConfigCommand.DeleteCommand | src/commands/config.ts:299-345 | Nothing happens without profiles or confirmation, and a missing name is an error. Otherwise the profile goes and every other profile and setting stays; the pointer goes with it exactly when it is `===` the name. |
| ConfigCommand.DeleteKeepsPointer | src/commands/config.ts:332-338 | With a string pointer, or none, deletion keeps the pointer on an existing profile. |
| ConfigCommand.DeleteCanDanglePointer | src/commands/config.ts:332-338 | Under the numeric pointer 123, deleting profile `123` leaves the pointer on a profile that no longer exists. |
| ConfigCommand.ShowCommand | src/commands/config.ts:347-393 | With no saved profile it reports that and succeeds with nothing. Otherwise it succeeds exactly for a saved profile, shows its contents, and reports it as default exactly when `defaultProfile` is `===` its name. |
| ConfigCommand.ParseSet | src/commands/config.ts:415-417 | The key is the text before the first `=`. The value is the rest with its own `=` kept, and `key=value` gives back the argument. |
| ConfigCommand.SetParts | src/commands/config.ts:415-417 | Without `=` the key is the whole argument and the value empty. Otherwise the key is the text before the first `=`, the re-joined rest is the text after it, and the two around `=` give back the argument. |
| ConfigCommand.ParseSetExample | src/commands/config.ts:415-417 | `a=b=c` sets `a` to `b=c`. |
| ConfigCommand.SetCommand | src/commands/config.ts:395-438 | The key reads back the text parsed as JSON, or the text itself when it does not parse. Every other setting is unchanged. |
| ConfigCommand.SetThenGet | src/commands/config.ts:415-432 | `--set k=v` with an `=`-free key reads back under that key. |
| ConfigCommand.SameSplit | src/commands/config.ts:415-417 | Two `=`-free keys followed by `=` that spell the same text are the same key with the same value. |
| ConfigCommand.PointerKept | src/commands/config.ts:21-297 | `--setprofile`, save, use and import keep the pointer on an existing profile. |
| ConfigCommand.SetCanDanglePointer | src/commands/config.ts:395-438 | `config set defaultProfile` can point at a missing profile, which `create` then quietly ignores. |
| ConfigCommand.SavedDefaultUsedByCreate | src/commands/config.ts:246-250 | A profile saved as the default is the one the next `create` without `--config` uses. |
| ConfigCommand.SavedProfileCompletesInit | src/commands/config.ts:233-242 | With a saved profile as the default, `init` as written resolves language, framework and license. |
| ConfigCommand.ProfileNameError | src/commands/config.ts:140-146 | No message exactly for a valid name. "required" exactly for a blank one. |
| Fork.ValidNameNoSlash | src/commands/fork.ts:22 | A name of word characters and hyphens has no slash. |
| Fork.IsShorthand | src/commands/fork.ts:22 | A shorthand is exactly a text with a slash that has a valid name on either side. |
| Fork.Expand | src/commands/fork.ts:34-37 | A shorthand becomes the GitHub address prefix, the shorthand and `.git`; anything else is used as given. |
| Fork.ShorthandOf | src/commands/fork.ts:34-37 | `owner/repo` for two valid names is a shorthand, and expands to the GitHub address ending in `.git`. |
| Fork.ShorthandParts | src/commands/fork.ts:35 | Any shorthand is `owner/repo` for the valid names on either side of its slash. |
| Fork.AfterLastSlash | src/commands/fork.ts:40 | Gives the slash-free text after the last slash, and nothing exactly when there is no slash. |
| Fork.DefaultName | src/commands/fork.ts:40-41 | The proposed name is never empty and holds no slash. |
| Fork.AfterLastSlashOf | src/commands/fork.ts:40 | The last segment is found whatever precedes its slash. |
| Fork.DefaultNameOf | src/commands/fork.ts:40-41 | A repository name comes out of its address with or without the `.git` suffix. |
| Fork.ShorthandDefaultName | src/commands/fork.ts:34-41 | Forking `owner/repo` proposes `repo`. |
| Fork.ProjectName | src/commands/fork.ts:45-111 | A truthy `--name` wins. Otherwise the validated reply is used, and the name is never empty. |
| Fork.CleanHistory | src/commands/fork.ts:57-151 | A given `--clean` decides; otherwise the reply does. |
| Fork.ForkPackageJson | src/commands/fork.ts:219-230 | Sets the sanitised name and version 1.0.0 and the description when given. Drops `repository`, keeps a truthy author or writes `""`, and leaves every other property alone. |
| Fork.ForkPackageJsonIdempotent | src/commands/fork.ts:219-230 | Rewriting an already rewritten manifest with the same inputs changes nothing. |
| Fork.ForkLicense | src/commands/fork.ts:241-266 | `keep` changes nothing. Any other choice removes the four license files and writes `LICENSE` unless it is `none`. Other files are untouched. |
| Fork.ForkLicenseIdempotent | src/commands/fork.ts:241-266 | Replacing the license twice equals replacing it once. |
| Fork.LicenseTitle | src/commands/fork.ts:259 | The new license's first line is the choice upper-cased, followed by ` License`. |
| Fork.Installer | src/commands/fork.ts:291-297 | `yarn` with `yarn.lock`, else `pnpm install` with `pnpm-lock.yaml`, else `npm install`. |
| Fork.InstallerMatchesCatalog | src/commands/fork.ts:291-297 | A project holding only the lock file of a catalog JavaScript manager is installed with the command `create` uses for that manager. |
| Fork.InstallCommand | src/commands/fork.ts:283-305 | Installs exactly when asked and a `package.json` exists, with the detected installer. |
| Fork.Hint | src/commands/fork.ts:325-339 | The hint follows the first manifest present: `package.json`, then `Cargo.toml`, then `go.mod`, then either Python manifest. |
| Fork.NextSteps | src/commands/fork.ts:320-339 | `cd <name>` first. A second line appears exactly when there is a hint, and it is the hint. |
| Fork.HintAfterLicense | src/commands/fork.ts:241-339 | The license step touches no manifest or lock file, so the hint and the installer are those of the clone. |
| Fork.GeneratedPath | src/utils/generator.ts:25-60 | A path is generated exactly when its file is. |
| Fork.HintOnGenerated | src/commands/fork.ts:325-339 | Forking a project this tool generated suggests that language's runner. For Python that is `python main.py`, although the entry is `src/main.py`. |
| ForkReadme.FirstWhere | src/commands/fork.ts:186 | `findIndex`: -1 exactly when no line matches, else the first match. |
| ForkReadme.FirstTitleIsFirstHash | src/commands/fork.ts:179-186 | A title line that comes first among the `#` lines is the first title line too. |
| ForkReadme.Retitle | src/commands/fork.ts:179 | Only the first title line changes, to `# <name>`. Without a title line nothing changes. |
| ForkReadme.RenamedIsTitle | src/commands/fork.ts:179 | A non-empty name gives a title line again. |
| ForkReadme.NoticeLines | src/commands/fork.ts:182-189 | Spliced in as one element and joined, the notice is three lines: blank, the notice, blank. |
| ForkReadme.LineBetweenFeeds | src/commands/fork.ts:182-189 | A line between two line feeds splits into a blank line, the line and a blank line, and joins back. |
| ForkReadme.InsertNotice | src/commands/fork.ts:185-190 | Adds the notice's three lines after the first `#` line. Without one, nothing changes. |
| ForkReadme.InsertNoticeRemovable | src/commands/fork.ts:185-190 | Taking the three inserted lines out again gives back the README. |
| ForkReadme.FirstDescribed | src/commands/fork.ts:195 | The first line where the description pattern matches, or -1. |
| ForkReadme.Describe | src/commands/fork.ts:193-199 | With a non-empty description, the first match becomes `# <name>`, a blank line and the description. |
| ForkReadme.DescriptionReplacesNotice | src/commands/fork.ts:179-199 | As written, when the first `#` line is the title, the description replaces the fork notice just inserted, not the paragraph under the title. |
| ForkReadme.RetitledFirstHash | src/commands/fork.ts:179-186 | Renaming the first `#` line keeps it the first `#` line. |
| ForkReadme.FirstDescribedIs | src/commands/fork.ts:186-195 | No line before the first `#` line matches the description pattern. |
| ForkReadme.DescribeKeepsTitle | src/commands/fork.ts:193-199 | The description step leaves a renamed first `#` line in place. |
| ForkReadme.CorrectedKeepsNotice | src/commands/fork.ts:179-199 | With the description settled first, the fork notice stays right under the renamed title. |
| ForkReadme.CorrectedDescribes | src/commands/fork.ts:179-199 | When the paragraph under the title matches, the description takes its place, below the notice. |
| ForkReadme.DescribedTitle | src/commands/fork.ts:195-197 | Matching at the title, the description step replaces the first three lines with the title, a blank line and the description. |
| ForkReadme.DescriptionExample | src/commands/fork.ts:179-199 | For `# A`, blank, `B`, name `n`, description `d`: as written, `B` survives and the notice is gone. Corrected, the notice follows the title and `d` replaces `B`. |
| ForkReadme.UpdateReadmeAsWritten | src/commands/fork.ts:176-199 | A README without a `#` line is left as it is. Without a description, the fork notice is shown. |
| ForkReadme.UpdateReadme | src/commands/fork.ts:176-199 | A README without a `#` line is left as it is. Otherwise the fork notice is shown, whatever the description. |
| ForkReadme.Untouched | src/commands/fork.ts:179-197 | Without a `#` line, renaming, the notice and the description all leave the lines alone. |
| ForkReadme.RetitleKeepsHash | src/commands/fork.ts:179-186 | Renaming keeps a `#` line in the README. |
| ForkReadme.DescribeKeepsHash | src/commands/fork.ts:193-199 | The description step keeps a `#` line in the README. |
| ForkReadme.NoticeShown | src/commands/fork.ts:185-190 | After insertion the notice occurs in the joined text. |

## Left out

- File-system effects (directory creation, `readJson`/`writeJson`, `pathExists`, `remove`) are not modelled as effects. Their outcome is a value: a `Store`, a map from path to contents, or a file list.
- `JSON.parse` is a parameter of `ConfigCommand.SetCommand` and an `Option` input of `ProfileStore.ImportProfile`. `JSON.stringify`, key order and indentation are not modelled.
- Spawned processes and git are not modelled: `execSync`, `git clone`, `simple-git`, `gh repo create` and `code`. Their steps appear only as the `Step` values that decide whether they run. Their failures, which the commands catch and report, are not modelled.
- Prompt defaults, prompt messages, icons, spinners, colours and boxes only change what is displayed, so they are not modelled.
- `create`'s custom-path question loop is not modelled. The path only decides where files go, and the project's relative layout is modelled.
- `create`'s and `fork`'s overwrite prompt for an existing target directory is not modelled, because it only removes the directory before the clone or the generation.
- Each wizard's question order is not modelled. Only whether a question is asked and what its reply feeds into are modelled.
- The `list`, `menu` and `ui` commands and `index.ts` argument registration are not modelled, because they only present things.
- The text of the license files the generator writes is not modelled. That is a separate licenses module, and the generator file `LICENSE` is only tracked as present or absent.
- `fork`'s general URL-validation regular expressions are not modelled: the HTTPS form and the `git@` form. Only the shorthand test and the name extraction are modelled, because only they decide a value.
- `Text.Lower`: maps ASCII letters only. `toLowerCase` on non-ASCII letters is not modelled.
- Text.Upper: maps ASCII letters only and keeps the length. `toUpperCase` changes both length and content for some characters: `ß` becomes `SS` and `ﬁ` becomes `FI`. This matters where the standard README upper-cases a free `--license` or profile license (src/utils/readme.ts:66, 88).
- PackageJson.SanitizeName: its length and `[a-z0-9-]` claims hold for the model's ASCII-only lower-casing. In JavaScript the Kelvin sign (U+212A) lower-cases to `k`, which is kept. U+0130 lower-cases to two code units, and an astral character is two UTF-16 units that `replace` turns into `--`, so the length changes.
- PackageJson.SanitizeNameAscii: states the ASCII case only. For the Kelvin sign the source keeps `k` where the model writes `-`.
- Prompts.SafeName: the same ASCII-only reading as `PackageJson.SanitizeName`, with the same exceptions for U+212A, U+0130 and astral characters.
- ForkReadme.Retitle, ForkReadme.Describe: treat the `m`-flag `^` and `$` as anchors at line feeds only. JavaScript also breaks lines at `\r`, U+2028 and U+2029. In `Describe` the pattern's `\n\n` never matches a CRLF README, so the source keeps the notice there, while the model replaces it.
- ForkReadme.Retitle, ForkReadme.Describe: read the `\s+` after `#` as spaces within the line. JavaScript's `\s` also matches a line feed, so `#` followed by a newline and text would match across lines.
- ForkReadme.Retitle, ForkReadme.Describe: replace with the name and the description as literal text. `--name` is not validated, so `--name 'x$$y'` titles the source's README `# x$y` where the model writes `# x$$y`. `String.prototype.replace` would expand `$&` and similar patterns inside them.
- `Fork.ForkPackageJson`: models a `package.json` whose top level is an object. Any other top level makes the source throw, and the command only reports that.
- `createProfileFromOptions` is not modelled, because its profile name comes from the clock and no command calls it.
- `exportProfile` and the `export` and `get` actions are not modelled beyond their names. They read a profile or setting and print it.
- The help text of `config` is not modelled; `ParseAction` returning `None` stands for showing it.
- Fork.CleanHistory: models the question asked when `--clean` is undefined, although `index.ts` registers `--clean` with the default `false`, so from the command line the question never runs.
- `ConfigCommand.SetProfileFlag`: models the `--setprofile` branch, although `index.ts` registers no such option, so from the command line it is unreachable.
- The prompt answers of `fork` other than name, clean, description, license and install are not modelled, because they only switch steps on or off: README and `package.json` update, editor.
- Generator.GitignoreLines: treats a language the table lacks as a miss. A JavaScript record lookup also finds inherited `Object.prototype` members, so `-l constructor` (or `toString`, `__proto__`) makes the source call `.join` on a function and exit with an error.
- Readme.LanguageColor: treats `constructor` and the other inherited names as misses. The source puts the inherited function's text into the badge.
- Readme.FileExtension: the same inherited-name lookups are misses here. The source interpolates the function's text.
- Readme.InstallInstructions: the same inherited-name lookups are misses here. The source interpolates the function's text.
- Readme.Prerequisites: the same inherited-name lookups are misses here. The source interpolates the function's text.
- Readme.InstallCommand: the same inherited-name lookups are misses here. The source interpolates the function's text.
- Options.PmInstall: a manager named after an inherited member falls back to `npm install` here. The source passes a function to `execSync`.
- Json.ToText: JSON numbers are the model's unbounded integers. `JSON.parse` gives doubles, so the model does not cover fractions such as `1.5`, the exponent form `${1e21}` = `1e+21` (the model writes 22 digits), or the rounding of integers above 2^53.
- ProfileStore.DefaultProfileName: follows a numeric pointer through `Json.ToText`, so it has the same gaps. A pointer of `1.5` or `1e21` is not representable, and the decimal text is exact only below 10^21 and 2^53.
- Prompts.Complete: where the merge leaves a field undefined, the model stops. The source still calls `generateProject` with the undefined fields (src/commands/create.ts:347, src/commands/init.ts:181). It then creates the base directories, writes the JavaScript fallback `.gitignore`, calls `generateLicense(undefined)` because `undefined !== 'none'`, and writes a README from undefined values. That run is not modelled.
- ProfileStore.ImportProfile: a profile is the thirteen option keys with string, boolean or list values. `config import` saves any JSON object. Extra keys and `null` values are not modelled.
- Options.ProfileActiveIff: counts only the thirteen typed properties. In the source a profile with only an extra key, such as `{"author":"x"}`, is active, and a `null` property skips `create`'s `=== undefined` question where the model's `None` asks it.

## Findings

| source | as written | input that shows it | evidently intended | confidence | as-written member | corrected member |
|---|---|---|---|---|---|---|
| src/commands/fork.ts:179-199 | The notice is inserted right under the title. Then the description regex `^#\s+.+\n\n(.+)$` matches the title, the notice's blank line and the notice. | README `# A\n\nB`, name `n`, description `d` gives `# n`, blank, `d`, blank, blank, `B`: the notice is lost and `B` stays. | The notice stays under the title, and the description replaces the paragraph under the title. | medium, not executed | ForkReadme.DescriptionReplacesNotice, ForkReadme.DescriptionExample | ForkReadme.CorrectedKeepsNotice, ForkReadme.CorrectedDescribes |
| src/commands/create.ts:89-202 | A question is skipped when the profile's property is not `undefined`, but the merge takes the profile's value with `\|\|`. | A profile `{"language": ""}` with no flags: the question is skipped and the merge leaves the language undefined. | Ask whenever the flag and the profile supply no truthy value. | medium, not executed | Create.CreateLanguageUndefined, Create.CreateEmptyLanguageExample | Create.CreateOptions, Create.CreatePrecedence, Create.CreateCorrectionAgrees |
| src/commands/init.ts:66-167 | An active profile skips the language, framework and license questions even when it has none of them. | A default profile `{"git": true}` with no flags: all three stay undefined. | Ask those three unless a flag or the profile supplies them. | medium, not executed | Init.InitLanguageUndefined, Init.InitGitOnlyProfileExample | Init.InitOptions, Init.InitPrecedence, Init.InitCorrectionAgrees |
| src/commands/create.ts:424-425 | The closing hint for Python prints `python main.py`. `init` prints the same line (src/commands/init.ts:242-243). | Any Python project: the generator writes the entry at `src/main.py` (src/utils/generator.ts:141-143), and the README runs `python src/main.py`. | `python src/main.py` | high, not executed | Prompts.RunHintMissesPythonEntry, Create.NextSteps, Init.NextSteps | Prompts.RunHint, Prompts.RunHintAgrees |

=== FILE: catalog.dfy ===
/** The static tables every command consults: supported languages,
    frameworks (each declaring the languages it supports), licenses,
    package managers, template directories keyed by language and framework,
    and the ignore-pattern lists keyed by language. */
module Catalog {

  import opened Wrappers
  import opened Text

  datatype Language = Language(id: string, name: string, extensions: seq<string>)

  datatype Framework = Framework(id: string, name: string, languages: seq<string>)

  datatype License = License(id: string, name: string, url: string)

  datatype PackageManager = PackageManager(id: string, name: string, languages: seq<string>, lockFile: string)

  /** One entry of the template-directory table; its key is
      `<language>-<framework>`. */
  datatype TemplateEntry = TemplateEntry(language: string, framework: string, directory: string)

  const Languages: seq<Language> := [
    Language("javascript", "JavaScript", [".js", ".jsx"]),
    Language("typescript", "TypeScript", [".ts", ".tsx"]),
    Language("python", "Python", [".py"]),
    Language("go", "Go", [".go"]),
    Language("rust", "Rust", [".rs"]),
    Language("ruby", "Ruby", [".rb"]),
    Language("csharp", "C#", [".cs"]),
    Language("php", "PHP", [".php"]),
    Language("java", "Java", [".java"]),
    Language("kotlin", "Kotlin", [".kt"]),
    Language("swift", "Swift", [".swift"]),
    Language("cpp", "C++", [".cpp", ".cc", ".h"])
  ]

  const JsTs: seq<string> := ["javascript", "typescript"]

  const Frameworks: seq<Framework> := [
    Framework("react", "React", JsTs),
    Framework("next", "Next.js", JsTs),
    Framework("vue", "Vue.js", JsTs),
    Framework("nuxt", "Nuxt.js", JsTs),
    Framework("svelte", "Svelte", JsTs),
    Framework("sveltekit", "SvelteKit", JsTs),
    Framework("angular", "Angular", ["typescript"]),
    Framework("express", "Express", JsTs),
    Framework("nestjs", "NestJS", ["typescript"]),
    Framework("fastify", "Fastify", JsTs),
    Framework("koa", "Koa", JsTs),
    Framework("remix", "Remix", JsTs),
    Framework("astro", "Astro", JsTs),
    Framework("vite", "Vite", JsTs),
    Framework("flask", "Flask", ["python"]),
    Framework("django", "Django", ["python"]),
    Framework("fastapi", "FastAPI", ["python"]),
    Framework("pyramid", "Pyramid", ["python"]),
    Framework("gin", "Gin", ["go"]),
    Framework("echo", "Echo", ["go"]),
    Framework("fiber", "Fiber", ["go"]),
    Framework("actix", "Actix", ["rust"]),
    Framework("rocket", "Rocket", ["rust"]),
    Framework("axum", "Axum", ["rust"]),
    Framework("rails", "Ruby on Rails", ["ruby"]),
    Framework("sinatra", "Sinatra", ["ruby"]),
    Framework("laravel", "Laravel", ["php"]),
    Framework("symfony", "Symfony", ["php"]),
    Framework("slim", "Slim", ["php"]),
    Framework("aspnet", "ASP.NET Core", ["csharp"]),
    Framework("blazor", "Blazor", ["csharp"])
  ]

  const Licenses: seq<License> := [
    License("mit", "MIT License", "https://opensource.org/licenses/MIT"),
    License("apache2", "Apache 2.0", "https://www.apache.org/licenses/LICENSE-2.0"),
    License("gpl3", "GPLv3", "https://www.gnu.org/licenses/gpl-3.0.html"),
    License("bsd3", "BSD 3-Clause", "https://opensource.org/licenses/BSD-3-Clause"),
    License("mpl2", "MPL 2.0", "https://www.mozilla.org/MPL/2.0/"),
    License("unlicense", "Unlicense", "https://unlicense.org/"),
    License("proprietary", "Proprietary", ""),
    License("none", "No License", "")
  ]

  const PackageManagers: seq<PackageManager> := [
    PackageManager("npm", "npm", JsTs, "package-lock.json"),
    PackageManager("yarn", "Yarn", JsTs, "yarn.lock"),
    PackageManager("pnpm", "pnpm", JsTs, "pnpm-lock.yaml"),
    PackageManager("pip", "pip", ["python"], "requirements.txt"),
    PackageManager("poetry", "Poetry", ["python"], "poetry.lock"),
    PackageManager("cargo", "Cargo", ["rust"], "Cargo.lock"),
    PackageManager("go", "Go Modules", ["go"], "go.sum"),
    PackageManager("bundler", "Bundler", ["ruby"], "Gemfile.lock"),
    PackageManager("composer", "Composer", ["php"], "composer.lock"),
    PackageManager("nuget", "NuGet", ["csharp"], "packages.lock.json")
  ]

  const TemplateEntries: seq<TemplateEntry> := [
    TemplateEntry("javascript", "none", "vanilla-js"),
    TemplateEntry("typescript", "none", "vanilla-ts"),
    TemplateEntry("javascript", "react", "react-js"),
    TemplateEntry("typescript", "react", "react-ts"),
    TemplateEntry("javascript", "next", "nextjs-js"),
    TemplateEntry("typescript", "next", "nextjs-ts"),
    TemplateEntry("javascript", "vue", "vue-js"),
    TemplateEntry("typescript", "vue", "vue-ts"),
    TemplateEntry("javascript", "svelte", "svelte-js"),
    TemplateEntry("typescript", "svelte", "svelte-ts"),
    TemplateEntry("javascript", "express", "express-js"),
    TemplateEntry("typescript", "express", "express-ts"),
    TemplateEntry("typescript", "nestjs", "nestjs"),
    TemplateEntry("python", "none", "vanilla-python"),
    TemplateEntry("python", "flask", "flask"),
    TemplateEntry("python", "django", "django"),
    TemplateEntry("python", "fastapi", "fastapi"),
    TemplateEntry("go", "none", "vanilla-go"),
    TemplateEntry("go", "gin", "gin"),
    TemplateEntry("go", "fiber", "fiber"),
    TemplateEntry("rust", "none", "vanilla-rust"),
    TemplateEntry("rust", "actix", "actix"),
    TemplateEntry("rust", "rocket", "rocket"),
    TemplateEntry("ruby", "none", "vanilla-ruby"),
    TemplateEntry("ruby", "rails", "rails"),
    TemplateEntry("php", "none", "vanilla-php"),
    TemplateEntry("php", "laravel", "laravel"),
    TemplateEntry("csharp", "aspnet", "aspnet")
  ]

  function TemplateKey(e: TemplateEntry): string {
    e.language + "-" + e.framework
  }

  /** A keyed record built from entries in order; as in an object literal,
      a later entry with the same key would replace an earlier one. */
  function EntriesToMap(es: seq<TemplateEntry>): map<string, string>
    decreases |es|
  {
    if |es| == 0 then map[]
    else EntriesToMap(es[..|es| - 1])[TemplateKey(es[|es| - 1]) := es[|es| - 1].directory]
  }

  /** The template-directory table as the keyed record the source declares. */
  function TemplatePaths(): map<string, string> {
    EntriesToMap(TemplateEntries)
  }

  /** The ignore-pattern list recorded for a language, if any. */
  function GitignoreTemplate(language: string): Option<seq<string>> {
    match language
    case "javascript" => Some([
      "node_modules/", "dist/", "build/", ".env", ".env.local", ".env.*.local",
      "npm-debug.log*", "yarn-debug.log*", "yarn-error.log*", ".DS_Store", "*.log",
      ".vscode/", ".idea/", "*.swp", "*.swo", "coverage/", ".nyc_output/"])
    case "typescript" => Some([
      "node_modules/", "dist/", "build/", "*.js", "*.js.map", "*.d.ts", ".env",
      ".env.local", ".env.*.local", "npm-debug.log*", "yarn-debug.log*", "yarn-error.log*",
      ".DS_Store", "*.log", ".vscode/", ".idea/", "*.swp", "*.swo", "coverage/", ".nyc_output/"])
    case "python" => Some([
      "__pycache__/", "*.py[cod]", "*$py.class", "*.so", ".Python", "build/",
      "develop-eggs/", "dist/", "downloads/", "eggs/", ".eggs/", "lib/", "lib64/",
      "parts/", "sdist/", "var/", "wheels/", "*.egg-info/", ".installed.cfg", "*.egg",
      "MANIFEST", ".env", ".venv", "env/", "venv/", "ENV/", ".DS_Store", ".vscode/",
      ".idea/", "*.swp", "*.swo"])
    case "go" => Some([
      "*.exe", "*.exe~", "*.dll", "*.so", "*.dylib", "*.test", "*.out", "vendor/",
      ".DS_Store", ".idea/", ".vscode/", "*.swp", "*.swo"])
    case "rust" => Some([
      "target/", "Cargo.lock", "**/*.rs.bk", ".DS_Store", ".idea/", ".vscode/", "*.swp", "*.swo"])
    case "ruby" => Some([
      "*.gem", "*.rbc", "/.config", "/coverage/", "/InstalledFiles", "/pkg/",
      "/spec/reports/", "/spec/examples.txt", "/test/tmp/", "/test/version_tmp/", "/tmp/",
      ".DS_Store", ".idea/", ".vscode/", "*.swp", "*.swo"])
    case "php" => Some([
      "/vendor/", "composer.lock", ".env", ".DS_Store", ".idea/", ".vscode/", "*.swp", "*.swo"])
    case "csharp" => Some([
      "bin/", "obj/", ".vs/", "*.user", "*.suo", ".DS_Store", ".idea/", ".vscode/", "*.swp", "*.swo"])
    case _ => None
  }

  // ---------------------------------------------------------------------
  // Lookups

  function LanguageIds(): seq<string> {
    seq(|Languages|, i requires 0 <= i < |Languages| => Languages[i].id)
  }

  function FrameworkIds(): seq<string> {
    seq(|Frameworks|, i requires 0 <= i < |Frameworks| => Frameworks[i].id)
  }

  function LicenseIds(): seq<string> {
    seq(|Licenses|, i requires 0 <= i < |Licenses| => Licenses[i].id)
  }

  function PackageManagerIds(): seq<string> {
    seq(|PackageManagers|, i requires 0 <= i < |PackageManagers| => PackageManagers[i].id)
  }

  const LanguageIdList: seq<string> := [
    "javascript", "typescript", "python", "go", "rust", "ruby",
    "csharp", "php", "java", "kotlin", "swift", "cpp"
  ]

  predicate Distinct(ids: seq<string>) {
    forall i, j :: 0 <= i < j < |ids| ==> ids[i] != ids[j]
  }

  /** True iff the framework table has a row `fw` whose languages include
      `lang` (the `f.languages.includes(lang)` test of the wizards). */
  predicate FrameworkSupports(fw: string, lang: string) {
    exists k :: 0 <= k < |Frameworks| && Frameworks[k].id == fw && lang in Frameworks[k].languages
  }

  lemma LanguageIdsAre()
    ensures LanguageIds() == LanguageIdList
  {
  }

  // ---------------------------------------------------------------------
  // Cross-table invariants

  /** Language ids are unique, so every id names one row. */
  lemma LanguageIdsDistinct()
    ensures Distinct(LanguageIds())
  {
    LanguageIdsAre();
    LanguageIdListDistinct();
  }

  lemma LanguageIdListDistinct()
    ensures Distinct(LanguageIdList)
  {
  }

  const FrameworkIdList: seq<string> := [
    "react", "next", "vue", "nuxt", "svelte", "sveltekit", "angular", "express",
    "nestjs", "fastify", "koa", "remix", "astro", "vite", "flask", "django", "fastapi",
    "pyramid", "gin", "echo", "fiber", "actix", "rocket", "axum", "rails", "sinatra",
    "laravel", "symfony", "slim", "aspnet", "blazor"
  ]

  lemma FrameworkIdsAre()
    ensures FrameworkIds() == FrameworkIdList
  {
  }

  lemma FrameworkIdsDistinctFrom0()
    ensures forall i, j :: 0 <= i < 4 && i < j < |FrameworkIdList| ==> FrameworkIdList[i] != FrameworkIdList[j]
  {
  }

  lemma FrameworkIdsDistinctFrom4()
    ensures forall i, j :: 4 <= i < 8 && i < j < |FrameworkIdList| ==> FrameworkIdList[i] != FrameworkIdList[j]
  {
  }

  lemma FrameworkIdsDistinctFrom8()
    ensures forall i, j :: 8 <= i < 16 && i < j < |FrameworkIdList| ==> FrameworkIdList[i] != FrameworkIdList[j]
  {
  }

  lemma FrameworkIdsDistinctFrom16()
    ensures forall i, j :: 16 <= i < 24 && i < j < |FrameworkIdList| ==> FrameworkIdList[i] != FrameworkIdList[j]
  {
  }

  lemma FrameworkIdsDistinctFrom24()
    ensures forall i, j :: 24 <= i < 31 && i < j < |FrameworkIdList| ==> FrameworkIdList[i] != FrameworkIdList[j]
  {
  }

  /** Framework ids are unique. */
  lemma FrameworkIdsDistinct()
    ensures Distinct(FrameworkIds())
  {
    FrameworkIdsAre();
    FrameworkIdsDistinctFrom0();
    FrameworkIdsDistinctFrom4();
    FrameworkIdsDistinctFrom8();
    FrameworkIdsDistinctFrom16();
    FrameworkIdsDistinctFrom24();
  }

  /** License ids are unique and include the `none` choice that suppresses
      the LICENSE file. */
  lemma LicenseIdsDistinct()
    ensures Distinct(LicenseIds())
    ensures "none" in LicenseIds()
  {
    assert LicenseIds()[7] == "none";
  }

  const PackageManagerIdList: seq<string> := [
    "npm", "yarn", "pnpm", "pip", "poetry", "cargo", "go", "bundler", "composer", "nuget"
  ]

  lemma PackageManagerIdsAre()
    ensures PackageManagerIds() == PackageManagerIdList
  {
  }

  lemma PackageManagerIdsDistinctFrom0()
    ensures forall i, j :: 0 <= i < 5 && i < j < |PackageManagerIdList| ==> PackageManagerIdList[i] != PackageManagerIdList[j]
  {
  }

  lemma PackageManagerIdsDistinctFrom5()
    ensures forall i, j :: 5 <= i < 10 && i < j < |PackageManagerIdList| ==> PackageManagerIdList[i] != PackageManagerIdList[j]
  {
  }

  /** Package-manager ids are unique. */
  lemma PackageManagerIdsDistinct()
    ensures Distinct(PackageManagerIds())
  {
    PackageManagerIdsAre();
    PackageManagerIdsDistinctFrom0();
    PackageManagerIdsDistinctFrom5();
  }

  /** Every language a framework declares is a row of the language table. */
  lemma FrameworkLanguagesKnown()
    ensures forall i :: 0 <= i < |Frameworks| ==>
      forall l :: l in Frameworks[i].languages ==> l in LanguageIds()
  {
    LanguageIdsAre();
  }

  /** Every language a package manager declares is a row of the language
      table. */
  lemma PackageManagerLanguagesKnown()
    ensures forall i :: 0 <= i < |PackageManagers| ==>
      forall l :: l in PackageManagers[i].languages ==> l in LanguageIds()
  {
    LanguageIdsAre();
  }

  lemma FrameworkRowSupports(i: int, k: int)
    requires 0 <= i < |TemplateEntries| && 0 <= k < |Frameworks|
    requires Frameworks[k].id == TemplateEntries[i].framework
    requires TemplateEntries[i].language in Frameworks[k].languages
    ensures FrameworkSupports(TemplateEntries[i].framework, TemplateEntries[i].language)
  {
  }

  /** Template row `i` pairs `none`, or a framework declaring the row's
      language, with that language. */
  predicate TemplateRowCompatible(i: int)
    requires 0 <= i < |TemplateEntries|
  {
    TemplateEntries[i].framework == "none" ||
    FrameworkSupports(TemplateEntries[i].framework, TemplateEntries[i].language)
  }

  lemma TemplateRow2Compatible()
    ensures TemplateRowCompatible(2)
  {
    FrameworkRowSupports(2, 0);
  }

  lemma TemplateRow3Compatible()
    ensures TemplateRowCompatible(3)
  {
    FrameworkRowSupports(3, 0);
  }

  lemma TemplateRow4Compatible()
    ensures TemplateRowCompatible(4)
  {
    FrameworkRowSupports(4, 1);
  }

  lemma TemplateRow5Compatible()
    ensures TemplateRowCompatible(5)
  {
    FrameworkRowSupports(5, 1);
  }

  lemma TemplateRow6Compatible()
    ensures TemplateRowCompatible(6)
  {
    FrameworkRowSupports(6, 2);
  }

  lemma TemplateRow7Compatible()
    ensures TemplateRowCompatible(7)
  {
    FrameworkRowSupports(7, 2);
  }

  lemma TemplateRow8Compatible()
    ensures TemplateRowCompatible(8)
  {
    FrameworkRowSupports(8, 4);
  }

  lemma TemplateRow9Compatible()
    ensures TemplateRowCompatible(9)
  {
    FrameworkRowSupports(9, 4);
  }

  lemma TemplateRow10Compatible()
    ensures TemplateRowCompatible(10)
  {
    FrameworkRowSupports(10, 7);
  }

  lemma TemplateRow11Compatible()
    ensures TemplateRowCompatible(11)
  {
    FrameworkRowSupports(11, 7);
  }

  lemma TemplateRow12Compatible()
    ensures TemplateRowCompatible(12)
  {
    FrameworkRowSupports(12, 8);
  }

  lemma TemplateRow14Compatible()
    ensures TemplateRowCompatible(14)
  {
    FrameworkRowSupports(14, 14);
  }

  lemma TemplateRow15Compatible()
    ensures TemplateRowCompatible(15)
  {
    FrameworkRowSupports(15, 15);
  }

  lemma TemplateRow16Compatible()
    ensures TemplateRowCompatible(16)
  {
    FrameworkRowSupports(16, 16);
  }

  lemma TemplateRow18Compatible()
    ensures TemplateRowCompatible(18)
  {
    FrameworkRowSupports(18, 18);
  }

  lemma TemplateRow19Compatible()
    ensures TemplateRowCompatible(19)
  {
    FrameworkRowSupports(19, 20);
  }

  lemma TemplateRow21Compatible()
    ensures TemplateRowCompatible(21)
  {
    FrameworkRowSupports(21, 21);
  }

  lemma TemplateRow22Compatible()
    ensures TemplateRowCompatible(22)
  {
    FrameworkRowSupports(22, 22);
  }

  lemma TemplateRow24Compatible()
    ensures TemplateRowCompatible(24)
  {
    FrameworkRowSupports(24, 24);
  }

  lemma TemplateRow26Compatible()
    ensures TemplateRowCompatible(26)
  {
    FrameworkRowSupports(26, 26);
  }

  lemma TemplateRow27Compatible()
    ensures TemplateRowCompatible(27)
  {
    FrameworkRowSupports(27, 29);
  }

  lemma TemplateRowsCompatible0()
    ensures forall i :: 0 <= i < 7 ==> TemplateRowCompatible(i)
  {
    forall i | 0 <= i < 7
      ensures TemplateRowCompatible(i)
    {
      if i == 2 {
        TemplateRow2Compatible();
      } else if i == 3 {
        TemplateRow3Compatible();
      } else if i == 4 {
        TemplateRow4Compatible();
      } else if i == 5 {
        TemplateRow5Compatible();
      } else if i == 6 {
        TemplateRow6Compatible();
      }
    }
  }

  lemma TemplateRowsCompatible7()
    ensures forall i :: 7 <= i < 14 ==> TemplateRowCompatible(i)
  {
    forall i | 7 <= i < 14
      ensures TemplateRowCompatible(i)
    {
      if i == 7 {
        TemplateRow7Compatible();
      } else if i == 8 {
        TemplateRow8Compatible();
      } else if i == 9 {
        TemplateRow9Compatible();
      } else if i == 10 {
        TemplateRow10Compatible();
      } else if i == 11 {
        TemplateRow11Compatible();
      } else if i == 12 {
        TemplateRow12Compatible();
      }
    }
  }

  lemma TemplateRowsCompatible14()
    ensures forall i :: 14 <= i < 21 ==> TemplateRowCompatible(i)
  {
    forall i | 14 <= i < 21
      ensures TemplateRowCompatible(i)
    {
      if i == 14 {
        TemplateRow14Compatible();
      } else if i == 15 {
        TemplateRow15Compatible();
      } else if i == 16 {
        TemplateRow16Compatible();
      } else if i == 18 {
        TemplateRow18Compatible();
      } else if i == 19 {
        TemplateRow19Compatible();
      }
    }
  }

  lemma TemplateRowsCompatible21()
    ensures forall i :: 21 <= i < 28 ==> TemplateRowCompatible(i)
  {
    forall i | 21 <= i < 28
      ensures TemplateRowCompatible(i)
    {
      if i == 21 {
        TemplateRow21Compatible();
      } else if i == 22 {
        TemplateRow22Compatible();
      } else if i == 24 {
        TemplateRow24Compatible();
      } else if i == 26 {
        TemplateRow26Compatible();
      } else if i == 27 {
        TemplateRow27Compatible();
      }
    }
  }

  /** Every template key pairs a known language with `none` or with a
      framework that declares that language. */
  lemma TemplateKeysCompatible()
    ensures forall i :: 0 <= i < |TemplateEntries| ==> TemplateEntries[i].language in LanguageIds()
    ensures forall i :: 0 <= i < |TemplateEntries| ==> TemplateRowCompatible(i)
  {
    LanguageIdsAre();
    TemplateRowsCompatible0();
    TemplateRowsCompatible7();
    TemplateRowsCompatible14();
    TemplateRowsCompatible21();
  }

  /** The hyphen after a hyphen-free language is the first one in the key,
      so the key splits back into its two parts. */
  lemma TemplateKeyParts(e: TemplateEntry)
    requires '-' !in e.language
    ensures IndexOf(TemplateKey(e), '-') == |e.language|
    ensures TemplateKey(e)[..|e.language|] == e.language
    ensures TemplateKey(e)[|e.language| + 1..] == e.framework
  {
    IndexOfAfter(e.language, '-', e.framework);
    assert TemplateKey(e) == e.language + ['-'] + e.framework;
  }

  /** Keys of entries whose languages are hyphen-free are distinct as soon
      as the (language, framework) pairs are. */
  lemma KeysDistinctFromPairs(es: seq<TemplateEntry>)
    requires forall i :: 0 <= i < |es| ==> '-' !in es[i].language
    requires forall i, j :: 0 <= i < j < |es| ==>
      es[i].language != es[j].language || es[i].framework != es[j].framework
    ensures forall i, j :: 0 <= i < j < |es| ==> TemplateKey(es[i]) != TemplateKey(es[j])
  {
    forall i, j | 0 <= i < j < |es|
      ensures TemplateKey(es[i]) != TemplateKey(es[j])
    {
      TemplateKeyParts(es[i]);
      TemplateKeyParts(es[j]);
    }
  }

  /** No two template entries share a key, so no entry is shadowed. */
  lemma TemplateKeysDistinct()
    ensures forall i, j :: 0 <= i < j < |TemplateEntries| ==>
      TemplateKey(TemplateEntries[i]) != TemplateKey(TemplateEntries[j])
  {
    TemplateLanguagesHyphenFree();
    TemplatePairsDistinct();
    KeysDistinctFromPairs(TemplateEntries);
  }

  lemma TemplateLanguagesHyphenFree()
    ensures forall i :: 0 <= i < |TemplateEntries| ==> '-' !in TemplateEntries[i].language
  {
    TemplateLanguagesHyphenFree0();
    TemplateLanguagesHyphenFree7();
    TemplateLanguagesHyphenFree14();
    TemplateLanguagesHyphenFree21();
  }

  /** No template entry repeats a (language, framework) pair. */
  lemma TemplatePairsDistinct()
    ensures forall i, j :: 0 <= i < j < |TemplateEntries| ==>
      TemplateEntries[i].language != TemplateEntries[j].language ||
      TemplateEntries[i].framework != TemplateEntries[j].framework
  {
    TemplatePairsDistinct0();
    TemplatePairsDistinct7();
    TemplatePairsDistinct14();
    TemplatePairsDistinct21();
  }

  lemma TemplateLanguagesHyphenFree0()
    ensures forall i :: 0 <= i < 7 ==> '-' !in TemplateEntries[i].language
  {
  }

  lemma TemplateLanguagesHyphenFree7()
    ensures forall i :: 7 <= i < 14 ==> '-' !in TemplateEntries[i].language
  {
  }

  lemma TemplateLanguagesHyphenFree14()
    ensures forall i :: 14 <= i < 21 ==> '-' !in TemplateEntries[i].language
  {
  }

  lemma TemplateLanguagesHyphenFree21()
    ensures forall i :: 21 <= i < 28 ==> '-' !in TemplateEntries[i].language
  {
  }

  lemma TemplatePairsDistinct0()
    ensures forall i, j :: 0 <= i < 7 && i < j < |TemplateEntries| ==>
      TemplateEntries[i].language != TemplateEntries[j].language ||
      TemplateEntries[i].framework != TemplateEntries[j].framework
  {
  }

  lemma TemplatePairsDistinct7()
    ensures forall i, j :: 7 <= i < 14 && i < j < |TemplateEntries| ==>
      TemplateEntries[i].language != TemplateEntries[j].language ||
      TemplateEntries[i].framework != TemplateEntries[j].framework
  {
  }

  lemma TemplatePairsDistinct14()
    ensures forall i, j :: 14 <= i < 21 && i < j < |TemplateEntries| ==>
      TemplateEntries[i].language != TemplateEntries[j].language ||
      TemplateEntries[i].framework != TemplateEntries[j].framework
  {
  }

  lemma TemplatePairsDistinct21()
    ensures forall i, j :: 21 <= i < 28 && i < j < |TemplateEntries| ==>
      TemplateEntries[i].language != TemplateEntries[j].language ||
      TemplateEntries[i].framework != TemplateEntries[j].framework
  {
  }

  /** With distinct keys, the keyed record maps every entry's key to that
      entry's directory and has no other keys. */
  lemma {:induction false} EntriesToMapLookup(es: seq<TemplateEntry>)
    requires forall i, j :: 0 <= i < j < |es| ==> TemplateKey(es[i]) != TemplateKey(es[j])
    ensures forall i :: 0 <= i < |es| ==>
      TemplateKey(es[i]) in EntriesToMap(es) && EntriesToMap(es)[TemplateKey(es[i])] == es[i].directory
    ensures forall k :: k in EntriesToMap(es) ==> exists i :: 0 <= i < |es| && TemplateKey(es[i]) == k
    decreases |es|
  {
    if |es| > 0 {
      var init := es[..|es| - 1];
      EntriesToMapLookup(init);
      forall k | k in EntriesToMap(es)
        ensures exists i :: 0 <= i < |es| && TemplateKey(es[i]) == k
      {
        if k != TemplateKey(es[|es| - 1]) {
          var i :| 0 <= i < |init| && TemplateKey(init[i]) == k;
          assert TemplateKey(es[i]) == k;
        }
      }
    }
  }

  /** Looking up `<language>-<framework>` for any entry yields its directory. */
  lemma TemplatePathsLookup()
    ensures forall i :: 0 <= i < |TemplateEntries| ==>
      TemplateKey(TemplateEntries[i]) in TemplatePaths() &&
      TemplatePaths()[TemplateKey(TemplateEntries[i])] == TemplateEntries[i].directory
  {
    TemplateKeysDistinct();
    EntriesToMapLookup(TemplateEntries);
  }

  /** The ignore table is keyed by language ids only; java, kotlin, swift
      and cpp have no entry of their own, and the javascript entry that
      serves as fallback exists. */
  lemma GitignoreKeysAreLanguages()
    ensures forall k :: GitignoreTemplate(k).Some? ==> k in LanguageIds()
    ensures GitignoreTemplate("java").None? && GitignoreTemplate("kotlin").None?
    ensures GitignoreTemplate("swift").None? && GitignoreTemplate("cpp").None?
    ensures GitignoreTemplate("javascript").Some?
  {
    LanguageIdsAre();
    GitignoreKeysListed();
  }

  lemma GitignoreKeysListed()
    ensures forall k :: GitignoreTemplate(k).Some? ==> k in LanguageIdList
  {
    forall k | GitignoreTemplate(k).Some?
      ensures k in LanguageIdList
    {
      assert k in ["javascript", "typescript", "python", "go", "rust", "ruby", "php", "csharp"];
    }
  }
}

=== FILE: config_command.dfy ===
/** The `config` command: the action names and their aliases, the
    `--setprofile` shortcut, saving, using, deleting and showing profiles,
    `key=value` settings, and how each keeps the default-profile pointer. */
module ConfigCommand {

  import opened Wrappers
  import opened Text
  import opened Options
  import opened ProfileStore
  import Json
  import Create
  import Init
  import Prompts

  datatype Action = List | Save | Use | Delete | Show | Set | Get | Export | Import

  /** The action an argument names, in any letter case; `None` shows the
      help, for a missing, empty or unknown action alike. */
  function ParseAction(action: Option<string>): (r: Option<Action>)
    ensures r.Some? <==> TruthyStr(action) && Lower(action.value) in ActionNames
  {
    NamedKnown(Lower(if TruthyStr(action) then action.value else ""));
    ActionNamed(Lower(if TruthyStr(action) then action.value else ""))
  }

  /** The action a lower-case name or alias stands for. */
  function ActionNamed(act: string): Option<Action>
  {
    if act == "list" || act == "ls" then Some(List)
    else if act == "save" || act == "create" then Some(Save)
    else if act == "load" || act == "use" then Some(Use)
    else if act == "delete" || act == "remove" || act == "rm" then Some(Delete)
    else if act == "show" || act == "view" then Some(Show)
    else if act == "set" then Some(Set)
    else if act == "get" then Some(Get)
    else if act == "export" then Some(Export)
    else if act == "import" then Some(Import)
    else None
  }

  /** The name the help lists for each action. */
  function Canonical(a: Action): string {
    match a
    case List => "list"
    case Save => "save"
    case Use => "use"
    case Delete => "delete"
    case Show => "show"
    case Set => "set"
    case Get => "get"
    case Export => "export"
    case Import => "import"
  }

  /** Every action is reached by its own name. */
  lemma ParseCanonical(a: Action)
    ensures ParseAction(Some(Canonical(a))) == Some(a)
  {
    var c := Canonical(a);
    assert c != "" && forall i :: 0 <= i < |c| ==> !IsAsciiUpper(c[i]);
    ParseLowerCase(c);
    CanonicalNamed(a);
  }

  /** The aliases reach the same actions as the names. */
  lemma ParseAliases()
    ensures ParseAction(Some("ls")) == Some(List)
    ensures ParseAction(Some("create")) == Some(Save)
    ensures ParseAction(Some("load")) == Some(Use)
  {
    ParseLowerCase("ls");
    ParseLowerCase("create");
    ParseLowerCase("load");
    AliasesNamed();
  }

  lemma ParseRemovalAliases()
    ensures ParseAction(Some("remove")) == Some(Delete) && ParseAction(Some("rm")) == Some(Delete)
    ensures ParseAction(Some("view")) == Some(Show)
  {
    ParseDeleteAlias("remove");
    ParseDeleteAlias("rm");
    ParseShowAlias();
  }

  lemma ParseDeleteAlias(s: string)
    requires s == "remove" || s == "rm"
    ensures ParseAction(Some(s)) == Some(Delete)
  {
    ParseLowerCase(s);
    AliasesNamed();
  }

  lemma ParseShowAlias()
    ensures ParseAction(Some("view")) == Some(Show)
  {
    ParseLowerCase("view");
    AliasesNamed();
  }

  lemma CanonicalNamed(a: Action)
    ensures ActionNamed(Canonical(a)) == Some(a)
  {
  }

  lemma AliasesNamed()
    ensures ActionNamed("ls") == Some(List) && ActionNamed("create") == Some(Save)
    ensures ActionNamed("load") == Some(Use) && ActionNamed("view") == Some(Show)
    ensures ActionNamed("remove") == Some(Delete) && ActionNamed("rm") == Some(Delete)
  {
  }

  /** A name without capitals is looked up as it is. */
  lemma ParseLowerCase(s: string)
    requires s != "" && forall i :: 0 <= i < |s| ==> !IsAsciiUpper(s[i])
    ensures ParseAction(Some(s)) == ActionNamed(s)
  {
    LowerFixed(s);
  }

  lemma LowerFixed(s: string)
    requires forall i :: 0 <= i < |s| ==> !IsAsciiUpper(s[i])
    ensures Lower(s) == s
  {
  }

  /** Every name and alias `config` accepts. */
  const ActionNames: seq<string> :=
    ["list", "ls", "save", "create", "load", "use", "delete", "remove", "rm", "show", "view",
     "set", "get", "export", "import"]

  /** An argument selects an action exactly when its lower-case form is one
      of the accepted names; anything else, the empty argument included,
      leads to the help and changes nothing. */
  lemma ParseKnownNames(action: Option<string>)
    ensures ParseAction(action).Some? <==> TruthyStr(action) && Lower(action.value) in ActionNames
  {
    NamedKnown(Lower(if TruthyStr(action) then action.value else ""));
  }

  lemma NamedKnown(act: string)
    ensures ActionNamed(act).Some? <==> act in ActionNames
  {
  }

  /** Letter case does not matter: an argument and its lower-case form name
      the same action. */
  lemma ParseIgnoresCase(action: string)
    ensures ParseAction(Some(action)) == ParseAction(Some(Lower(action)))
  {
    var l := Lower(action);
    assert Lower(l) == l by {
      assert forall i :: 0 <= i < |l| ==> LowerChar(l[i]) == l[i];
    }
    if action == "" {
      assert l == "";
    } else {
      assert l != "";
    }
  }

  // ---------------------------------------------------------------------
  // The default-profile pointer

  /** The pointer, when set, names an existing profile. */
  predicate PointerValid(s: Store) {
    DefaultProfileName(s.config).Some? ==> DefaultProfileName(s.config).value in s.profiles
  }

  /** The store with the pointer removed (`delete config.defaultProfile`,
      or setting it to `undefined`, which `JSON.stringify` drops). */
  function ClearPointer(s: Store): (r: Store)
    ensures r.profiles == s.profiles && PointerKey !in r.config
    ensures forall k :: k != PointerKey ==> (k in r.config <==> k in s.config)
    ensures forall k :: k != PointerKey && k in s.config ==> r.config[k] == s.config[k]
  {
    s.(config := s.config - {PointerKey})
  }

  /** The store with the pointer on `name`. */
  function PointTo(s: Store, name: string): (r: Store)
    ensures r.profiles == s.profiles && PointerKey in r.config && r.config[PointerKey] == Json.Str(name)
    ensures forall k :: k != PointerKey ==> (k in r.config <==> k in s.config)
    ensures forall k :: k != PointerKey && k in s.config ==> r.config[k] == s.config[k]
  {
    s.(config := s.config[PointerKey := Json.Str(name)])
  }

  /** `--setprofile <name>`: `none` in any case, or a blank argument, clears
      the pointer; the name of an existing profile sets it; anything else
      changes nothing. The argument is trimmed first. */
  function SetProfileFlag(s: Store, arg: string): (r: Store)
    ensures r.profiles == s.profiles
    ensures Lower(Trim(arg)) == "none" || Trim(arg) == "" ==> DefaultProfileName(r.config).None?
    ensures !(Lower(Trim(arg)) == "none" || Trim(arg) == "") && Trim(arg) in s.profiles ==>
      DefaultProfileName(r.config) == Some(Trim(arg))
    ensures !(Lower(Trim(arg)) == "none" || Trim(arg) == "") && Trim(arg) !in s.profiles ==> r == s
  {
    var name := Trim(arg);
    if Lower(name) == "none" || name == "" then ClearPointer(s)
    else if name in s.profiles then PointTo(s, name)
    else s
  }

  /** The answers of `config save`; the name is asked only without
      `--name`. */
  datatype SaveAnswers = SaveAnswers(
    name: string,
    language: string,
    framework: string,
    license: string,
    packageManager: string,
    git: bool,
    installDeps: bool,
    setAsDefault: bool)

  /** The profile `config save` writes: eight properties, the README style
      and the `.gitignore` fixed. */
  function SavedProfile(a: SaveAnswers): (p: Profile)
    ensures FieldCount(p) == 8 && ProfileActive(p)
    ensures p.readme == Some("standard") && p.gitignore == Some(true)
    ensures p.language == Some(a.language) && p.framework == Some(a.framework) && p.license == Some(a.license)
    ensures p.packageManager == Some(a.packageManager) && p.git == Some(a.git) && p.installDeps == Some(a.installDeps)
    ensures p.name.None? && p.linters.None? && p.gitHooks.None? && p.remoteRepo.None? && p.openInVSCode.None?
  {
    Profile(None, Some(a.language), Some(a.framework), Some(a.license), Some(a.packageManager), Some("standard"),
            Some(true), None, None, Some(a.git), None, None, Some(a.installDeps))
  }

  /** The profile name `config save` uses: `--name` when given, else the
      reply. */
  function SaveName(nameFlag: Option<string>, a: SaveAnswers): string {
    if TruthyStr(nameFlag) then nameFlag.value else a.name
  }

  /** `config save`: writes the profile and, when asked to, points the
      pointer at it. */
  function SaveCommand(s: Store, nameFlag: Option<string>, a: SaveAnswers): (r: Store)
    ensures LoadProfile(r, SaveName(nameFlag, a)) == Ok(SavedProfile(a))
    ensures a.setAsDefault && SaveName(nameFlag, a) != "" ==> DefaultProfileName(r.config) == Some(SaveName(nameFlag, a))
    ensures !a.setAsDefault ==> r.config == s.config
    ensures forall n :: n != SaveName(nameFlag, a) ==>
      (n in r.profiles <==> n in s.profiles) && (n in s.profiles ==> r.profiles[n] == s.profiles[n])
    ensures forall k :: k != PointerKey ==>
      (k in r.config <==> k in s.config) && (k in s.config ==> r.config[k] == s.config[k])
  {
    var name := SaveName(nameFlag, a);
    var saved := SaveProfile(s, name, SavedProfile(a));
    if a.setAsDefault then PointTo(saved, name) else saved
  }

  /** `config use`: with no profile saved, nothing happens; a missing name
      is an error; otherwise the pointer moves to the name. */
  function UseCommand(s: Store, name: string): (r: Result<Store>)
    ensures |s.profiles| == 0 ==> r == Ok(s)
    ensures |s.profiles| > 0 ==> (r.Err? <==> name !in s.profiles)
    ensures r.Ok? ==> r.value.profiles == s.profiles
    ensures r.Ok? && |s.profiles| > 0 && name != "" ==> DefaultProfileName(r.value.config) == Some(name)
    ensures r.Ok? ==> forall k :: k != PointerKey ==>
      (k in r.value.config <==> k in s.config) && (k in s.config ==> r.value.config[k] == s.config[k])
  {
    if |s.profiles| == 0 then Ok(s)
    else match LoadProfile(s, name)
      case Err(e) => Err(e)
      case Ok(_) => Ok(PointTo(s, name))
  }

  /** True iff the pointer holds exactly `name` (`=== profileName`). */
  predicate PointsAt(s: Store, name: string) {
    PointerKey in s.config && s.config[PointerKey] == Json.Str(name)
  }

  /** `config delete`: nothing happens with no profile saved or without
      confirmation; a missing name is an error; otherwise the profile goes,
      and the pointer with it exactly when it referred to that profile. */
  function DeleteCommand(s: Store, name: string, confirmed: bool): (r: Result<Store>)
    ensures |s.profiles| == 0 || !confirmed ==> r == Ok(s)
    ensures |s.profiles| > 0 && confirmed ==> (r.Err? <==> name !in s.profiles)
    ensures r.Err? ==> r.message == NotFound(name)
    ensures |s.profiles| > 0 && confirmed && name in s.profiles ==>
      r.Ok? && name !in r.value.profiles &&
      (forall n :: n != name ==> (n in r.value.profiles <==> n in s.profiles)) &&
      (forall n :: n in r.value.profiles ==> r.value.profiles[n] == s.profiles[n])
    ensures |s.profiles| > 0 && confirmed && name in s.profiles ==>
      r.Ok? && (PointerKey in r.value.config <==> PointerKey in s.config && !PointsAt(s, name)) &&
      (forall k :: k != PointerKey ==> (k in r.value.config <==> k in s.config)) &&
      (forall k :: k in r.value.config ==> r.value.config[k] == s.config[k])
  {
    if |s.profiles| == 0 || !confirmed then Ok(s)
    else match DeleteProfile(s, name)
      case Err(e) => Err(e)
      case Ok(d) => Ok(if PointsAt(d, name) then ClearPointer(d) else d)
  }

  /** `config show`: with no profile saved it only says so (`None`);
      otherwise the profile and whether it is the default, or the error for
      a missing name. */
  function ShowCommand(s: Store, name: string): (r: Result<Option<(Profile, bool)>>)
    ensures |s.profiles| == 0 ==> r == Ok(None)
    ensures |s.profiles| > 0 ==> (r.Ok? <==> name in s.profiles)
    ensures r.Err? ==> r.message == NotFound(name)
    ensures |s.profiles| > 0 && r.Ok? ==>
      r.value.Some? && r.value.value.0 == s.profiles[name] && (r.value.value.1 <==> PointsAt(s, name))
  {
    if |s.profiles| == 0 then Ok(None)
    else match LoadProfile(s, name)
      case Err(e) => Err(e)
      case Ok(p) => Ok(Some((p, PointsAt(s, name))))
  }

  /** `--set k=v`: the key is the text before the first `=`, the value the
      rest with its `=` kept. */
  function ParseSet(arg: string): (r: (string, string))
    ensures '=' !in r.0
    ensures '=' in arg ==> r.0 + "=" + r.1 == arg
    ensures '=' !in arg ==> r.0 == arg && r.1 == ""
  {
    var parts := Split(arg, '=');
    SetParts(arg);
    (parts[0], Join(parts[1..], "="))
  }

  /** The pieces `split('=')` gives, re-read as the text before and after
      the first `=`. */
  lemma SetParts(arg: string)
    ensures var parts := Split(arg, '='); var i := IndexOf(arg, '=');
      && (i == -1 ==> parts[0] == arg && Join(parts[1..], "=") == "")
      && (i >= 0 ==> parts[0] == arg[..i] && Join(parts[1..], "=") == arg[i + 1..])
      && (i >= 0 ==> arg == arg[..i] + "=" + arg[i + 1..])
  {
    SplitHead(arg, '=');
    var i := IndexOf(arg, '=');
    if i >= 0 {
      assert arg == arg[..i] + [arg[i]] + arg[i + 1..];
    } else {
      assert Split(arg, '=')[1..] == [];
    }
  }

  /** `a=b=c` sets `a` to `b=c`. */
  lemma ParseSetExample()
    ensures ParseSet("a=b=c") == ("a", "b=c")
  {
    var r := ParseSet("a=b=c");
    assert "a=b=c"[1] == '=';
    assert "a=b=c" == "a" + "=" + "b=c";
    SameSplit(r.0, r.1, "a", "b=c");
  }

  /** `config set`: the key and text come from `--set` or from the two
      prompts; the value is the text parsed as JSON, or the text itself when
      it does not parse. `parse` stands for `JSON.parse`. */
  function SetCommand(s: Store, setArg: Option<string>, promptKey: string, promptValue: string,
                      parse: string -> Option<Json.Value>): (r: Store)
    ensures r.profiles == s.profiles
    ensures var (k, t) := if TruthyStr(setArg) then ParseSet(setArg.value) else (promptKey, promptValue);
      GetValue(r, k) == Some(parse(t).GetOr(Json.Str(t)))
      && forall other :: other != k ==> GetValue(r, other) == GetValue(s, other)
  {
    var (key, text) := if TruthyStr(setArg) then ParseSet(setArg.value) else (promptKey, promptValue);
    SetValue(s, key, parse(text).GetOr(Json.Str(text)))
  }

  /** `--set k=v` with an `=`-free key reads back under that key. */
  lemma SetThenGet(s: Store, key: string, text: string, parse: string -> Option<Json.Value>)
    requires key != "" && '=' !in key
    ensures GetValue(SetCommand(s, Some(key + "=" + text), "", "", parse), key) == Some(parse(text).GetOr(Json.Str(text)))
  {
    var arg := key + "=" + text;
    assert arg[|key|] == '=';
    var (k, t) := ParseSet(arg);
    assert k + "=" + t == key + "=" + text;
    SameSplit(k, t, key, text);
  }

  /** Two `=`-free keys followed by `=` that spell the same text are the
      same key. */
  lemma SameSplit(k1: string, t1: string, k2: string, t2: string)
    requires '=' !in k1 && '=' !in k2 && k1 + "=" + t1 == k2 + "=" + t2
    ensures k1 == k2 && t1 == t2
  {
    var s := k1 + "=" + t1;
    IndexOfAfter(k1, '=', t1);
    IndexOfAfter(k2, '=', t2);
    assert k1 + "=" + t1 == k1 + ['='] + t1;
    assert k2 + "=" + t2 == k2 + ['='] + t2;
    assert k1 == s[..|k1|] && k2 == s[..|k2|];
    assert t1 == s[|k1| + 1..] && t2 == s[|k2| + 1..];
  }

  // ---------------------------------------------------------------------
  // The pointer is kept valid

  /** `--setprofile`, save, use and import keep the pointer on an existing
      profile. Deletion is covered by `DeleteKeepsPointer`. */
  lemma PointerKept(s: Store, arg: string, nameFlag: Option<string>, a: SaveAnswers, name: string,
                    parsed: Option<Profile>)
    requires PointerValid(s)
    ensures PointerValid(SetProfileFlag(s, arg))
    ensures PointerValid(SaveCommand(s, nameFlag, a))
    ensures UseCommand(s, name).Ok? ==> PointerValid(UseCommand(s, name).value)
    ensures ImportProfile(s, name, parsed).Ok? ==> PointerValid(ImportProfile(s, name, parsed).value)
  {
  }

  /** Deleting a profile keeps the pointer valid when the pointer is a
      string (or absent): deletion compares it with `===`. */
  lemma DeleteKeepsPointer(s: Store, name: string, confirmed: bool)
    requires PointerValid(s)
    requires PointerKey in s.config ==> s.config[PointerKey].Str? || !Json.Truthy(s.config[PointerKey])
    ensures DeleteCommand(s, name, confirmed).Ok? ==> PointerValid(DeleteCommand(s, name, confirmed).value)
  {
  }

  /** A numeric pointer is followed by the wizards but not cleared by
      deletion: deleting profile `123` under `defaultProfile: 123` leaves
      the pointer on a profile that no longer exists. */
  lemma DeleteCanDanglePointer(p: Profile)
    ensures var s := Store(map[PointerKey := Json.Number(123)], map["123" := p]);
      PointerValid(s) && DeleteCommand(s, "123", true).Ok? && !PointerValid(DeleteCommand(s, "123", true).value)
  {
    var s := Store(map[PointerKey := Json.Number(123)], map["123" := p]);
    NumericPointerName();
    assert DefaultProfileName(s.config) == Some("123");
    var d := DeleteCommand(s, "123", true).value;
    assert !PointsAt(s, "123");
    assert d.config == s.config && "123" !in d.profiles;
  }

  /** `config set` is not held to that: it can point the pointer at a
      profile that does not exist, which `create` and `init` then quietly
      ignore. */
  lemma SetCanDanglePointer()
    ensures var s := Store(map[], map[]);
      var r := SetCommand(s, None, PointerKey, "ghost", (t: string) => None);
      PointerValid(s) && !PointerValid(r) && DefaultProfile(r) == EmptyProfile
  {
    var s := Store(map[], map[]);
    var r := SetCommand(s, None, PointerKey, "ghost", (t: string) => None);
    assert r.config[PointerKey] == Json.Str("ghost");
  }

  // ---------------------------------------------------------------------
  // Saved profiles and the wizards

  /** A profile saved as the default is the one the next `create` without
      `--config` uses. */
  lemma SavedDefaultUsedByCreate(s: Store, nameFlag: Option<string>, a: SaveAnswers)
    requires a.setAsDefault && SaveName(nameFlag, a) != ""
    ensures Create.CreateProfile(None, SaveCommand(s, nameFlag, a)) == Ok(SavedProfile(a))
  {
  }

  /** With a saved profile as the default, `init` as written resolves
      language, framework and license, since such a profile has all three:
      only other profiles leave them undefined. */
  lemma SavedProfileCompletesInit(dirName: string, flags: Init.InitFlags, a: SaveAnswers, files: seq<string>,
                                  replies: Prompts.Replies)
    requires a.language != "" && a.framework != "" && a.license != ""
    ensures Init.InitMerge(dirName, flags, SavedProfile(a), Init.InitAnswersAsWritten(flags, SavedProfile(a), files, replies)).language
            == Some(if TruthyStr(flags.language) then flags.language.value else a.language)
    ensures Prompts.Complete(Init.InitMerge(dirName, flags, SavedProfile(a), Init.InitAnswersAsWritten(flags, SavedProfile(a), files, replies))).Some?
  {
  }

  // ---------------------------------------------------------------------
  // The profile-name question

  const NameRequired: string := "Profile name is required"
  const NameInvalid: string := "Profile name can only contain letters, numbers, hyphens, and underscores"

  /** The check on a typed profile name: blank names are reported as
      missing, others must be letters, digits, `-` and `_`. */
  function ProfileNameError(input: string): (r: Option<string>)
    ensures r.None? <==> ValidName(input)
    ensures r == Some(NameRequired) <==> Trim(input) == ""
  {
    TrimEmpty(input);
    if input == "" || Trim(input) == "" then Some(NameRequired)
    else if !ValidName(input) then Some(NameInvalid)
    else None
  }
}

=== FILE: create.dfy ===
/** The `create` command: it picks a profile, asks the questions neither a
    flag nor the profile decides, merges flags, profile and answers into the
    project options, then lists the steps it runs after the generator and the
    hint it prints. */
module Create {

  import opened Wrappers
  import opened Text
  import opened Options
  import opened Prompts
  import ProfileStore

  /** The flags `create` registers. `install` is always defined on the
      command line (`--install` defaults to true); `git` and `open` are
      defined only when given. */
  datatype CreateFlags = CreateFlags(
    language: Option<string>,
    framework: Option<string>,
    license: Option<string>,
    git: Option<bool>,
    install: Option<bool>,
    open: Option<bool>)

  // ---------------------------------------------------------------------
  // The profile

  /** The profile `create` uses: the one `--config` names, whose absence is
      an error that ends the command, or else the default profile, whose
      absence is ignored. */
  function CreateProfile(config: Option<string>, s: ProfileStore.Store): (r: Result<Profile>)
    ensures TruthyStr(config) ==> r == ProfileStore.LoadProfile(s, config.value)
    ensures !TruthyStr(config) ==> r == Ok(ProfileStore.DefaultProfile(s))
  {
    if TruthyStr(config) then ProfileStore.LoadProfile(s, config.value) else Ok(ProfileStore.DefaultProfile(s))
  }

  /** Only a named profile that does not exist stops the command. */
  lemma CreateProfileFails(config: Option<string>, s: ProfileStore.Store)
    ensures CreateProfile(config, s).Err? <==> TruthyStr(config) && config.value !in s.profiles
  {
  }

  // ---------------------------------------------------------------------
  // The questions

  /** The language the later questions see (`flag || profile || answer`). */
  function SeenLanguage(flags: CreateFlags, profile: Profile, language: Option<string>): Option<string> {
    OrStr(OrStr(flags.language, profile.language), language)
  }

  /** Which questions `create` asks, given whether each of the first three
      list questions is: the name always; every other question only when
      neither the profile nor a flag decides its property, the package
      manager and hooks only for the languages that use them, and the remote
      only when git is on. */
  function CreateAsked(flags: CreateFlags, profile: Profile, replies: Replies,
                       askLanguage: bool, askFramework: bool, askLicense: bool): (a: Asked)
    ensures a.name
    ensures a.language == askLanguage && a.framework == askFramework && a.license == askLicense
    ensures a.readme == profile.readme.None?
    ensures a.git == (flags.git.None? && profile.git.None?)
    ensures a.installDeps == (flags.install.None? && profile.installDeps.None?)
    ensures a.openInVSCode == (!OrFalse(flags.open) && profile.openInVSCode.None?)
    ensures a.remoteRepo ==> profile.remoteRepo.None? && (OrFalse(flags.git) || OrFalse(profile.git) || (a.git && replies.git))
  {
    var gitAsked := flags.git.None? && profile.git.None?;
    var git := OrFalse(flags.git) || OrFalse(profile.git) || (gitAsked && replies.git);
    var lang := SeenLanguage(flags, profile, Ask(askLanguage, replies.language));
    Asked(
      true, askLanguage, askFramework, askLicense,
      NodeLanguage(lang) && profile.packageManager.None?,
      profile.readme.None?,
      HookLanguage(lang) && profile.gitHooks.None?,
      gitAsked,
      git && profile.remoteRepo.None?,
      flags.install.None? && profile.installDeps.None?,
      !OrFalse(flags.open) && profile.openInVSCode.None?)
  }

  /** The wizard's answers: the replies to the questions `CreateAsked`
      selects. */
  function Questions(flags: CreateFlags, profile: Profile, replies: Replies,
                     askLanguage: bool, askFramework: bool, askLicense: bool): (r: Answers)
    ensures r.name == Some(replies.name)
    ensures (r.language.Some? <==> askLanguage) && (r.framework.Some? <==> askFramework) && (r.license.Some? <==> askLicense)
    ensures r.language.Some? ==> r.language.value == replies.language
    ensures r.readme.Some? <==> profile.readme.None?
    ensures r.git.Some? <==> flags.git.None? && profile.git.None?
    ensures r.installDeps.Some? <==> flags.install.None? && profile.installDeps.None?
    ensures r.openInVSCode.Some? <==> !OrFalse(flags.open) && profile.openInVSCode.None?
    ensures r.remoteRepo.Some? ==> profile.remoteRepo.None? && (OrFalse(flags.git) || OrFalse(profile.git) || r.git == Some(true))
  {
    Answer(CreateAsked(flags, profile, replies, askLanguage, askFramework, askLicense), replies)
  }

  /** The questions as written: language, framework and license are skipped
      whenever the profile has the property, even an empty one. */
  function CreateAnswersAsWritten(flags: CreateFlags, profile: Profile, replies: Replies): Answers {
    Questions(flags, profile, replies,
      !TruthyStr(flags.language) && profile.language.None?,
      !TruthyStr(flags.framework) && profile.framework.None?,
      !TruthyStr(flags.license) && profile.license.None?)
  }

  /** The questions with language, framework and license asked whenever
      neither the flag nor the profile supplies a value the merge keeps. */
  function CreateAnswers(flags: CreateFlags, profile: Profile, replies: Replies): Answers {
    Questions(flags, profile, replies,
      !TruthyStr(flags.language) && !TruthyStr(profile.language),
      !TruthyStr(flags.framework) && !TruthyStr(profile.framework),
      !TruthyStr(flags.license) && !TruthyStr(profile.license))
  }

  /** A question the wizard asks is one whose value nothing else decides:
      the profile never has the property, and no flag defines it. */
  lemma CreateAsksOnlyUndecided(flags: CreateFlags, profile: Profile, replies: Replies)
    ensures var a := CreateAnswers(flags, profile, replies);
      (a.packageManager.Some? ==> profile.packageManager.None?)
      && (a.readme.Some? ==> profile.readme.None?)
      && (a.gitHooks.Some? ==> profile.gitHooks.None?)
      && (a.git.Some? <==> flags.git.None? && profile.git.None?)
      && (a.remoteRepo.Some? ==> profile.remoteRepo.None?)
      && (a.installDeps.Some? <==> flags.install.None? && profile.installDeps.None?)
      && (a.openInVSCode.Some? ==> profile.openInVSCode.None? && !OrFalse(flags.open))
  {
  }

  /** The package-manager question is asked exactly for JavaScript and
      TypeScript projects whose profile has no package manager; the hooks
      question likewise for those and Python. */
  lemma CreateAsksByLanguage(flags: CreateFlags, profile: Profile, replies: Replies)
    ensures var a := CreateAnswers(flags, profile, replies);
      var lang := SeenLanguage(flags, profile, a.language);
      (a.packageManager.Some? <==> NodeLanguage(lang) && profile.packageManager.None?)
      && (a.gitHooks.Some? <==> HookLanguage(lang) && profile.gitHooks.None?)
  {
  }

  // ---------------------------------------------------------------------
  // The merge

  /** Flags, profile and answers merged as the command writes it. */
  function CreateMerge(projectName: Option<string>, flags: CreateFlags, profile: Profile, a: Answers): (m: Merged)
    ensures m.gitignore
    ensures m.linters == profile.linters.GetOr([])
  {
    Merged(
      OrStr(a.name, projectName),
      OrStr(OrStr(flags.language, profile.language), a.language),
      OrStr(OrStr(flags.framework, profile.framework), a.framework),
      OrStr(OrStr(flags.license, profile.license), a.license),
      OrDefault(OrStr(profile.packageManager, a.packageManager), "npm"),
      OrDefault(OrStr(profile.readme, a.readme), "standard"),
      true,
      profile.linters.GetOr([]),
      if profile.gitHooks.Some? then profile.gitHooks.value else OrFalse(a.gitHooks),
      Defined(flags.git, Defined(profile.git, a.git)),
      OrFalse(profile.remoteRepo) || OrFalse(a.remoteRepo),
      OrFalse(flags.open) || OrFalse(profile.openInVSCode) || OrFalse(a.openInVSCode),
      Defined(flags.install, Defined(profile.installDeps, a.installDeps)))
  }

  /** The merge as written always decides `git` and `installDeps`, since
      their questions are asked exactly when flag and profile leave them
      undefined; the name is always the reply. */
  lemma CreateDecidesGitAndInstall(projectName: Option<string>, flags: CreateFlags, profile: Profile, replies: Replies)
    requires replies.name != ""
    ensures var m := CreateMerge(projectName, flags, profile, CreateAnswersAsWritten(flags, profile, replies));
      m.git.Some? && m.installDeps.Some? && m.name == Some(replies.name)
  {
  }

  /** As written, the language stays undefined exactly when no flag names
      one and the profile's language is the empty string: the profile's
      property stops the question, and the merge's `||` skips the empty
      value. */
  lemma CreateLanguageUndefined(projectName: Option<string>, flags: CreateFlags, profile: Profile, replies: Replies)
    requires replies.language != ""
    ensures var m := CreateMerge(projectName, flags, profile, CreateAnswersAsWritten(flags, profile, replies));
      m.language.None? <==> !TruthyStr(flags.language) && profile.language == Some("")
  {
  }

  /** The same holds for the framework and the license. */
  lemma CreateFrameworkLicenseUndefined(projectName: Option<string>, flags: CreateFlags, profile: Profile, replies: Replies)
    requires replies.framework != "" && replies.license != ""
    ensures var m := CreateMerge(projectName, flags, profile, CreateAnswersAsWritten(flags, profile, replies));
      (m.framework.None? <==> !TruthyStr(flags.framework) && profile.framework == Some(""))
      && (m.license.None? <==> !TruthyStr(flags.license) && profile.license == Some(""))
  {
  }

  /** A concrete case: a profile whose only property is an empty language
      gives the generator no language at all. */
  lemma CreateEmptyLanguageExample(replies: Replies)
    requires replies.name != ""
    ensures var profile := EmptyProfile.(language := Some(""));
      var flags := CreateFlags(None, None, None, None, Some(true), None);
      Complete(CreateMerge(None, flags, profile, CreateAnswersAsWritten(flags, profile, replies))).None?
  {
  }

  /** The merged options with the corrected questions: always complete. */
  function CreateOptions(projectName: Option<string>, flags: CreateFlags, profile: Profile, replies: Replies): (o: ProjectOptions)
    requires replies.name != ""
    ensures Complete(CreateMerge(projectName, flags, profile, CreateAnswers(flags, profile, replies))) == Some(o)
  {
    Complete(CreateMerge(projectName, flags, profile, CreateAnswers(flags, profile, replies))).value
  }

  /** Flags outrank the profile, the profile outranks the answers: each of
      language, framework and license is the truthy flag, else the truthy
      profile value, else the reply; `git` and `installDeps` follow the same
      order by definedness. */
  lemma CreatePrecedence(projectName: Option<string>, flags: CreateFlags, profile: Profile, replies: Replies)
    requires replies.name != ""
    ensures var o := CreateOptions(projectName, flags, profile, replies);
      o.name == replies.name
      && o.language == (if TruthyStr(flags.language) then flags.language.value
                        else if TruthyStr(profile.language) then profile.language.value else replies.language)
      && o.framework == (if TruthyStr(flags.framework) then flags.framework.value
                         else if TruthyStr(profile.framework) then profile.framework.value else replies.framework)
      && o.license == (if TruthyStr(flags.license) then flags.license.value
                       else if TruthyStr(profile.license) then profile.license.value else replies.license)
      && o.git == flags.git.GetOr(profile.git.GetOr(replies.git))
      && o.installDeps == flags.install.GetOr(profile.installDeps.GetOr(replies.installDeps))
  {
  }

  /** The package manager is the profile's when it names one; otherwise
      the reply for a JavaScript or TypeScript project whose profile has no
      such property, and `npm` in every other case. */
  lemma CreatePackageManager(projectName: Option<string>, flags: CreateFlags, profile: Profile, replies: Replies)
    requires replies.name != ""
    ensures var o := CreateOptions(projectName, flags, profile, replies);
      o.packageManager ==
        if TruthyStr(profile.packageManager) then profile.packageManager.value
        else if IsJsTs(o.language) && profile.packageManager.None? && replies.packageManager != "" then replies.packageManager
        else "npm"
  {
  }

  /** Where the profile defines none of the three, the corrected questions
      and the written ones give the same options. */
  lemma CreateCorrectionAgrees(projectName: Option<string>, flags: CreateFlags, profile: Profile, replies: Replies)
    requires replies.name != ""
    requires profile.language != Some("") && profile.framework != Some("") && profile.license != Some("")
    ensures Complete(CreateMerge(projectName, flags, profile, CreateAnswersAsWritten(flags, profile, replies)))
            == Some(CreateOptions(projectName, flags, profile, replies))
  {
  }

  // ---------------------------------------------------------------------
  // After the files are written

  /** Where a step comes in `create`'s sequence. */
  function Rank(s: Step): nat {
    match s
    case InitGit => 0
    case Install(_) => 1
    case CreateRemote(_) => 2
    case OpenEditor => 3
  }

  /** The steps `create` runs after the generator, in order. */
  function CreateSteps(o: ProjectOptions): (r: seq<Step>)
    ensures OrderedBy(Rank, r)
  {
    Then(Rank, o.git, InitGit,
      Then(Rank, o.installDeps && IsJsTs(o.language), Install(PmInstall(o.packageManager)),
        Then(Rank, o.remoteRepo, CreateRemote(SafeName(o.name)),
          Then(Rank, o.openInVSCode, OpenEditor, []))))
  }

  /** Each step runs exactly when its option asks for it: the repository is
      created from the safe name whether or not `git` is on, and the
      dependencies are installed with the package manager's own command. */
  lemma CreateStepsRun(o: ProjectOptions)
    ensures InitGit in CreateSteps(o) <==> o.git
    ensures Install(PmInstall(o.packageManager)) in CreateSteps(o) <==> o.installDeps && IsJsTs(o.language)
    ensures forall c :: Install(c) in CreateSteps(o) ==> c == PmInstall(o.packageManager)
    ensures CreateRemote(SafeName(o.name)) in CreateSteps(o) <==> o.remoteRepo
    ensures OpenEditor in CreateSteps(o) <==> o.openInVSCode
  {
  }

  /** The "get started" lines, as printed: change into the project, then
      run it with the language's command. The Python line is the printed
      `python main.py`, not the corrected `RunHint`. */
  function NextSteps(projectPath: string, o: ProjectOptions): (r: seq<string>)
    ensures 1 <= |r| <= 2 && r[0] == "cd " + projectPath
    ensures |r| == 2 <==> o.language in ["javascript", "typescript", "python", "go", "rust"]
    ensures |r| == 2 ==> r[1] == RunHintAsWritten(o.language, o.packageManager).value
    ensures o.language == "python" ==> r == ["cd " + projectPath, "python main.py"]
    ensures o.language == "go" ==> r == ["cd " + projectPath, "go run main.go"]
    ensures o.language == "rust" ==> r == ["cd " + projectPath, "cargo run"]
    ensures IsJsTs(o.language) && o.packageManager == "npm" ==> r == ["cd " + projectPath, "npm run dev"]
    ensures IsJsTs(o.language) && o.packageManager != "npm" ==> r == ["cd " + projectPath, o.packageManager + " dev"]
  {
    assert "npm" + " " + "run " + "dev" == "npm run dev";
    assert o.packageManager + " " + "" + "dev" == o.packageManager + " dev";
    ["cd " + projectPath] + (match RunHintAsWritten(o.language, o.packageManager) case Some(h) => [h] case None => [])
  }
}

=== FILE: fork.dfy ===
/** The `fork` command after the clone: how it reads the repository
    address, names the project, rewrites `package.json`, replaces the
    license, picks the installer and suggests how to start. The README
    rewrite is in `ForkReadme`. Files of the cloned project are a map from
    path (relative to the project) to contents, or just the set of paths
    when only their existence matters. */
module Fork {

  import opened Wrappers
  import opened Text
  import opened Options
  import Json
  import Catalog
  import PackageJson
  import Generator
  import Prompts

  // ---------------------------------------------------------------------
  // The repository address

  /** `^[\w-]+\/[\w-]+$`: an owner and a repository name, each a non-empty
      run of word characters and hyphens, around one slash. */
  function IsShorthand(url: string): (r: bool)
    ensures r <==> exists i :: SplitsAt(url, i)
  {
    var i := IndexOf(url, '/');
    SlashBetweenNames(url);
    i >= 0 && SplitsAt(url, i)
  }

  /** The slash at `i` has a valid name on either side. */
  predicate SplitsAt(url: string, i: int) {
    0 <= i < |url| && url[i] == '/' && ValidName(url[..i]) && ValidName(url[i + 1..])
  }

  /** A slash with valid names on both sides is the first slash. */
  lemma SlashBetweenNames(url: string)
    ensures var i := IndexOf(url, '/');
      (i >= 0 && SplitsAt(url, i)) <==> exists j :: SplitsAt(url, j)
  {
    if j :| SplitsAt(url, j) {
      ValidNameNoSlash(url[..j]);
      FirstSlash(url, j);
    }
  }

  /** A slash with none before it is the first one. */
  lemma FirstSlash(url: string, j: int)
    requires 0 <= j < |url| && url[j] == '/' && '/' !in url[..j]
    ensures IndexOf(url, '/') == j
  {
  }

  const GitHub: string := "https://github.com/"

  /** The address the command clones: a shorthand becomes a GitHub HTTPS
      address ending in `.git`, from which the shorthand reads back; anything
      else is used as given. */
  function Expand(url: string): (r: string)
    ensures !IsShorthand(url) ==> r == url
    ensures IsShorthand(url) ==>
      |r| == |GitHub| + |url| + 4 && r[..|GitHub|] == GitHub && r[|r| - 4..] == ".git" && r[|GitHub|..|r| - 4] == url
  {
    if IsShorthand(url) then GitHub + url + ".git" else url
  }

  /** A name made of word characters and hyphens has no slash. */
  lemma ValidNameNoSlash(s: string)
    requires ValidName(s)
    ensures '/' !in s
  {
    assert forall i :: 0 <= i < |s| ==> s[i] != '/';
  }

  /** Shorthands are exactly `owner/repo` for two valid names, and each
      splits back into its parts. */
  lemma ShorthandOf(owner: string, repo: string)
    requires ValidName(owner) && ValidName(repo)
    ensures IsShorthand(owner + "/" + repo)
    ensures Expand(owner + "/" + repo) == GitHub + owner + "/" + repo + ".git"
  {
    assert IsShorthand(owner + "/" + repo) by {
      JoinedSplitsAt(owner, repo);
    }
    ExpandJoined(owner, repo);
  }

  /** A joined shorthand expands around its two parts. */
  lemma ExpandJoined(owner: string, repo: string)
    requires IsShorthand(owner + "/" + repo)
    ensures Expand(owner + "/" + repo) == GitHub + owner + "/" + repo + ".git"
  {
    var s := owner + "/" + repo;
    assert GitHub + s + ".git" == GitHub + owner + "/" + repo + ".git";
  }

  /** The slash joining two names splits them. */
  lemma JoinedSplitsAt(owner: string, repo: string)
    requires ValidName(owner) && ValidName(repo)
    ensures SplitsAt(owner + "/" + repo, |owner|)
  {
    var s := owner + "/" + repo;
    assert s[..|owner|] == owner;
    assert s[|owner| + 1..] == repo;
  }

  /** Any shorthand is `owner/repo` for the names on either side of its
      slash. */
  lemma ShorthandParts(url: string)
    requires IsShorthand(url)
    ensures var i := IndexOf(url, '/');
      ValidName(url[..i]) && ValidName(url[i + 1..]) && url == url[..i] + "/" + url[i + 1..]
  {
    var i := IndexOf(url, '/');
    assert url == url[..i] + [url[i]] + url[i + 1..];
  }

  /** The text after the last slash, or `None` without a slash. */
  function AfterLastSlash(s: string): (r: Option<string>)
    ensures r.Some? <==> '/' in s
    ensures r.Some? ==> |r.value| < |s| && '/' !in r.value
    ensures r.Some? ==> s[|s| - |r.value| - 1] == '/' && s[|s| - |r.value|..] == r.value
    decreases |s|
  {
    var i := IndexOf(s, '/');
    if i < 0 then None
    else
      var u := s[i + 1..];
      assert |u| == |s| - i - 1;
      match AfterLastSlash(u)
      case None => Some(u)
      case Some(t) =>
        assert u[|u| - |t|..] == s[|s| - |t|..];
        assert u[|u| - |t| - 1] == s[|s| - |t| - 1];
        Some(t)
  }

  /** The fallback name when the address gives none. */
  const Fallback: string := "forked-project"

  /** `/\/([^\/]+?)(\.git)?$/`: the part after the last slash, without one
      trailing `.git` unless that would leave nothing; the fallback when the
      address has no slash or ends in one. */
  function DefaultName(url: string): (r: string)
    ensures r != "" && '/' !in r
  {
    match AfterLastSlash(url)
    case None => Fallback
    case Some(t) =>
      if t == "" then Fallback
      else if |t| > 4 && EndsWith(t, ".git") then t[..|t| - 4]
      else t
  }

  /** The last segment is found whatever precedes its slash. */
  lemma {:induction false} AfterLastSlashOf(a: string, t: string)
    requires '/' !in t
    ensures AfterLastSlash(a + "/" + t) == Some(t)
    decreases |a|
  {
    var s := a + "/" + t;
    if '/' in a {
      var j := IndexOf(a, '/');
      var b := a[j + 1..];
      assert a == a[..j] + ['/'] + b;
      assert s == a[..j] + ['/'] + (b + "/" + t);
      IndexOfAfter(a[..j], '/', b + "/" + t);
      assert s[j + 1..] == b + "/" + t;
      AfterLastSlashOf(b, t);
    } else {
      assert s == a + ['/'] + t;
      IndexOfAfter(a, '/', t);
      assert s[|a| + 1..] == t;
    }
  }

  /** A repository name comes out of its address with or without the
      `.git` suffix. */
  lemma DefaultNameOf(a: string, repo: string)
    requires repo != "" && '/' !in repo && !EndsWith(repo, ".git")
    ensures DefaultName(a + "/" + repo) == repo
    ensures DefaultName(a + "/" + repo + ".git") == repo
  {
    AfterLastSlashOf(a, repo);
    DefaultNameOfGit(a, repo);
  }

  /** The `.git` suffix is dropped from the last segment. */
  lemma DefaultNameOfGit(a: string, repo: string)
    requires repo != "" && '/' !in repo
    ensures DefaultName(a + "/" + repo + ".git") == repo
  {
    var t := repo + ".git";
    assert '/' !in ".git" by {
      assert forall i :: 0 <= i < 4 ==> ".git"[i] != '/';
    }
    assert '/' !in t;
    assert AfterLastSlash(a + "/" + repo + ".git") == Some(t) by {
      AfterLastSlashOf(a, t);
      assert a + "/" + repo + ".git" == a + "/" + t;
    }
    assert t[|t| - 4..] == ".git";
    assert t[..|t| - 4] == repo;
  }

  /** Forking `owner/repo` proposes `repo` as the project name. */
  lemma ShorthandDefaultName(owner: string, repo: string)
    requires ValidName(owner) && ValidName(repo)
    ensures DefaultName(Expand(owner + "/" + repo)) == repo
  {
    ShorthandOf(owner, repo);
    ValidNameNoSlash(repo);
    var a := GitHub + owner;
    assert Expand(owner + "/" + repo) == a + "/" + repo + ".git";
    assert !EndsWith(repo, ".git") by {
      if |repo| >= 4 {
        assert repo[|repo| - 4..][0] == repo[|repo| - 4] != '.';
      }
    }
    DefaultNameOf(a, repo);
  }

  // ---------------------------------------------------------------------
  // The questions that decide the rest

  /** `options.name || answers.name`: the name prompt, validated like the
      other wizards', only runs without a truthy `--name`. */
  function ProjectName(nameFlag: Option<string>, reply: string): (r: string)
    requires ValidName(reply)
    ensures TruthyStr(nameFlag) ==> r == nameFlag.value
    ensures !TruthyStr(nameFlag) ==> r == reply
    ensures r != ""
  {
    OrDefault(OrStr(nameFlag, Prompts.Ask(!TruthyStr(nameFlag), reply)), Fallback)
  }

  /** `options.clean || answers.clean`, with the question asked only when
      `--clean` is undefined. */
  function CleanHistory(cleanFlag: Option<bool>, reply: bool): (r: bool)
    ensures cleanFlag.Some? ==> r == cleanFlag.value
    ensures cleanFlag.None? ==> r == reply
  {
    OrFalse(cleanFlag) || OrFalse(Prompts.Ask(cleanFlag.None?, reply))
  }

  // ---------------------------------------------------------------------
  // package.json

  /** The properties the rewrite touches. */
  const Touched: set<string> := {"name", "version", "description", "repository", "author"}

  /** The author the rewrite keeps: the old one when truthy, else `""`. */
  function KeptAuthor(pkg: map<string, Json.Value>): Json.Value {
    if "author" in pkg && Json.Truthy(pkg["author"]) then pkg["author"] else Json.Str("")
  }

  /** The rewrite of the cloned manifest's top-level object. */
  function ForkPackageJson(pkg: map<string, Json.Value>, projectName: string, desc: string): (r: map<string, Json.Value>)
    ensures "name" in r && r["name"] == Json.Str(PackageJson.SanitizeName(projectName))
    ensures "version" in r && r["version"] == Json.Str("1.0.0")
    ensures desc != "" ==> "description" in r && r["description"] == Json.Str(desc)
    ensures desc == "" ==> ("description" in r <==> "description" in pkg)
    ensures desc == "" && "description" in pkg ==> r["description"] == pkg["description"]
    ensures "repository" !in r
    ensures "author" in r
    ensures "author" in pkg && Json.Truthy(pkg["author"]) ==> r["author"] == pkg["author"]
    ensures !("author" in pkg && Json.Truthy(pkg["author"])) ==> r["author"] == Json.Str("")
    ensures forall k :: k !in Touched ==> (k in r <==> k in pkg)
    ensures forall k :: k !in Touched && k in pkg ==> r[k] == pkg[k]
  {
    var named := pkg["name" := Json.Str(PackageJson.SanitizeName(projectName))]["version" := Json.Str("1.0.0")];
    var described := if desc != "" then named["description" := Json.Str(desc)] else named;
    (described - {"repository"})["author" := KeptAuthor(pkg)]
  }

  /** Forking an already forked manifest under the same name and
      description changes nothing more. */
  lemma ForkPackageJsonIdempotent(pkg: map<string, Json.Value>, projectName: string, desc: string)
    ensures var once := ForkPackageJson(pkg, projectName, desc);
      ForkPackageJson(once, projectName, desc) == once
  {
    var once := ForkPackageJson(pkg, projectName, desc);
    var twice := ForkPackageJson(once, projectName, desc);
    assert KeptAuthor(once) == once["author"];
    assert forall k :: k in twice <==> k in once;
    assert forall k :: k in twice ==> twice[k] == once[k];
  }

  // ---------------------------------------------------------------------
  // The license

  /** The license files removed before a new one is written. */
  const LicenseFiles: set<string> := {"LICENSE", "LICENSE.md", "LICENSE.txt", "LICENCE"}

  /** The placeholder license: the choice upper-cased, a blank line, then
      the year. */
  function LicenseText(choice: string, year: nat): string {
    LicenseTitleOf(choice) + "\n\n" + "Copyright (c) " + NatToString(year) + "\n"
  }

  function LicenseTitleOf(choice: string): string {
    Upper(choice) + " License"
  }

  /** The license step: `keep` changes nothing; any other choice removes
      the four license files and, unless it is `none`, writes `LICENSE`. */
  function ForkLicense(files: map<string, string>, choice: string, year: nat): (r: map<string, string>)
    ensures choice == "keep" ==> r == files
    ensures choice != "keep" ==> forall f :: f in LicenseFiles && f != "LICENSE" ==> f !in r
    ensures choice != "keep" ==> ("LICENSE" in r <==> choice != "none")
    ensures choice != "keep" && choice != "none" ==> r["LICENSE"] == LicenseText(choice, year)
    ensures forall f :: f !in LicenseFiles ==> (f in r <==> f in files)
    ensures forall f :: f !in LicenseFiles && f in files ==> r[f] == files[f]
  {
    if choice == "keep" then files
    else
      var stripped := files - LicenseFiles;
      if choice == "none" then stripped else stripped["LICENSE" := LicenseText(choice, year)]
  }

  /** Replacing the license twice with the same choice and year is the
      same as once. */
  lemma ForkLicenseIdempotent(files: map<string, string>, choice: string, year: nat)
    ensures ForkLicense(ForkLicense(files, choice, year), choice, year) == ForkLicense(files, choice, year)
  {
    var once := ForkLicense(files, choice, year);
    var twice := ForkLicense(once, choice, year);
    assert forall f :: f in twice <==> f in once;
  }

  /** The new license's first line names the choice, upper-cased. */
  lemma LicenseTitle(choice: string, year: nat)
    requires '\n' !in choice
    ensures HeadLine(LicenseText(choice, year)) == Upper(choice) + " License"
  {
    var title := LicenseTitleOf(choice);
    TitleNoLineFeed(choice);
    var c, n := "Copyright (c) ", NatToString(year);
    var rest := "\n" + c + n + "\n";
    assert "\n\n" == ['\n'] + "\n";
    Regroup(title, ['\n'], "\n", c, n, "\n");
    SplitAfter(title, '\n', rest);
  }

  lemma Regroup<T>(a: seq<T>, x: seq<T>, b: seq<T>, c: seq<T>, d: seq<T>, e: seq<T>)
    ensures a + (x + b) + c + d + e == a + x + (b + c + d + e)
  {
  }

  /** Upper-casing adds no line feed. */
  lemma TitleNoLineFeed(choice: string)
    requires '\n' !in choice
    ensures '\n' !in LicenseTitleOf(choice)
  {
    var u := Upper(choice);
    assert forall i :: 0 <= i < |u| ==> u[i] == UpperChar(choice[i]) != '\n';
    var w := " License";
    assert forall i :: 0 <= i < |w| ==> w[i] != '\n';
    assert forall i :: 0 <= i < |u + w| ==> (u + w)[i] != '\n';
  }

  // ---------------------------------------------------------------------
  // Installing and the closing hint

  /** The install command: `yarn` with `yarn.lock`, else `pnpm install`
      with `pnpm-lock.yaml`, else `npm install`. */
  function Installer(files: set<string>): (r: string)
    ensures "yarn.lock" in files ==> r == "yarn"
    ensures "yarn.lock" !in files && "pnpm-lock.yaml" in files ==> r == "pnpm install"
    ensures "yarn.lock" !in files && "pnpm-lock.yaml" !in files ==> r == "npm install"
  {
    if "yarn.lock" in files then "yarn"
    else if "pnpm-lock.yaml" in files then "pnpm install"
    else "npm install"
  }

  /** A project holding only the lock file the catalog gives a JavaScript
      package manager is installed with the command `create` runs for that
      manager. */
  lemma InstallerMatchesCatalog()
    ensures forall i :: 0 <= i < |Catalog.PackageManagers| && "javascript" in Catalog.PackageManagers[i].languages ==>
      Installer({Catalog.PackageManagers[i].lockFile}) == PmInstall(Catalog.PackageManagers[i].id)
  {
    OtherManagers();
    JavaScriptRows();
  }

  /** The catalog's first three rows: npm, yarn and pnpm, with their lock
      files. */
  lemma JavaScriptRows()
    ensures Catalog.PackageManagers[0].id == "npm" && Catalog.PackageManagers[0].lockFile == "package-lock.json"
    ensures Catalog.PackageManagers[1].id == "yarn" && Catalog.PackageManagers[1].lockFile == "yarn.lock"
    ensures Catalog.PackageManagers[2].id == "pnpm" && Catalog.PackageManagers[2].lockFile == "pnpm-lock.yaml"
  {
  }

  /** Past the first three rows, each package manager serves one language,
      and not JavaScript. */
  lemma OtherManagers()
    ensures forall i :: 3 <= i < |Catalog.PackageManagers| ==>
      |Catalog.PackageManagers[i].languages| == 1 && Catalog.PackageManagers[i].languages[0] != "javascript"
  {
  }

  /** Dependencies are installed only for a project with a `package.json`,
      and only when asked for. */
  function InstallCommand(files: set<string>, installDeps: bool): (r: Option<string>)
    ensures r.Some? <==> installDeps && "package.json" in files
    ensures r.Some? ==> r.value == Installer(files)
  {
    if installDeps && "package.json" in files then Some(Installer(files)) else None
  }

  /** The run command suggested at the end, from the manifests present:
      `package.json`, then `Cargo.toml`, then `go.mod`, then either Python
      manifest. */
  function Hint(files: set<string>): (r: Option<string>)
    ensures "package.json" in files ==> r == Some("npm run dev")
    ensures "package.json" !in files && "Cargo.toml" in files ==> r == Some("cargo run")
    ensures "package.json" !in files && "Cargo.toml" !in files && "go.mod" in files ==> r == Some("go run .")
    ensures "package.json" !in files && "Cargo.toml" !in files && "go.mod" !in files ==>
      (r.Some? <==> "pyproject.toml" in files || "requirements.txt" in files)
      && (r.Some? ==> r.value == "python main.py")
  {
    if "package.json" in files then Some("npm run dev")
    else if "Cargo.toml" in files then Some("cargo run")
    else if "go.mod" in files then Some("go run .")
    else if "pyproject.toml" in files || "requirements.txt" in files then Some("python main.py")
    else None
  }

  /** The lines printed under "Get started with". */
  function NextSteps(projectName: string, files: set<string>): (r: seq<string>)
    ensures |r| >= 1 && r[0] == "cd " + projectName
    ensures |r| == 2 <==> Hint(files).Some?
    ensures |r| == 2 ==> r[1] == Hint(files).value
  {
    ["cd " + projectName] + (match Hint(files) case Some(h) => [h] case None => [])
  }

  /** The license step never touches a manifest, so the hint read after it
      is the one the clone would give. */
  lemma HintAfterLicense(files: map<string, string>, choice: string, year: nat)
    ensures Hint(ForkLicense(files, choice, year).Keys) == Hint(files.Keys)
    ensures InstallCommand(ForkLicense(files, choice, year).Keys, true) == InstallCommand(files.Keys, true)
  {
    var r := ForkLicense(files, choice, year);
    assert "package.json" !in LicenseFiles && "Cargo.toml" !in LicenseFiles && "go.mod" !in LicenseFiles;
    assert "pyproject.toml" !in LicenseFiles && "requirements.txt" !in LicenseFiles;
    assert "yarn.lock" !in LicenseFiles && "pnpm-lock.yaml" !in LicenseFiles;
    assert "package.json" in r.Keys <==> "package.json" in files.Keys;
    assert "Cargo.toml" in r.Keys <==> "Cargo.toml" in files.Keys;
    assert "go.mod" in r.Keys <==> "go.mod" in files.Keys;
    assert "pyproject.toml" in r.Keys <==> "pyproject.toml" in files.Keys;
    assert "requirements.txt" in r.Keys <==> "requirements.txt" in files.Keys;
    assert "yarn.lock" in r.Keys <==> "yarn.lock" in files.Keys;
    assert "pnpm-lock.yaml" in r.Keys <==> "pnpm-lock.yaml" in files.Keys;
  }

  /** The paths of a project `create` generates. */
  function GeneratedPaths(o: ProjectOptions): set<string> {
    set f | f in Generator.ProjectFiles(o) :: Generator.PathOf(f)
  }

  /** A path is among the generated paths exactly when its file is
      generated. */
  lemma GeneratedPath(o: ProjectOptions, f: Generator.File)
    ensures Generator.PathOf(f) in GeneratedPaths(o) <==> f in Generator.ProjectFiles(o)
  {
    if Generator.PathOf(f) in GeneratedPaths(o) {
      var g :| g in Generator.ProjectFiles(o) && Generator.PathOf(g) == Generator.PathOf(f);
      Generator.FileAtPathOf(g);
      Generator.FileAtPathOf(f);
    }
  }

  /** Forking a project this tool generated suggests that language's
      runner: `npm run dev` for JavaScript and TypeScript, `cargo run` for
      Rust, `go run .` for Go, and `python main.py` for Python, although
      the generated Python entry point is `src/main.py`. */
  lemma HintOnGenerated(o: ProjectOptions)
    ensures IsJsTs(o.language) ==> Hint(GeneratedPaths(o)) == Some("npm run dev")
    ensures o.language == "rust" ==> Hint(GeneratedPaths(o)) == Some("cargo run")
    ensures o.language == "go" ==> Hint(GeneratedPaths(o)) == Some("go run .")
    ensures o.language == "python" ==> Hint(GeneratedPaths(o)) == Some("python main.py")
    ensures !IsJsTs(o.language) && o.language !in ["rust", "go", "python"] ==> Hint(GeneratedPaths(o)).None?
  {
    Generator.ManifestsWritten(o);
    GeneratedPath(o, Generator.PackageJsonFile);
    GeneratedPath(o, Generator.CargoTomlFile);
    GeneratedPath(o, Generator.GoModFile);
    GeneratedPath(o, Generator.PyProjectFile);
    GeneratedPath(o, Generator.RequirementsFile);
  }
}

=== FILE: fork_readme.dfy ===
/** How `fork` rewrites the cloned README: the first title line is renamed,
    a fork notice goes in after the first line starting with `#`, and an
    optional description replaces the paragraph under the title. The text is
    handled as its lines (split on line feeds); the regular expressions of
    the command become predicates on lines. */
module ForkReadme {

  import opened Text

  /** `\s` inside a line. */
  predicate IsInlineSpace(c: char) {
    IsJsSpace(c) && c != '\n'
  }

  /** A line `^#\s+.+$` matches whole: `#`, white space, then at least one
      more character. */
  predicate TitleLine(l: string) {
    |l| >= 3 && l[0] == '#' && IsInlineSpace(l[1])
  }

  /** A line that starts with `#`. */
  predicate HashLine(l: string) {
    |l| >= 1 && l[0] == '#'
  }

  /** The index of the first line satisfying `p`, or -1 (`findIndex`). */
  function FirstWhere(lines: seq<string>, p: string -> bool): (r: int)
    ensures -1 <= r < |lines|
    ensures r >= 0 ==> p(lines[r])
    ensures forall j :: 0 <= j < |lines| && (r < 0 || j < r) ==> !p(lines[j])
    decreases |lines|
  {
    if |lines| == 0 then -1
    else if p(lines[0]) then 0
    else
      var r := FirstWhere(lines[1..], p);
      assert forall j :: 1 <= j < |lines| ==> lines[j] == lines[1..][j - 1];
      if r < 0 then -1 else r + 1
  }

  /** The title line, when it comes first among the `#` lines, is the
      first title line too. */
  lemma FirstTitleIsFirstHash(lines: seq<string>)
    requires FirstWhere(lines, HashLine) >= 0 && TitleLine(lines[FirstWhere(lines, HashLine)])
    ensures FirstWhere(lines, TitleLine) == FirstWhere(lines, HashLine)
  {
    var k := FirstWhere(lines, HashLine);
    assert TitleLine(lines[k]);
    assert forall j :: 0 <= j < k ==> !HashLine(lines[j]) && !TitleLine(lines[j]);
  }

  // ---------------------------------------------------------------------
  // The title

  /** `replace(/^#\s+.+$/m, '# ' + name)`: the first title line becomes
      `# name`. */
  function Retitle(lines: seq<string>, name: string): (r: seq<string>)
    ensures |r| == |lines|
    ensures FirstWhere(lines, TitleLine) < 0 ==> r == lines
    ensures FirstWhere(lines, TitleLine) >= 0 ==> r == lines[FirstWhere(lines, TitleLine) := "# " + name]
  {
    var i := FirstWhere(lines, TitleLine);
    if i < 0 then lines else lines[i := "# " + name]
  }

  /** A non-empty name gives a title line again. */
  lemma RenamedIsTitle(name: string)
    requires name != ""
    ensures TitleLine("# " + name) && HashLine("# " + name)
  {
    assert ("# " + name)[1] == ' ';
  }

  // ---------------------------------------------------------------------
  // The fork notice

  const NoticeHead: string := "> \U{1F374} Forked from ["
  const NoticeTail: string := ") using [BlazeStart](" + ProjectUrl + ")"
  const ProjectUrl: string := "https://github.com/blazestart/blazestart"

  /** The notice's one line of text. */
  function NoticeLine(url: string): (r: string)
    ensures r != ""
  {
    NoticeHead + url + "](" + url + NoticeTail
  }

  /** Neither fixed part of the notice holds a line feed. */
  lemma NoticeConstants()
    ensures '\n' !in NoticeHead && '\n' !in NoticeTail
  {
    assert forall i :: 0 <= i < |NoticeHead| ==> NoticeHead[i] != '\n';
    assert forall i :: 0 <= i < |ProjectUrl| ==> ProjectUrl[i] != '\n';
    var using := ") using [BlazeStart](";
    assert forall i :: 0 <= i < |using| ==> using[i] != '\n';
    assert NoticeTail == using + ProjectUrl + ")";
  }

  /** The notice as the command builds it: its line between two line
      feeds. */
  function NoticeText(url: string): string {
    "\n" + NoticeLine(url) + "\n"
  }

  /** Spliced into the lines and joined again, the notice text is three
      lines: blank, the notice, blank. So the model inserts those three
      lines. */
  lemma NoticeLines(url: string)
    requires '\n' !in url
    ensures Split(NoticeText(url), '\n') == ["", NoticeLine(url), ""]
    ensures Join(["", NoticeLine(url), ""], "\n") == NoticeText(url)
  {
    NoticeConstants();
    var m := NoticeLine(url);
    assert '\n' !in m;
    LineBetweenFeeds(m);
  }

  /** A line between two line feeds splits into a blank line, the line and
      a blank line, and joins back. */
  lemma LineBetweenFeeds(m: string)
    requires '\n' !in m
    ensures Split("\n" + m + "\n", '\n') == ["", m, ""]
    ensures Join(["", m, ""], "\n") == "\n" + m + "\n"
  {
    var tail := m + "\n";
    assert "\n" + m + "\n" == "" + ['\n'] + tail;
    SplitAfter("", '\n', tail);
    assert tail == m + ['\n'] + "";
    SplitAfter(m, '\n', "");
    SplitNone("", '\n');
    assert ["", m, ""][1..] == [m, ""] && [m, ""][1..] == [""];
    assert Join([m, ""], "\n") == m + "\n" + "";
  }

  /** The notice's three lines after the first line that starts with `#`;
      without such a line, nothing. */
  function InsertNotice(lines: seq<string>, url: string): (r: seq<string>)
    ensures FirstWhere(lines, HashLine) < 0 ==> r == lines
    ensures FirstWhere(lines, HashLine) >= 0 ==>
      var t := FirstWhere(lines, HashLine);
      r == lines[..t + 1] + ["", NoticeLine(url), ""] + lines[t + 1..]
  {
    var t := FirstWhere(lines, HashLine);
    if t < 0 then lines else lines[..t + 1] + ["", NoticeLine(url), ""] + lines[t + 1..]
  }

  /** Taking the three inserted lines out again gives back the README. */
  lemma InsertNoticeRemovable(lines: seq<string>, url: string)
    requires FirstWhere(lines, HashLine) >= 0
    ensures var t := FirstWhere(lines, HashLine);
      var r := InsertNotice(lines, url);
      |r| == |lines| + 3 && r[t + 2] == NoticeLine(url)
      && r[..t + 1] + r[t + 4..] == lines
  {
    var t := FirstWhere(lines, HashLine);
    SpliceOut(lines, t + 1, "", NoticeLine(url), "");
  }

  /** Cutting out three lines spliced in at `i`. */
  lemma SpliceOut<T>(s: seq<T>, i: nat, x: T, y: T, z: T)
    requires i <= |s|
    ensures var r := s[..i] + [x, y, z] + s[i..];
      |r| == |s| + 3 && r[i] == x && r[i + 1] == y && r[i + 2] == z
      && r[..i] + r[i + 3..] == s && (0 < i ==> r[i - 1] == s[i - 1])
  {
    var r := s[..i] + [x, y, z] + s[i..];
    assert r[..i] == s[..i];
    assert r[i + 3..] == s[i..];
  }

  // ---------------------------------------------------------------------
  // The description

  /** `^#\s+.+\n\n(.+)$` matches at line `i`: a title line, a blank line,
      then a non-empty line. */
  predicate DescribeAt(lines: seq<string>, i: int) {
    0 <= i && i + 2 < |lines| && TitleLine(lines[i]) && lines[i + 1] == "" && lines[i + 2] != ""
  }

  /** The first line at or after `from` where the description pattern
      matches, or -1. */
  function FirstDescribed(lines: seq<string>, from: nat): (r: int)
    ensures r == -1 || (from <= r && DescribeAt(lines, r))
    ensures forall j :: from <= j && (r < 0 || j < r) ==> !DescribeAt(lines, j)
    decreases |lines| - from
  {
    if from >= |lines| then -1
    else if DescribeAt(lines, from) then from
    else FirstDescribed(lines, from + 1)
  }

  /** With a non-empty description, the first match becomes `# name`, a
      blank line and the description. */
  function Describe(lines: seq<string>, name: string, desc: string): (r: seq<string>)
    ensures desc == "" || FirstDescribed(lines, 0) < 0 ==> r == lines
    ensures desc != "" && FirstDescribed(lines, 0) >= 0 ==>
      var i := FirstDescribed(lines, 0);
      r == lines[..i] + ["# " + name, "", desc] + lines[i + 3..]
  {
    var i := FirstDescribed(lines, 0);
    if desc == "" || i < 0 then lines else lines[..i] + ["# " + name, "", desc] + lines[i + 3..]
  }

  // ---------------------------------------------------------------------
  // The whole rewrite

  /** The rewrite in the command's order: title, notice, description. A
      README without a `#` line comes back unchanged; without a description
      the notice always shows when there is one. */
  function UpdateReadmeAsWritten(content: string, name: string, url: string, desc: string): (r: string)
    ensures FirstWhere(Split(content, '\n'), HashLine) < 0 ==> r == content
    ensures desc == "" && FirstWhere(Split(content, '\n'), HashLine) >= 0 ==> Contains(r, NoticeLine(url))
  {
    var lines := Split(content, '\n');
    var l1 := Retitle(lines, name);
    var l2 := InsertNotice(l1, url);
    var l3 := Describe(l2, name, desc);
    assert FirstWhere(lines, HashLine) < 0 ==> l3 == lines by {
      if FirstWhere(lines, HashLine) < 0 {
        Untouched(lines, name, url, desc);
      }
    }
    assert FirstWhere(lines, HashLine) < 0 ==> Join(l3, "\n") == content by {
      JoinSplit(content, '\n');
    }
    assert desc == "" && FirstWhere(lines, HashLine) >= 0 ==> Contains(Join(l3, "\n"), NoticeLine(url)) by {
      if desc == "" && FirstWhere(lines, HashLine) >= 0 {
        RetitleKeepsHash(lines, name);
        NoticeShown(l1, url);
      }
    }
    Join(l3, "\n")
  }

  /** The rewrite with the description settled before the notice goes in.
      A README without a `#` line comes back unchanged, and one with a `#`
      line always shows the notice. */
  function UpdateReadme(content: string, name: string, url: string, desc: string): (r: string)
    ensures FirstWhere(Split(content, '\n'), HashLine) < 0 ==> r == content
    ensures FirstWhere(Split(content, '\n'), HashLine) >= 0 ==> Contains(r, NoticeLine(url))
  {
    var lines := Split(content, '\n');
    var l1 := Retitle(lines, name);
    var l2 := Describe(l1, name, desc);
    var l3 := InsertNotice(l2, url);
    assert FirstWhere(lines, HashLine) < 0 ==> l3 == lines by {
      if FirstWhere(lines, HashLine) < 0 {
        Untouched(lines, name, url, desc);
      }
    }
    assert FirstWhere(lines, HashLine) < 0 ==> Join(l3, "\n") == content by {
      JoinSplit(content, '\n');
    }
    assert FirstWhere(lines, HashLine) >= 0 ==> Contains(Join(l3, "\n"), NoticeLine(url)) by {
      if FirstWhere(lines, HashLine) >= 0 {
        RetitleKeepsHash(lines, name);
        DescribeKeepsHash(l1, name, desc);
        NoticeShown(l2, url);
      }
    }
    Join(l3, "\n")
  }

  /** Without a `#` line no step of the rewrite finds anything to change. */
  lemma Untouched(lines: seq<string>, name: string, url: string, desc: string)
    requires FirstWhere(lines, HashLine) < 0
    ensures Retitle(lines, name) == lines && InsertNotice(lines, url) == lines && Describe(lines, name, desc) == lines
  {
    assert forall j :: 0 <= j < |lines| ==> !TitleLine(lines[j]);
    assert FirstWhere(lines, TitleLine) < 0;
    assert forall j :: 0 <= j < |lines| ==> !DescribeAt(lines, j);
    assert FirstDescribed(lines, 0) < 0;
  }

  /** Renaming the title leaves some `#` line in place. */
  lemma RetitleKeepsHash(lines: seq<string>, name: string)
    requires FirstWhere(lines, HashLine) >= 0
    ensures FirstWhere(Retitle(lines, name), HashLine) >= 0
  {
    var h := FirstWhere(lines, HashLine);
    var t := FirstWhere(lines, TitleLine);
    var r := Retitle(lines, name);
    if t >= 0 && t == h {
      assert HashLine(r[h]);
    } else {
      assert r[h] == lines[h];
    }
  }

  /** Settling the description leaves some `#` line in place. */
  lemma DescribeKeepsHash(lines: seq<string>, name: string, desc: string)
    requires FirstWhere(lines, HashLine) >= 0
    ensures FirstWhere(Describe(lines, name, desc), HashLine) >= 0
  {
    var i := FirstDescribed(lines, 0);
    var r := Describe(lines, name, desc);
    if desc != "" && i >= 0 {
      assert r[i] == "# " + name;
      assert HashLine(r[i]);
    } else {
      var h := FirstWhere(lines, HashLine);
      assert HashLine(r[h]);
    }
  }

  /** Once inserted, the notice shows in the joined text. */
  lemma NoticeShown(lines: seq<string>, url: string)
    requires FirstWhere(lines, HashLine) >= 0
    ensures Contains(Join(InsertNotice(lines, url), "\n"), NoticeLine(url))
  {
    var t := FirstWhere(lines, HashLine);
    var r := InsertNotice(lines, url);
    assert r[t + 2] == NoticeLine(url);
    JoinContainsMember(r, "\n", NoticeLine(url));
  }

  /** As written, when the README's first `#` line is its title, a
      description replaces the fork notice just inserted, not the paragraph
      under the title: the result is the renamed title, a blank line, the
      description, a blank line, and the rest of the README untouched. */
  lemma {:induction false} DescriptionReplacesNotice(lines: seq<string>, name: string, url: string, desc: string)
    requires name != "" && desc != ""
    requires FirstWhere(lines, HashLine) >= 0 && TitleLine(lines[FirstWhere(lines, HashLine)])
    ensures var k := FirstWhere(lines, HashLine);
      Describe(InsertNotice(Retitle(lines, name), url), name, desc)
        == lines[..k] + ["# " + name, "", desc, ""] + lines[k + 1..]
  {
    var k := FirstWhere(lines, HashLine);
    FirstTitleIsFirstHash(lines);
    RenamedIsTitle(name);
    var l1 := Retitle(lines, name);
    assert l1 == lines[k := "# " + name];
    RetitledFirstHash(lines, name, k);
    var l2 := InsertNotice(l1, url);
    assert l2 == l1[..k + 1] + ["", NoticeLine(url), ""] + l1[k + 1..];
    assert DescribeAt(l2, k);
    FirstDescribedIs(l2, k);
    assert l2[k + 3..] == [""] + lines[k + 1..];
    assert l2[..k] == lines[..k];
    assert l2[..k] + ["# " + name, "", desc] + l2[k + 3..]
        == lines[..k] + ["# " + name, "", desc, ""] + lines[k + 1..];
  }

  /** Renaming the first `#` line keeps it the first `#` line. */
  lemma RetitledFirstHash(lines: seq<string>, name: string, k: int)
    requires 0 <= k < |lines| && FirstWhere(lines, HashLine) == k && HashLine("# " + name)
    ensures FirstWhere(lines[k := "# " + name], HashLine) == k
  {
    var l1 := lines[k := "# " + name];
    assert HashLine(l1[k]);
    assert forall j :: 0 <= j < k ==> l1[j] == lines[j] && !HashLine(lines[j]);
  }

  /** No line before the first `#` line matches the description pattern. */
  lemma FirstDescribedIs(lines: seq<string>, k: int)
    requires DescribeAt(lines, k)
    requires forall j :: 0 <= j < k ==> !HashLine(lines[j])
    ensures FirstDescribed(lines, 0) == k
  {
    assert forall j :: 0 <= j < k ==> !DescribeAt(lines, j);
  }

  /** The description step leaves a renamed first `#` line where it is:
      a match can only start there or further down. */
  lemma DescribeKeepsTitle(l1: seq<string>, name: string, desc: string, k: int)
    requires 0 <= k < |l1| && FirstWhere(l1, HashLine) == k && l1[k] == "# " + name
    ensures var l2 := Describe(l1, name, desc);
      k < |l2| && l2[k] == "# " + name && l2[..k] == l1[..k] && FirstWhere(l2, HashLine) == k
  {
    var l2 := Describe(l1, name, desc);
    var i := FirstDescribed(l1, 0);
    if desc != "" && i >= 0 {
      assert i >= k by {
        assert forall j :: 0 <= j < k ==> !HashLine(l1[j]);
      }
      assert l2[..i] == l1[..i];
      assert l2[i] == "# " + name;
      assert forall j :: 0 <= j < k ==> l2[j] == l2[..i][j];
    }
    assert HashLine(l2[k]);
    FirstHashUnchanged(l1, l2, k);
  }

  /** With the description settled first, the fork notice stays right
      under the renamed title. */
  lemma CorrectedKeepsNotice(lines: seq<string>, name: string, url: string, desc: string)
    requires name != ""
    requires FirstWhere(lines, HashLine) >= 0 && TitleLine(lines[FirstWhere(lines, HashLine)])
    ensures var k := FirstWhere(lines, HashLine);
      var r := InsertNotice(Describe(Retitle(lines, name), name, desc), url);
      k + 2 < |r| && r[k] == "# " + name && r[k + 1] == "" && r[k + 2] == NoticeLine(url)
  {
    var k := FirstWhere(lines, HashLine);
    FirstTitleIsFirstHash(lines);
    RenamedIsTitle(name);
    var l1 := Retitle(lines, name);
    RetitledFirstHash(lines, name, k);
    DescribeKeepsTitle(l1, name, desc, k);
    var l2 := Describe(l1, name, desc);
    SpliceOut(l2, k + 1, "", NoticeLine(url), "");
  }

  /** And when the paragraph under the title is the one the description
      pattern matches, the description takes its place, below the notice. */
  lemma CorrectedDescribes(lines: seq<string>, name: string, url: string, desc: string)
    requires name != "" && desc != ""
    requires FirstWhere(lines, HashLine) >= 0 && TitleLine(lines[FirstWhere(lines, HashLine)])
    requires DescribeAt(lines[FirstWhere(lines, HashLine) := "# " + name], FirstWhere(lines, HashLine))
    ensures var k := FirstWhere(lines, HashLine);
      InsertNotice(Describe(Retitle(lines, name), name, desc), url)
        == lines[..k] + ["# " + name, "", NoticeLine(url), "", "", desc] + lines[k + 3..]
  {
    var k := FirstWhere(lines, HashLine);
    DescribedTitle(lines, name, desc);
    SpliceAfter(lines[..k], "# " + name, "", desc, lines[k + 3..], "", NoticeLine(url), "");
  }

  /** Splicing three lines in right after the line at index `|head|`. */
  lemma SpliceAfter<T>(head: seq<T>, t: T, a: T, b: T, tail: seq<T>, x: T, y: T, z: T)
    ensures var l := head + [t, a, b] + tail;
      l[..|head| + 1] + [x, y, z] + l[|head| + 1..] == head + [t, x, y, z, a, b] + tail
  {
    var l := head + [t, a, b] + tail;
    assert l[..|head| + 1] == head + [t];
    assert l[|head| + 1..] == [a, b] + tail;
  }

  /** The description step on the renamed README, when it matches at the
      title: the title, a blank line and the description replace the first
      three lines from the title on. */
  lemma DescribedTitle(lines: seq<string>, name: string, desc: string)
    requires name != "" && desc != ""
    requires FirstWhere(lines, HashLine) >= 0 && TitleLine(lines[FirstWhere(lines, HashLine)])
    requires DescribeAt(lines[FirstWhere(lines, HashLine) := "# " + name], FirstWhere(lines, HashLine))
    ensures var k := FirstWhere(lines, HashLine);
      var l2 := Describe(Retitle(lines, name), name, desc);
      l2 == lines[..k] + ["# " + name, "", desc] + lines[k + 3..] && FirstWhere(l2, HashLine) == k
  {
    var k := FirstWhere(lines, HashLine);
    FirstTitleIsFirstHash(lines);
    RenamedIsTitle(name);
    var l1 := Retitle(lines, name);
    RetitledFirstHash(lines, name, k);
    FirstDescribedIs(l1, k);
    var l2 := Describe(l1, name, desc);
    assert l2 == l1[..k] + ["# " + name, "", desc] + l1[k + 3..];
    assert l2[..k] == l1[..k] && HashLine(l2[k]);
    FirstHashUnchanged(l1, l2, k);
  }

  /** Two line lists that agree before `k` and both have a `#` line at `k`
      have their first `#` line at the same place. */
  lemma FirstHashUnchanged(l1: seq<string>, l2: seq<string>, k: int)
    requires 0 <= k < |l1| && k < |l2| && FirstWhere(l1, HashLine) == k
    requires l2[..k] == l1[..k] && HashLine(l2[k])
    ensures FirstWhere(l2, HashLine) == k
  {
    assert forall j :: 0 <= j < k ==> l2[j] == l2[..k][j] == l1[j] && !HashLine(l1[j]);
  }

  /** A concrete case: the README `# A`, blank, `B`, forked as `n` with the
      description `d`. As written, `B` survives and the notice is gone; with
      the description settled first, `B` is replaced and the notice kept. */
  lemma DescriptionExample(url: string)
    ensures Describe(InsertNotice(Retitle(["# A", "", "B"], "n"), url), "n", "d") == ["# n", "", "d", "", "", "B"]
    ensures InsertNotice(Describe(Retitle(["# A", "", "B"], "n"), "n", "d"), url)
            == ["# n", "", NoticeLine(url), "", "", "d"]
  {
    var lines := ["# A", "", "B"];
    assert TitleLine(lines[0]) && FirstWhere(lines, HashLine) == 0;
    assert "# " + "n" == "# n";
    assert lines[0 := "# n"] == ["# n", "", "B"];
    DescriptionReplacesNotice(lines, "n", url, "d");
    assert lines[1..] == ["", "B"];
    CorrectedDescribes(lines, "n", url, "d");
    assert lines[3..] == [];
  }
}

=== FILE: generator.dfy ===
/** The project generator: the directories a new project gets, the files it
    writes in which order, and what each file holds. The generator is
    modelled as a plan computed from the options; writing the plan to disk
    is left out. Each planned file carries a `Content` that names the
    template producing it, and `Render` turns that into the file's body. */
module Generator {

  import opened Wrappers
  import opened Text
  import opened Catalog
  import opened Options
  import PackageJson
  import Readme
  import Json

  // ---------------------------------------------------------------------
  // Directory structure

  const BaseDirectories: seq<string> := ["src", "tests", "docs"]
  const UiDirectories: seq<string> := ["src/components", "src/pages", "src/styles", "public"]
  const ServerDirectories: seq<string> := ["src/routes", "src/controllers", "src/models", "src/middleware"]
  const PythonDirectories: seq<string> := ["src/utils", "requirements"]

  /** Frameworks that get component, page and style directories. */
  predicate UiFramework(framework: string) {
    framework == "react" || framework == "next" || framework == "vue"
  }

  /** Frameworks that get route, controller, model and middleware
      directories. */
  predicate ServerFramework(framework: string) {
    framework == "express" || framework == "fastapi" || framework == "flask"
  }

  /** The directories created for a project, in creation order: a directory
      is created iff it is a base directory or belongs to the group its
      framework or language selects; the base directories come first, and
      none is listed twice. */
  function Directories(language: string, framework: string): (r: seq<string>)
    ensures forall d :: d in r <==>
      d in BaseDirectories
      || (UiFramework(framework) && d in UiDirectories)
      || (ServerFramework(framework) && d in ServerDirectories)
      || (language == "python" && d in PythonDirectories)
    ensures 3 <= |r| <= 9 && r[..3] == BaseDirectories && Distinct(r)
  {
    BaseDirectories
    + (if UiFramework(framework) then UiDirectories else [])
    + (if ServerFramework(framework) then ServerDirectories else [])
    + (if language == "python" then PythonDirectories else [])
  }

  // ---------------------------------------------------------------------
  // The files of a project

  /** Which template produces a file. */
  datatype Content =
    | GitignoreFor(language: string)
    | LicenseFor(license: string)
    | ReadmeFor(options: ProjectOptions)
    | PackageJsonFor(name: string, framework: string, language: string, linters: seq<string>)
    | RequirementsFor(framework: string)
    | PyProjectFor(name: string, framework: string)
    | GoModFor(name: string)
    | CargoTomlFor(name: string, framework: string)
    | EntryFor(language: string, framework: string)
    | TsConfig
    | NextConfig
    | ViteConfigFor(framework: string)
    | EslintConfigFor(language: string)
    | PrettierConfig
    | HuskyConfig
    | PreCommitConfig

  /** The files a project can get. */
  datatype File =
    | GitignoreFile | LicenseFile | ReadmeFile
    | PackageJsonFile | RequirementsFile | PyProjectFile | GoModFile | CargoTomlFile
    | IndexJs | IndexTs | MainPy | MainGo | MainRs
    | TsConfigFile | NextConfigFile | ViteConfigFile
    | EslintrcFile | PrettierrcFile | HuskyrcFile | PreCommitFile

  /** Where a file is written, relative to the project directory. */
  function PathOf(f: File): string {
    match f
    case GitignoreFile => ".gitignore"
    case LicenseFile => "LICENSE"
    case ReadmeFile => "README.md"
    case PackageJsonFile => "package.json"
    case RequirementsFile => "requirements.txt"
    case PyProjectFile => "pyproject.toml"
    case GoModFile => "go.mod"
    case CargoTomlFile => "Cargo.toml"
    case IndexJs => "src/index.js"
    case IndexTs => "src/index.ts"
    case MainPy => "src/main.py"
    case MainGo => "main.go"
    case MainRs => "src/main.rs"
    case TsConfigFile => "tsconfig.json"
    case NextConfigFile => "next.config.js"
    case ViteConfigFile => "vite.config.js"
    case EslintrcFile => ".eslintrc.json"
    case PrettierrcFile => ".prettierrc"
    case HuskyrcFile => ".huskyrc.json"
    case PreCommitFile => ".pre-commit-config.yaml"
  }

  /** The file written at a path, if any: the inverse of `PathOf`. */
  function FileAt(path: string): (r: Option<File>)
    ensures r.Some? ==> PathOf(r.value) == path
  {
    match path
    case ".gitignore" => Some(GitignoreFile)
    case "LICENSE" => Some(LicenseFile)
    case "README.md" => Some(ReadmeFile)
    case "package.json" => Some(PackageJsonFile)
    case "requirements.txt" => Some(RequirementsFile)
    case "pyproject.toml" => Some(PyProjectFile)
    case "go.mod" => Some(GoModFile)
    case "Cargo.toml" => Some(CargoTomlFile)
    case "src/index.js" => Some(IndexJs)
    case "src/index.ts" => Some(IndexTs)
    case "src/main.py" => Some(MainPy)
    case "main.go" => Some(MainGo)
    case "src/main.rs" => Some(MainRs)
    case "tsconfig.json" => Some(TsConfigFile)
    case "next.config.js" => Some(NextConfigFile)
    case "vite.config.js" => Some(ViteConfigFile)
    case ".eslintrc.json" => Some(EslintrcFile)
    case ".prettierrc" => Some(PrettierrcFile)
    case ".huskyrc.json" => Some(HuskyrcFile)
    case ".pre-commit-config.yaml" => Some(PreCommitFile)
    case _ => None
  }

  /** A file to write and the template that produces it. */
  datatype Artifact = Artifact(file: File, content: Content)

  datatype Plan = Plan(directories: seq<string>, artifacts: seq<Artifact>)

  /** A file's body: text, a JSON document, the package manifest, or the
      text of a license (whose templates are not part of this model). */
  datatype Body =
    | Plain(text: string)
    | Document(value: Json.Value)
    | PackageDoc(manifest: PackageJson.Manifest)
    | LicenseText(license: string)

  /** The files of a list of artifacts, in order. */
  function Files(artifacts: seq<Artifact>): seq<File>
    decreases |artifacts|
  {
    if |artifacts| == 0 then [] else [artifacts[0].file] + Files(artifacts[1..])
  }

  /** The manifest files: `package.json` for JavaScript and TypeScript,
      `requirements.txt` and `pyproject.toml` for Python, `go.mod` for Go,
      `Cargo.toml` for Rust, none otherwise. */
  function ManifestArtifacts(o: ProjectOptions): seq<Artifact> {
    if IsJsTs(o.language) then
      [Artifact(PackageJsonFile, PackageJsonFor(o.name, o.framework, o.language, o.linters))]
    else if o.language == "python" then
      [Artifact(RequirementsFile, RequirementsFor(o.framework)),
       Artifact(PyProjectFile, PyProjectFor(o.name, o.framework))]
    else if o.language == "go" then
      [Artifact(GoModFile, GoModFor(o.name))]
    else if o.language == "rust" then
      [Artifact(CargoTomlFile, CargoTomlFor(o.name, o.framework))]
    else []
  }

  /** The entry file of a language, if it has one. */
  function EntryFile(language: string): Option<File> {
    match language
    case "javascript" => Some(IndexJs)
    case "typescript" => Some(IndexTs)
    case "python" => Some(MainPy)
    case "go" => Some(MainGo)
    case "rust" => Some(MainRs)
    case _ => None
  }

  /** The entry file's path; empty for a language without one. */
  function EntryPath(language: string): string {
    match EntryFile(language)
    case Some(f) => PathOf(f)
    case None => ""
  }

  /** The entry file. The source writes it when both its path and its text
      are non-empty; every text is non-empty where there is a path
      (`EntryGuard`), so the path alone decides. */
  function EntryArtifacts(language: string, framework: string): seq<Artifact> {
    match EntryFile(language)
    case Some(f) => [Artifact(f, EntryFor(language, framework))]
    case None => []
  }

  /** `tsconfig.json` for TypeScript, `next.config.js` for next and
      `vite.config.js` for vite or vue. */
  function ConfigArtifacts(language: string, framework: string): seq<Artifact> {
    (if language == "typescript" then [Artifact(TsConfigFile, TsConfig)] else [])
    + (if framework == "next" then [Artifact(NextConfigFile, NextConfig)] else [])
    + (if framework == "vite" || framework == "vue" then [Artifact(ViteConfigFile, ViteConfigFor(framework))] else [])
  }

  /** The linter configurations, for JavaScript and TypeScript only. */
  function LinterArtifacts(language: string, linters: seq<string>): seq<Artifact> {
    if IsJsTs(language) then
      (if "eslint" in linters then [Artifact(EslintrcFile, EslintConfigFor(language))] else [])
      + (if "prettier" in linters then [Artifact(PrettierrcFile, PrettierConfig)] else [])
    else []
  }

  /** The git-hook configuration: husky for JavaScript and TypeScript,
      pre-commit for Python, none otherwise. */
  function HookArtifacts(language: string): seq<Artifact> {
    if IsJsTs(language) then [Artifact(HuskyrcFile, HuskyConfig)]
    else if language == "python" then [Artifact(PreCommitFile, PreCommitConfig)]
    else []
  }

  /** Everything `generateProject` creates, in order: the directories for
      the language and framework, then the files of each step. */
  function GenerateProject(o: ProjectOptions): (r: Plan)
    ensures forall d :: d in r.directories <==>
      d in BaseDirectories
      || (UiFramework(o.framework) && d in UiDirectories)
      || (ServerFramework(o.framework) && d in ServerDirectories)
      || (o.language == "python" && d in PythonDirectories)
    ensures Files(r.artifacts) == ProjectFiles(o)
  {
    ProjectFilesSteps(o);
    Plan(Directories(o.language, o.framework), PlanArtifacts(o))
  }

  /** The artifacts of every step, laid end to end. */
  function PlanArtifacts(o: ProjectOptions): seq<Artifact> {
      (if o.gitignore then [Artifact(GitignoreFile, GitignoreFor(o.language))] else [])
      + (if o.license != "none" then [Artifact(LicenseFile, LicenseFor(o.license))] else [])
      + [Artifact(ReadmeFile, ReadmeFor(o))]
      + ManifestArtifacts(o)
      + EntryArtifacts(o.language, o.framework)
      + ConfigArtifacts(o.language, o.framework)
      + (if |o.linters| > 0 then LinterArtifacts(o.language, o.linters) else [])
      + (if o.gitHooks then HookArtifacts(o.language) else [])
  }

  /** The body of a planned file. */
  function Render(c: Content): Body {
    match c
    case GitignoreFor(language) => Plain(GitignoreText(language))
    case LicenseFor(license) => LicenseText(license)
    case ReadmeFor(o) => Plain(Readme.GenerateReadme(o))
    case PackageJsonFor(name, framework, language, linters) =>
      PackageDoc(PackageJson.GeneratePackageJson(name, framework, language, linters))
    case RequirementsFor(framework) => Plain(RequirementsText(framework))
    case PyProjectFor(name, framework) => Plain(PyProjectText(name, framework))
    case GoModFor(name) => Plain(GoModText(name))
    case CargoTomlFor(name, framework) => Plain(CargoTomlText(name, framework))
    case EntryFor(language, framework) => Plain(EntryText(language, framework))
    case TsConfig => Document(TsConfigValue)
    case NextConfig => Plain(Join(NextConfigLines, "\n"))
    case ViteConfigFor(framework) => Plain(Join(ViteConfigLines(framework), "\n"))
    case EslintConfigFor(language) => Document(EslintConfig(language))
    case PrettierConfig => Document(PrettierConfigValue)
    case HuskyConfig => Document(HuskyConfigValue)
    case PreCommitConfig => Plain(Join(PreCommitLines, "\n"))
  }

  // ---------------------------------------------------------------------
  // Templates

  /** The ignore patterns for a language, or the JavaScript ones when the
      table has no entry for it. */
  function GitignoreLines(language: string): seq<string> {
    match GitignoreTemplate(language)
    case Some(lines) => lines
    case None => GitignoreTemplate("javascript").GetOr([])
  }

  /** The `.gitignore` text: it opens with the first pattern and every
      pattern of the language, or of the JavaScript fallback, occurs in it. */
  function GitignoreText(language: string): (r: string)
    ensures StartsWith(r, GitignoreLines(language)[0])
    ensures forall k :: 0 <= k < |GitignoreLines(language)| ==> Contains(r, GitignoreLines(language)[k])
  {
    var lines := GitignoreLines(language);
    GitignoreFallback(language);
    JoinStartsWith(lines, "\n");
    forall k | 0 <= k < |lines|
      ensures Contains(Join(lines, "\n"), lines[k])
    {
      JoinContains(lines, "\n", k);
    }
    Join(lines, "\n")
  }

  /** The pinned requirements of a Python framework. */
  function Requirements(framework: string): seq<string> {
    if framework == "flask" then ["Flask==2.3.0", "python-dotenv==1.0.0"]
    else if framework == "django" then ["Django==4.2.0"]
    else if framework == "fastapi" then ["fastapi==0.100.0", "uvicorn==0.23.0"]
    else []
  }

  function RequirementsText(framework: string): string {
    Join(Requirements(framework), "\n")
  }

  const PyProjectTail: seq<string> := [
    "",
    "[tool.poetry.dev-dependencies]",
    "pytest = \"^7.3.0\"",
    "black = \"^23.3.0\"",
    "flake8 = \"^6.0.0\"",
    "",
    "[build-system]",
    "requires = [\"poetry-core>=1.0.0\"]",
    "build-backend = \"poetry.core.masonry.api\""
  ]

  /** The lines of `pyproject.toml`; each framework line is empty unless it
      is the chosen framework, and the fastapi line holds two entries. */
  function PyProjectLines(name: string, framework: string): seq<string> {
    ["[tool.poetry]",
     "name = \"" + name + "\"",
     "version = \"0.1.0\"",
     "description = \"A new Python project\"",
     "authors = [\"Your Name <you@example.com>\"]",
     "",
     "[tool.poetry.dependencies]",
     "python = \"^3.9\"",
     if framework == "flask" then "Flask = \"^2.3.0\"" else "",
     if framework == "django" then "Django = \"^4.2.0\"" else "",
     if framework == "fastapi" then "fastapi = \"^0.100.0\"\nuvicorn = \"^0.23.0\"" else ""]
    + PyProjectTail
  }

  function PyProjectText(name: string, framework: string): string {
    Join(PyProjectLines(name, framework), "\n")
  }

  function GoModText(name: string): string {
    "module " + name + "\n\ngo 1.21\n"
  }

  /** The lines of `Cargo.toml`; the two framework lines are empty unless
      the framework is actix (three entries) or rocket. */
  function CargoTomlLines(name: string, framework: string): seq<string> {
    ["[package]",
     "name = \"" + name + "\"",
     "version = \"0.1.0\"",
     "edition = \"2021\"",
     "",
     "[dependencies]",
     if framework == "actix" then
       "actix-web = \"4\"\nserde = { version = \"1\", features = [\"derive\"] }\nserde_json = \"1\""
     else "",
     if framework == "rocket" then "rocket = \"0.5\"" else ""]
  }

  function CargoTomlText(name: string, framework: string): string {
    Join(CargoTomlLines(name, framework), "\n")
  }

  /** The type annotation the Express handler's parameters get. */
  function AnyAnnotation(language: string): string {
    if language == "typescript" then ": any" else ""
  }

  function ImportStatement(language: string): string {
    if language == "typescript" then "import express from 'express';"
    else "const express = require('express');"
  }

  /** The fixed entry templates, one list of lines each. */
  datatype EntryTemplates = EntryTemplates(
    expressSetup: seq<string>,
    expressRoutes: seq<string>,
    flask: seq<string>,
    fastApi: seq<string>,
    python: seq<string>,
    gin: seq<string>,
    go: seq<string>,
    actix: seq<string>,
    rust: seq<string>)

  const EntryTemplateText: EntryTemplates := EntryTemplates(
    ExpressSetup, ExpressRoutes, FlaskEntry, FastApiEntry, PythonEntry, GinEntry, GoEntry, ActixEntry, RustEntry)

  /** The JavaScript or TypeScript entry: an Express server for express,
      a greeting otherwise. */
  function JsEntryLines(t: EntryTemplates, framework: string, language: string): seq<string> {
    if framework == "express" then
      [ImportStatement(language)] + t.expressSetup
      + ["app.get('/', (req" + AnyAnnotation(language) + ", res" + AnyAnnotation(language) + ") => {"]
      + t.expressRoutes
    else
      ["// Welcome to your new " + (if language == "typescript" then "TypeScript" else "JavaScript") + " project!",
       "console.log('\U{F0}\U{178}\U{161}\U{20AC} Project initialized with BlazeStart!');"]
  }

  /** The entry file's lines for the given templates; none for a language
      without an entry. */
  function EntryLinesWith(t: EntryTemplates, language: string, framework: string): seq<string> {
    if IsJsTs(language) then JsEntryLines(t, framework, language)
    else if language == "python" then
      (if framework == "flask" then t.flask else if framework == "fastapi" then t.fastApi else t.python)
    else if language == "go" then
      (if framework == "gin" then t.gin else t.go)
    else if language == "rust" then
      (if framework == "actix" then t.actix else t.rust)
    else []
  }

  function EntryLines(language: string, framework: string): seq<string> {
    EntryLinesWith(EntryTemplateText, language, framework)
  }

  function EntryText(language: string, framework: string): string {
    Join(EntryLines(language, framework), "\n")
  }

  /** The `vite.config.js` lines; the plugin import and call are there only
      for vue. */
  function ViteConfigLines(framework: string): seq<string> {
    ["import { defineConfig } from 'vite'",
     if framework == "vue" then "import vue from '@vitejs/plugin-vue'" else "",
     "",
     "export default defineConfig({",
     "  plugins: [" + (if framework == "vue" then "vue()" else "") + "],",
     "})"]
  }

  const TsConfigValue: Json.Value := Json.Object(map[
    "compilerOptions" := Json.Object(map[
      "target" := Json.Str("ES2020"),
      "module" := Json.Str("commonjs"),
      "lib" := Json.Array([Json.Str("ES2020")]),
      "outDir" := Json.Str("./dist"),
      "rootDir" := Json.Str("./src"),
      "strict" := Json.Bool(true),
      "esModuleInterop" := Json.Bool(true),
      "skipLibCheck" := Json.Bool(true),
      "forceConsistentCasingInFileNames" := Json.Bool(true),
      "resolveJsonModule" := Json.Bool(true),
      "moduleResolution" := Json.Str("node")]),
    "include" := Json.Array([Json.Str("src/**/*")]),
    "exclude" := Json.Array([Json.Str("node_modules"), Json.Str("dist")])])

  /** `array.filter(Boolean)` on strings: the non-empty ones, in order. */
  function NonEmpty(xs: seq<string>): (r: seq<string>)
    ensures forall x :: x in r <==> x in xs && x != ""
    ensures |r| <= |xs|
    decreases |xs|
  {
    if |xs| == 0 then []
    else if xs[0] == "" then NonEmpty(xs[1..])
    else [xs[0]] + NonEmpty(xs[1..])
  }

  /** Filtering keeps order and multiplicity: filtering a concatenation
      filters each part in turn. */
  lemma {:induction false} NonEmptyConcat(xs: seq<string>, ys: seq<string>)
    ensures NonEmpty(xs + ys) == NonEmpty(xs) + NonEmpty(ys)
    decreases |xs|
  {
    if |xs| > 0 {
      assert (xs + ys)[1..] == xs[1..] + ys;
      NonEmptyConcat(xs[1..], ys);
    } else {
      assert xs + ys == ys;
    }
  }

  /** A single string is kept exactly when it is non-empty. */
  lemma NonEmptySingle(x: string)
    ensures NonEmpty([x]) == if x == "" then [] else [x]
  {
    assert [x][1..] == [];
  }

  function EslintExtends(language: string): seq<string> {
    NonEmpty(["eslint:recommended",
              if language == "typescript" then "plugin:@typescript-eslint/recommended" else ""])
  }

  /** The ESLint configuration; `parser` is absent unless the language is
      TypeScript, as `JSON.stringify` drops an undefined property, and the
      plugin list is empty for any other language. */
  function EslintConfig(language: string): (r: Json.Value)
    ensures r.Object?
    ensures "parser" in r.fields <==> language == "typescript"
    ensures language == "typescript" ==> r.fields["parser"] == Json.Str("@typescript-eslint/parser")
    ensures "plugins" in r.fields && (r.fields["plugins"] != Json.Array([]) <==> language == "typescript")
  {
    var ts := language == "typescript";
    Json.Object(map[
      "env" := Json.Object(map["browser" := Json.Bool(true), "es2021" := Json.Bool(true), "node" := Json.Bool(true)]),
      "extends" := Json.Array(Json.Strings(EslintExtends(language))),
      "parserOptions" := Json.Object(map["ecmaVersion" := Json.Str("latest"), "sourceType" := Json.Str("module")]),
      "plugins" := Json.Array(if ts then [Json.Str("@typescript-eslint")] else []),
      "rules" := Json.Object(map[])]
      + (if ts then map["parser" := Json.Str("@typescript-eslint/parser")] else map[]))
  }

  const PrettierConfigValue: Json.Value := Json.Object(map[
    "semi" := Json.Bool(true),
    "trailingComma" := Json.Str("es5"),
    "singleQuote" := Json.Bool(true),
    "printWidth" := Json.Number(100),
    "tabWidth" := Json.Number(2)])

  const HuskyConfigValue: Json.Value := Json.Object(map[
    "hooks" := Json.Object(map["pre-commit" := Json.Str("npm run lint"), "pre-push" := Json.Str("npm test")])])

  const ExpressSetup: seq<string> := [
    "",
    "const app = express();",
    "const PORT = process.env.PORT || 3000;",
    "",
    "app.use(express.json());",
    ""
  ]

  const ExpressRoutes: seq<string> := [
    "  res.json({ message: 'Welcome to your new Express app!' });",
    "});",
    "",
    "app.listen(PORT, () => {",
    "  console.log(`Server is running on port ${PORT}`);",
    "});"
  ]

  const FlaskEntry: seq<string> := [
    "from flask import Flask, jsonify",
    "",
    "app = Flask(__name__)",
    "",
    "@app.route('/')",
    "def hello():",
    "    return jsonify({'message': 'Welcome to your new Flask app!'})",
    "",
    "if __name__ == '__main__':",
    "    app.run(debug=True)"
  ]

  const FastApiEntry: seq<string> := [
    "from fastapi import FastAPI",
    "",
    "app = FastAPI()",
    "",
    "@app.get(\"/\")",
    "async def root():",
    "    return {\"message\": \"Welcome to your new FastAPI app!\"}"
  ]

  const PythonEntry: seq<string> := [
    "#!/usr/bin/env python3",
    "\"\"\"",
    "Main entry point for the application",
    "\"\"\"",
    "",
    "def main():",
    "    print(\"\U{F0}\U{178}\U{161}\U{20AC} Project initialized with BlazeStart!\")",
    "",
    "if __name__ == \"__main__\":",
    "    main()"
  ]

  const GinEntry: seq<string> := [
    "package main",
    "",
    "import (",
    "    \"github.com/gin-gonic/gin\"",
    ")",
    "",
    "func main() {",
    "    r := gin.Default()",
    "    r.GET(\"/\", func(c *gin.Context) {",
    "        c.JSON(200, gin.H{",
    "            \"message\": \"Welcome to your new Gin app!\",",
    "        })",
    "    })",
    "    r.Run()",
    "}"
  ]

  const GoEntry: seq<string> := [
    "package main",
    "",
    "import \"fmt\"",
    "",
    "func main() {",
    "    fmt.Println(\"\U{F0}\U{178}\U{161}\U{20AC} Project initialized with BlazeStart!\")",
    "}"
  ]

  const ActixEntry: seq<string> := [
    "use actix_web::{web, App, HttpResponse, HttpServer};",
    "",
    "async fn hello() -> HttpResponse {",
    "    HttpResponse::Ok().json(serde_json::json!({",
    "        \"message\": \"Welcome to your new Actix app!\"",
    "    }))",
    "}",
    "",
    "#[actix_web::main]",
    "async fn main() -> std::io::Result<()> {",
    "    HttpServer::new(|| {",
    "        App::new().route(\"/\", web::get().to(hello))",
    "    })",
    "    .bind(\"127.0.0.1:8080\")?",
    "    .run()",
    "    .await",
    "}"
  ]

  const RustEntry: seq<string> := [
    "fn main() {",
    "    println!(\"\U{F0}\U{178}\U{161}\U{20AC} Project initialized with BlazeStart!\");",
    "}"
  ]

  const NextConfigLines: seq<string> := [
    "/** @type {import('next').NextConfig} */",
    "const nextConfig = {",
    "  reactStrictMode: true,",
    "}",
    "",
    "module.exports = nextConfig"
  ]

  const PreCommitLines: seq<string> := [
    "repos:",
    "  - repo: https://github.com/psf/black",
    "    rev: 23.3.0",
    "    hooks:",
    "      - id: black",
    "  - repo: https://github.com/pycqa/flake8",
    "    rev: 6.0.0",
    "    hooks:",
    "      - id: flake8"
  ]

  // ---------------------------------------------------------------------
  // Properties of the plan

  /** The files of two lists laid end to end. */
  lemma {:induction false} FilesAppend(a: seq<Artifact>, b: seq<Artifact>)
    ensures Files(a + b) == Files(a) + Files(b)
    decreases |a|
  {
    if |a| > 0 {
      assert (a + b)[0] == a[0];
      assert (a + b)[1..] == a[1..] + b;
      FilesAppend(a[1..], b);
      assert Files(a + b) == [a[0].file] + (Files(a[1..]) + Files(b));
    } else {
      assert a + b == b;
    }
  }

  lemma FilesOne(a: Artifact)
    ensures Files([a]) == [a.file]
  {
  }

  lemma FilesTwo(a: Artifact, b: Artifact)
    ensures Files([a, b]) == [a.file, b.file]
  {
    assert [a, b][1..] == [b];
    FilesOne(b);
  }

  /** The source's test before writing the entry file, a non-empty path
      and a non-empty text, holds exactly when the language has an entry
      file. */
  lemma EntryGuard(language: string, framework: string)
    ensures EntryPath(language) != "" && EntryText(language, framework) != "" <==> EntryFile(language).Some?
  {
    if EntryPath(language) != "" {
      EntryTextNonEmpty(language, framework);
    }
  }

  /** Every language with an entry path has a non-empty entry text. */
  lemma EntryTextNonEmpty(language: string, framework: string)
    requires EntryPath(language) != ""
    ensures EntryText(language, framework) != ""
  {
    EntryTemplatesHeaded();
    EntryLinesHeadWith(EntryTemplateText, language, framework);
    JoinStartsWith(EntryLines(language, framework), "\n");
  }

  /** At least two lines, the first of them non-empty. */
  predicate Headed(lines: seq<string>) {
    |lines| >= 2 && lines[0] != ""
  }

  predicate TemplatesHeaded(t: EntryTemplates) {
    Headed(t.flask) && Headed(t.fastApi) && Headed(t.python) && Headed(t.gin)
    && Headed(t.go) && Headed(t.actix) && Headed(t.rust)
  }

  lemma EntryTemplatesHeaded()
    ensures TemplatesHeaded(EntryTemplateText)
  {
  }

  /** With headed templates, the entry lines of a language with an entry
      path are headed. */
  lemma EntryLinesHeadWith(t: EntryTemplates, language: string, framework: string)
    requires TemplatesHeaded(t) && EntryPath(language) != ""
    ensures Headed(EntryLinesWith(t, language, framework))
  {
  }

  /** The files a project gets, step by step: the reference the plan is
      checked against (`ProjectFilesSteps`). */
  function ProjectFiles(o: ProjectOptions): seq<File> {
    Concat(StepFiles(o))
  }

  /** The manifest files each language gets. */
  function ManifestFileList(language: string): seq<File> {
    if IsJsTs(language) then [PackageJsonFile]
    else if language == "python" then [RequirementsFile, PyProjectFile]
    else if language == "go" then [GoModFile]
    else if language == "rust" then [CargoTomlFile]
    else []
  }

  /** The configuration files a language and framework get. */
  function ConfigFileList(language: string, framework: string): seq<File> {
    (if language == "typescript" then [TsConfigFile] else [])
    + (if framework == "next" then [NextConfigFile] else [])
    + (if framework == "vite" || framework == "vue" then [ViteConfigFile] else [])
  }

  /** The linter files: JavaScript and TypeScript only, one per chosen
      linter. */
  function LinterFileList(language: string, linters: seq<string>): seq<File> {
    if IsJsTs(language) then
      (if "eslint" in linters then [EslintrcFile] else [])
      + (if "prettier" in linters then [PrettierrcFile] else [])
    else []
  }

  function HookFileList(language: string): seq<File> {
    if IsJsTs(language) then [HuskyrcFile]
    else if language == "python" then [PreCommitFile]
    else []
  }

  /** The files each step of `generateProject` writes, step by step; the
      README step always writes one. */
  function StepFiles(o: ProjectOptions): seq<seq<File>> {
    [if o.gitignore then [GitignoreFile] else [],
     if o.license != "none" then [LicenseFile] else [],
     [ReadmeFile],
     ManifestFileList(o.language),
     match EntryFile(o.language) case Some(f) => [f] case None => [],
     ConfigFileList(o.language, o.framework),
     if |o.linters| > 0 then LinterFileList(o.language, o.linters) else [],
     if o.gitHooks then HookFileList(o.language) else []]
  }

  /** Lists laid end to end. */
  function Concat(segs: seq<seq<File>>): seq<File>
    decreases |segs|
  {
    if |segs| == 0 then [] else segs[0] + Concat(segs[1..])
  }

  lemma ManifestFiles(o: ProjectOptions)
    ensures Files(ManifestArtifacts(o)) == ManifestFileList(o.language)
  {
    var m := ManifestArtifacts(o);
    if |m| == 1 {
      FilesOne(m[0]);
    } else if |m| == 2 {
      FilesTwo(m[0], m[1]);
    }
  }

  lemma ConfigFiles(language: string, framework: string)
    ensures Files(ConfigArtifacts(language, framework)) == ConfigFileList(language, framework)
  {
    var t := if language == "typescript" then [Artifact(TsConfigFile, TsConfig)] else [];
    var n := if framework == "next" then [Artifact(NextConfigFile, NextConfig)] else [];
    var v := if framework == "vite" || framework == "vue" then [Artifact(ViteConfigFile, ViteConfigFor(framework))] else [];
    FilesAppend(t + n, v);
    FilesAppend(t, n);
  }

  lemma LinterFiles(language: string, linters: seq<string>)
    ensures Files(LinterArtifacts(language, linters)) == LinterFileList(language, linters)
  {
    if IsJsTs(language) {
      var e := if "eslint" in linters then [Artifact(EslintrcFile, EslintConfigFor(language))] else [];
      var p := if "prettier" in linters then [Artifact(PrettierrcFile, PrettierConfig)] else [];
      FilesAppend(e, p);
    }
  }

  lemma HookFiles(language: string)
    ensures Files(HookArtifacts(language)) == HookFileList(language)
  {
  }

  /** The plan writes the files of its steps, step after step. */
  lemma ProjectFilesSteps(o: ProjectOptions)
    ensures Files(PlanArtifacts(o)) == ProjectFiles(o)
  {
    var g := if o.gitignore then [Artifact(GitignoreFile, GitignoreFor(o.language))] else [];
    var l := if o.license != "none" then [Artifact(LicenseFile, LicenseFor(o.license))] else [];
    var r := [Artifact(ReadmeFile, ReadmeFor(o))];
    var m := ManifestArtifacts(o);
    var e := EntryArtifacts(o.language, o.framework);
    var c := ConfigArtifacts(o.language, o.framework);
    var n := if |o.linters| > 0 then LinterArtifacts(o.language, o.linters) else [];
    var h := if o.gitHooks then HookArtifacts(o.language) else [];
    FilesEight(g, l, r, m, e, c, n, h);
    StepArtifactFiles(o);
    ConcatEight(StepFiles(o));
  }

  /** The files of eight lists of artifacts laid end to end. */
  lemma FilesEight(g: seq<Artifact>, l: seq<Artifact>, r: seq<Artifact>, m: seq<Artifact>,
                   e: seq<Artifact>, c: seq<Artifact>, n: seq<Artifact>, h: seq<Artifact>)
    ensures Files(g + l + r + m + e + c + n + h) ==
      Files(g) + Files(l) + Files(r) + Files(m) + Files(e) + Files(c) + Files(n) + Files(h)
  {
    FilesAppend(g + l + r + m + e + c + n, h);
    FilesAppend(g + l + r + m + e + c, n);
    FilesAppend(g + l + r + m + e, c);
    FilesAppend(g + l + r + m, e);
    FilesAppend(g + l + r, m);
    FilesAppend(g + l, r);
    FilesAppend(g, l);
  }

  /** Each step's artifacts carry that step's files. */
  lemma StepArtifactFiles(o: ProjectOptions)
    ensures Files(if o.gitignore then [Artifact(GitignoreFile, GitignoreFor(o.language))] else []) == StepFiles(o)[0]
    ensures Files(if o.license != "none" then [Artifact(LicenseFile, LicenseFor(o.license))] else []) == StepFiles(o)[1]
    ensures Files([Artifact(ReadmeFile, ReadmeFor(o))]) == StepFiles(o)[2]
    ensures Files(ManifestArtifacts(o)) == StepFiles(o)[3]
    ensures Files(EntryArtifacts(o.language, o.framework)) == StepFiles(o)[4]
    ensures Files(ConfigArtifacts(o.language, o.framework)) == StepFiles(o)[5]
    ensures Files(if |o.linters| > 0 then LinterArtifacts(o.language, o.linters) else []) == StepFiles(o)[6]
    ensures Files(if o.gitHooks then HookArtifacts(o.language) else []) == StepFiles(o)[7]
  {
    FilesOne(Artifact(ReadmeFile, ReadmeFor(o)));
    FilesOne(Artifact(GitignoreFile, GitignoreFor(o.language)));
    FilesOne(Artifact(LicenseFile, LicenseFor(o.license)));
    var e := EntryArtifacts(o.language, o.framework);
    if |e| == 1 { FilesOne(e[0]); }
    ManifestFiles(o);
    ConfigFiles(o.language, o.framework);
    LinterFiles(o.language, o.linters);
    HookFiles(o.language);
  }

  /** Eight lists laid end to end. */
  lemma ConcatEight(segs: seq<seq<File>>)
    requires |segs| == 8
    ensures Concat(segs) == segs[0] + segs[1] + segs[2] + segs[3] + segs[4] + segs[5] + segs[6] + segs[7]
  {
    ConcatStep(segs, 7);
    ConcatStep(segs, 6);
    ConcatStep(segs, 5);
    ConcatStep(segs, 4);
    ConcatStep(segs, 3);
    ConcatStep(segs, 2);
    ConcatStep(segs, 1);
    ConcatStep(segs, 0);
    assert segs[0..] == segs;
    assert Concat(segs[8..]) == [];
    RightToLeft(segs[0], segs[1], segs[2], segs[3], segs[4], segs[5], segs[6], segs[7]);
  }

  /** Regrouping eight lists laid end to end. */
  lemma RightToLeft<T>(a: seq<T>, b: seq<T>, c: seq<T>, d: seq<T>, e: seq<T>, f: seq<T>, g: seq<T>, h: seq<T>)
    ensures a + (b + (c + (d + (e + (f + (g + (h + []))))))) == a + b + c + d + e + f + g + h
  {
    assert h + [] == h;
  }

  lemma ConcatStep(segs: seq<seq<File>>, k: nat)
    requires k < |segs|
    ensures Concat(segs[k..]) == segs[k] + Concat(segs[k + 1..])
  {
    assert segs[k..][1..] == segs[k + 1..];
  }

  /** The step of `generateProject` that writes a file, counting from the
      ignore file. */
  function Stage(f: File): (r: nat)
    ensures r < 8
  {
    match f
    case GitignoreFile => 0
    case LicenseFile => 1
    case ReadmeFile => 2
    case PackageJsonFile | RequirementsFile | PyProjectFile | GoModFile | CargoTomlFile => 3
    case IndexJs | IndexTs | MainPy | MainGo | MainRs => 4
    case TsConfigFile | NextConfigFile | ViteConfigFile => 5
    case EslintrcFile | PrettierrcFile => 6
    case HuskyrcFile | PreCommitFile => 7
  }

  predicate Unique(fs: seq<File>) {
    forall i, j :: 0 <= i < j < |fs| ==> fs[i] != fs[j]
  }

  /** The files appear in the order of the steps that write them. */
  predicate InStageOrder(fs: seq<File>) {
    forall i, j :: 0 <= i < j < |fs| ==> Stage(fs[i]) <= Stage(fs[j])
  }

  /** The files one step writes: no repeats, all of step `k`. */
  predicate StepSegment(s: seq<File>, k: nat) {
    Unique(s) && forall i :: 0 <= i < |s| ==> Stage(s[i]) == k
  }

  /** Segment `k` holds files of step `base + k`. */
  predicate Staged(segs: seq<seq<File>>, base: nat) {
    forall k :: 0 <= k < |segs| ==> StepSegment(segs[k], base + k)
  }

  /** The segments of a staged list after its first. */
  lemma StagedRest(segs: seq<seq<File>>, base: nat)
    requires Staged(segs, base) && |segs| > 0
    ensures Staged(segs[1..], base + 1)
  {
    var rest := segs[1..];
    forall k | 0 <= k < |rest|
      ensures StepSegment(rest[k], base + 1 + k)
    {
      assert rest[k] == segs[k + 1];
    }
  }

  /** Staged segments laid end to end make a list without repeats, in step
      order, of files from step `base` on. */
  lemma {:induction false} ConcatStagedOrdered(segs: seq<seq<File>>, base: nat)
    requires Staged(segs, base)
    ensures Unique(Concat(segs)) && InStageOrder(Concat(segs))
    ensures forall i :: 0 <= i < |Concat(segs)| ==> base <= Stage(Concat(segs)[i])
    decreases |segs|
  {
    if |segs| > 0 {
      StagedRest(segs, base);
      ConcatStagedOrdered(segs[1..], base + 1);
      assert StepSegment(segs[0], base);
      var a, b := segs[0], Concat(segs[1..]);
      assert Concat(segs) == a + b;
      forall i | 0 <= i < |a + b|
        ensures base <= Stage((a + b)[i])
      {
        if i >= |a| {
          assert (a + b)[i] == b[i - |a|];
        }
      }
      forall i, j | 0 <= i < j < |a + b|
        ensures (a + b)[i] != (a + b)[j] && Stage((a + b)[i]) <= Stage((a + b)[j])
      {
        if j >= |a| {
          assert (a + b)[j] == b[j - |a|];
          if i >= |a| {
            assert (a + b)[i] == b[i - |a|];
          }
        }
      }
    }
  }

  /** In staged segments laid end to end, a file occurs iff it occurs in
      the segment of its own step. */
  lemma {:induction false} ConcatStagedAt(segs: seq<seq<File>>, base: nat, f: File)
    requires Staged(segs, base)
    ensures f in Concat(segs) <==> base <= Stage(f) < base + |segs| && f in segs[Stage(f) - base]
    decreases |segs|
  {
    if |segs| > 0 {
      StagedRest(segs, base);
      ConcatStagedAt(segs[1..], base + 1, f);
      assert StepSegment(segs[0], base);
      assert Concat(segs) == segs[0] + Concat(segs[1..]);
      if base < Stage(f) < base + |segs| {
        assert f !in segs[0];
        assert segs[1..][Stage(f) - (base + 1)] == segs[Stage(f) - base];
      }
    }
  }

  /** The step segments of a project. */
  lemma StepFilesStaged(o: ProjectOptions)
    ensures Staged(StepFiles(o), 0)
  {
    ManifestSegment(o.language);
    EntrySegment(o.language);
    ConfigSegment(o.language, o.framework);
    LinterSegment(o.language, o.linters);
    HookSegment(o.language);
    var segs := StepFiles(o);
    forall k | 0 <= k < |segs|
      ensures StepSegment(segs[k], k)
    {
    }
  }

  lemma ManifestSegment(language: string)
    ensures StepSegment(ManifestFileList(language), 3)
  {
    if IsJsTs(language) {
    } else if language == "python" {
      assert ManifestFileList(language) == [RequirementsFile, PyProjectFile];
    }
  }

  lemma EntrySegment(language: string)
    ensures StepSegment(match EntryFile(language) case Some(f) => [f] case None => [], 4)
  {
  }

  lemma ConfigSegment(language: string, framework: string)
    ensures StepSegment(ConfigFileList(language, framework), 5)
  {
    var t := if language == "typescript" then [TsConfigFile] else [];
    if framework == "next" {
      assert ConfigFileList(language, framework) == t + [NextConfigFile];
    } else if framework == "vite" || framework == "vue" {
      assert ConfigFileList(language, framework) == t + [ViteConfigFile];
    } else {
      assert ConfigFileList(language, framework) == t;
    }
  }

  lemma LinterSegment(language: string, linters: seq<string>)
    ensures StepSegment(if |linters| > 0 then LinterFileList(language, linters) else [], 6)
  {
  }

  lemma HookSegment(language: string)
    ensures StepSegment(HookFileList(language), 7)
  {
  }

  /** Every file has its own path: looking the path up gives the file
      back, so no two files share a path. */
  lemma FileAtPathOf(f: File)
    ensures FileAt(PathOf(f)) == Some(f)
  {
    match f
    case GitignoreFile =>
    case LicenseFile =>
    case ReadmeFile =>
    case PackageJsonFile =>
    case RequirementsFile =>
    case PyProjectFile =>
    case GoModFile =>
    case CargoTomlFile =>
    case IndexJs =>
    case IndexTs =>
    case MainPy =>
    case MainGo =>
    case MainRs =>
    case TsConfigFile =>
    case NextConfigFile =>
    case ViteConfigFile =>
    case EslintrcFile =>
    case PrettierrcFile =>
    case HuskyrcFile =>
    case PreCommitFile =>
  }

  /** The directory part of a path: the text before its first `/`, or
      empty for a file at the top of the project. */
  function TopDirectory(path: string): string {
    if '/' in path then path[..IndexOf(path, '/')] else ""
  }

  /** Every file the plan writes lies at the top of the project or in a
      directory the plan creates. */
  lemma FilesInDirectories(o: ProjectOptions)
    ensures forall f :: f in ProjectFiles(o) ==>
      TopDirectory(PathOf(f)) == "" || TopDirectory(PathOf(f)) in GenerateProject(o).directories
  {
    forall f | f in ProjectFiles(o)
      ensures TopDirectory(PathOf(f)) == "" || TopDirectory(PathOf(f)) in GenerateProject(o).directories
    {
      TopDirectoryOf(f);
    }
  }

  /** A path that starts with `src/` lies in `src`. */
  lemma InSource(path: string)
    requires |path| > 4 && path[..4] == "src/"
    ensures TopDirectory(path) == "src"
  {
    assert path[3] == '/' && path[..3] == "src";
    assert path[..IndexOf(path, '/')] == path[..3];
  }

  /** Only the entry files under `src` lie below the top of the project. */
  lemma TopDirectoryOf(f: File)
    ensures TopDirectory(PathOf(f)) == (if f in [IndexJs, IndexTs, MainPy, MainRs] then "src" else "")
  {
    if f in [IndexJs, IndexTs, MainPy, MainRs] {
      SourceFile(f);
      InSource(PathOf(f));
    } else {
      TopLevelFile(f);
    }
  }

  /** The four entries under `src` have paths starting `src/`. */
  lemma SourceFile(f: File)
    requires f in [IndexJs, IndexTs, MainPy, MainRs]
    ensures |PathOf(f)| > 4 && PathOf(f)[..4] == "src/"
  {
  }

  /** The paths of all files but the four entries under `src` hold no `/`. */
  lemma TopLevelFile(f: File)
    requires f !in [IndexJs, IndexTs, MainPy, MainRs]
    ensures '/' !in PathOf(f)
  {
    match f
    case GitignoreFile => NoSlash(PathOf(GitignoreFile));
    case LicenseFile => NoSlash(PathOf(LicenseFile));
    case ReadmeFile => NoSlash(PathOf(ReadmeFile));
    case PackageJsonFile => NoSlash(PathOf(PackageJsonFile));
    case RequirementsFile => NoSlash(PathOf(RequirementsFile));
    case PyProjectFile => NoSlash(PathOf(PyProjectFile));
    case GoModFile => NoSlash(PathOf(GoModFile));
    case CargoTomlFile => NoSlash(PathOf(CargoTomlFile));
    case MainGo => NoSlash(PathOf(MainGo));
    case TsConfigFile => NoSlash(PathOf(TsConfigFile));
    case NextConfigFile => NoSlash(PathOf(NextConfigFile));
    case ViteConfigFile => NoSlash(PathOf(ViteConfigFile));
    case EslintrcFile => NoSlash(PathOf(EslintrcFile));
    case PrettierrcFile => NoSlash(PathOf(PrettierrcFile));
    case HuskyrcFile => NoSlash(PathOf(HuskyrcFile));
    case PreCommitFile => NoSlash(PathOf(PreCommitFile));
    case _ =>
  }

  /** A text none of whose characters is a slash holds no slash. */
  lemma NoSlash(s: string)
    requires forall i :: 0 <= i < |s| ==> s[i] != '/'
    ensures '/' !in s
  {
  }

  /** Which languages each entry file serves. */
  lemma EntryFileFor(language: string)
    ensures EntryFile(language).Some? <==> language in ["javascript", "typescript", "python", "go", "rust"]
    ensures EntryFile(language) == Some(IndexJs) <==> language == "javascript"
    ensures EntryFile(language) == Some(IndexTs) <==> language == "typescript"
    ensures EntryFile(language) == Some(MainPy) <==> language == "python"
  {
  }

  /** Which languages and frameworks each configuration file serves. */
  lemma ConfigFileListMembers(language: string, framework: string)
    ensures TsConfigFile in ConfigFileList(language, framework) <==> language == "typescript"
    ensures NextConfigFile in ConfigFileList(language, framework) <==> framework == "next"
    ensures ViteConfigFile in ConfigFileList(language, framework) <==> framework == "vite" || framework == "vue"
  {
  }

  /** Which languages each hook file serves. */
  lemma HookFileListMembers(language: string)
    ensures HuskyrcFile in HookFileList(language) <==> IsJsTs(language)
    ensures PreCommitFile in HookFileList(language) <==> language == "python"
  {
  }

  /** No file is written twice, and the files are written step by step in
      the order `generateProject` runs its steps. */
  lemma ProjectFilesOrdered(o: ProjectOptions)
    ensures Unique(ProjectFiles(o)) && InStageOrder(ProjectFiles(o))
  {
    StepFilesStaged(o);
    ConcatStagedOrdered(StepFiles(o), 0);
  }

  /** Whether the plan writes a file is decided by that file's own step
      alone. */
  lemma ProjectFilesAt(o: ProjectOptions, f: File)
    ensures f in ProjectFiles(o) <==> f in StepFiles(o)[Stage(f)]
  {
    StepFilesStaged(o);
    ConcatStagedAt(StepFiles(o), 0, f);
  }

  /** `.gitignore` is written iff it was asked for, `LICENSE` iff a license
      other than `none` was chosen, and `README.md` always. */
  lemma CommonFilesWritten(o: ProjectOptions)
    ensures GitignoreFile in ProjectFiles(o) <==> o.gitignore
    ensures LicenseFile in ProjectFiles(o) <==> o.license != "none"
    ensures ReadmeFile in ProjectFiles(o)
  {
    ProjectFilesAt(o, GitignoreFile);
    ProjectFilesAt(o, LicenseFile);
    ProjectFilesAt(o, ReadmeFile);
  }

  /** Each manifest is written exactly for its language. */
  lemma ManifestsWritten(o: ProjectOptions)
    ensures PackageJsonFile in ProjectFiles(o) <==> IsJsTs(o.language)
    ensures RequirementsFile in ProjectFiles(o) <==> o.language == "python"
    ensures PyProjectFile in ProjectFiles(o) <==> o.language == "python"
    ensures GoModFile in ProjectFiles(o) <==> o.language == "go"
    ensures CargoTomlFile in ProjectFiles(o) <==> o.language == "rust"
  {
    ManifestFileWritten(o, PackageJsonFile);
    ManifestFileWritten(o, RequirementsFile);
    ManifestFileWritten(o, PyProjectFile);
    ManifestFileWritten(o, GoModFile);
    ManifestFileWritten(o, CargoTomlFile);
  }

  /** A manifest is written when the language's list has it. */
  lemma ManifestFileWritten(o: ProjectOptions, f: File)
    requires Stage(f) == 3
    ensures f in ProjectFiles(o) <==> f in ManifestFileList(o.language)
  {
    ProjectFilesAt(o, f);
    assert StepFiles(o)[3] == ManifestFileList(o.language);
  }

  /** The entry file is written iff the language has one, and it is the
      file for that language. */
  lemma EntryWritten(o: ProjectOptions)
    ensures EntryFile(o.language).Some? <==> o.language in ["javascript", "typescript", "python", "go", "rust"]
    ensures EntryFile(o.language).Some? ==> EntryFile(o.language).value in ProjectFiles(o)
    ensures IndexJs in ProjectFiles(o) <==> o.language == "javascript"
    ensures IndexTs in ProjectFiles(o) <==> o.language == "typescript"
    ensures MainPy in ProjectFiles(o) <==> o.language == "python"
  {
    if EntryFile(o.language).Some? {
      EntryFileWritten(o, EntryFile(o.language).value);
    }
    EntryFileWritten(o, IndexJs);
    EntryFileWritten(o, IndexTs);
    EntryFileWritten(o, MainPy);
    EntryFileFor(o.language);
  }

  /** An entry file is written when it is the language's entry file. */
  lemma EntryFileWritten(o: ProjectOptions, f: File)
    requires Stage(f) == 4
    ensures f in ProjectFiles(o) <==> EntryFile(o.language) == Some(f)
  {
    ProjectFilesAt(o, f);
    assert StepFiles(o)[4] == match EntryFile(o.language) case Some(g) => [g] case None => [];
  }

  /** `tsconfig.json` is written for TypeScript, `next.config.js` for next
      and `vite.config.js` for vite or vue, whatever the language. */
  lemma ConfigsWritten(o: ProjectOptions)
    ensures TsConfigFile in ProjectFiles(o) <==> o.language == "typescript"
    ensures NextConfigFile in ProjectFiles(o) <==> o.framework == "next"
    ensures ViteConfigFile in ProjectFiles(o) <==> o.framework == "vite" || o.framework == "vue"
  {
    ConfigFileWritten(o, TsConfigFile);
    ConfigFileWritten(o, NextConfigFile);
    ConfigFileWritten(o, ViteConfigFile);
    ConfigFileListMembers(o.language, o.framework);
  }

  /** A configuration file is written when the language and framework's
      list has it. */
  lemma ConfigFileWritten(o: ProjectOptions, f: File)
    requires Stage(f) == 5
    ensures f in ProjectFiles(o) <==> f in ConfigFileList(o.language, o.framework)
  {
    ProjectFilesAt(o, f);
    assert StepFiles(o)[5] == ConfigFileList(o.language, o.framework);
  }

  /** Linter configurations are written only for JavaScript and TypeScript,
      each iff its linter was chosen. */
  lemma LintersWritten(o: ProjectOptions)
    ensures EslintrcFile in ProjectFiles(o) <==> IsJsTs(o.language) && "eslint" in o.linters
    ensures PrettierrcFile in ProjectFiles(o) <==> IsJsTs(o.language) && "prettier" in o.linters
  {
    LinterFileWritten(o, EslintrcFile);
    LinterFileWritten(o, PrettierrcFile);
  }

  /** A linter configuration is written when linters were chosen and their
      list has it. */
  lemma LinterFileWritten(o: ProjectOptions, f: File)
    requires Stage(f) == 6
    ensures f in ProjectFiles(o) <==> |o.linters| > 0 && f in LinterFileList(o.language, o.linters)
  {
    ProjectFilesAt(o, f);
    assert StepFiles(o)[6] == if |o.linters| > 0 then LinterFileList(o.language, o.linters) else [];
  }

  /** Hook configurations are written only when hooks were asked for:
      husky for JavaScript and TypeScript, pre-commit for Python. */
  lemma HooksWritten(o: ProjectOptions)
    ensures HuskyrcFile in ProjectFiles(o) <==> o.gitHooks && IsJsTs(o.language)
    ensures PreCommitFile in ProjectFiles(o) <==> o.gitHooks && o.language == "python"
  {
    HookFileWritten(o, HuskyrcFile);
    HookFileWritten(o, PreCommitFile);
    HookFileListMembers(o.language);
  }

  /** A hook file is written when hooks were asked for and the language's
      list has it. */
  lemma HookFileWritten(o: ProjectOptions, f: File)
    requires Stage(f) == 7
    ensures f in ProjectFiles(o) <==> o.gitHooks && f in HookFileList(o.language)
  {
    ProjectFilesAt(o, f);
    assert StepFiles(o)[7] == if o.gitHooks then HookFileList(o.language) else [];
  }

  // ---------------------------------------------------------------------
  // What the files say

  /** A language the ignore table does not list gets JavaScript's patterns;
      a listed one gets its own. */
  lemma GitignoreFallback(language: string)
    ensures GitignoreTemplate(language).None? ==> GitignoreLines(language) == GitignoreLines("javascript")
    ensures GitignoreTemplate(language).Some? ==> GitignoreLines(language) == GitignoreTemplate(language).value
    ensures GitignoreLines(language) != []
  {
    GitignoreKeysAreLanguages();
  }

  /** The first two lines of a text joined from lines without line breaks
      are those lines. */
  lemma FirstTwoLines(lines: seq<string>)
    requires |lines| >= 2 && '\n' !in lines[0] && '\n' !in lines[1]
    ensures |Split(Join(lines, "\n"), '\n')| >= 2
    ensures Split(Join(lines, "\n"), '\n')[..2] == lines[..2]
  {
    var rest := Join(lines[1..], "\n");
    assert Join(lines, "\n") == lines[0] + ['\n'] + rest;
    SplitAfter(lines[0], '\n', rest);
    if |lines| == 2 {
      SplitNone(lines[1], '\n');
    } else {
      assert lines[1..][1..] == lines[2..];
      assert rest == lines[1] + ['\n'] + Join(lines[2..], "\n");
      SplitAfter(lines[1], '\n', Join(lines[2..], "\n"));
    }
  }

  /** `requirements.txt` lists one pinned package per line, and is empty
      unless the framework is flask, django or fastapi. */
  lemma RequirementsRoundTrip(framework: string)
    ensures Requirements(framework) != [] <==> framework in ["flask", "django", "fastapi"]
    ensures Requirements(framework) != [] ==> Split(RequirementsText(framework), '\n') == Requirements(framework)
    ensures Requirements(framework) == [] ==> RequirementsText(framework) == ""
  {
    var r := Requirements(framework);
    if r != [] {
      assert forall k :: 0 <= k < |r| ==> '\n' !in r[k];
      SplitJoin(r, '\n');
    }
  }

  /** `go.mod` declares the module under the project's name and Go 1.21,
      and ends with a line break. */
  lemma GoModLines(name: string)
    requires '\n' !in name
    ensures Split(GoModText(name), '\n') == ["module " + name, "", "go 1.21", ""]
  {
    assert GoModText(name) == ("module " + name) + ['\n'] + ("" + ['\n'] + ("go 1.21" + ['\n'] + ""));
    SplitNone("", '\n');
    SplitAfter("go 1.21", '\n', "");
    SplitAfter("", '\n', "go 1.21" + ['\n'] + "");
    SplitAfter("module " + name, '\n', "" + ['\n'] + ("go 1.21" + ['\n'] + ""));
  }

  /** `pyproject.toml` opens the poetry table and names the project on its
      second line. */
  lemma PyProjectNamesProject(name: string, framework: string)
    requires '\n' !in name && '"' !in name
    ensures |Split(PyProjectText(name, framework), '\n')| >= 2
    ensures Split(PyProjectText(name, framework), '\n')[..2] == ["[tool.poetry]", "name = \"" + name + "\""]
  {
    FirstTwoLines(PyProjectLines(name, framework));
  }

  /** `Cargo.toml` opens the package table and names the crate on its
      second line. */
  lemma CargoTomlNamesCrate(name: string, framework: string)
    requires '\n' !in name && '"' !in name
    ensures |Split(CargoTomlText(name, framework), '\n')| >= 2
    ensures Split(CargoTomlText(name, framework), '\n')[..2] == ["[package]", "name = \"" + name + "\""]
  {
    FirstTwoLines(CargoTomlLines(name, framework));
  }

  /** The two Python manifests agree: `pyproject.toml` has a dependency line
      for the framework exactly when `requirements.txt` pins one. */
  lemma PythonManifestsAgree(name: string, framework: string)
    ensures PyProjectLines(name, framework)[8..11] != ["", "", ""] <==> Requirements(framework) != []
  {
    assert PyProjectLines(name, framework)[8..11] ==
      [if framework == "flask" then "Flask = \"^2.3.0\"" else "",
       if framework == "django" then "Django = \"^4.2.0\"" else "",
       if framework == "fastapi" then "fastapi = \"^0.100.0\"\nuvicorn = \"^0.23.0\"" else ""];
  }

  /** The recommended ESLint rule sets: eslint's own first, then the
      TypeScript plugin's only for TypeScript. */
  lemma EslintExtendsByLanguage(language: string)
    ensures |EslintExtends(language)| >= 1 && EslintExtends(language)[0] == "eslint:recommended"
    ensures "plugin:@typescript-eslint/recommended" in EslintExtends(language) <==> language == "typescript"
  {
  }

  /** The parser the TypeScript ESLint configuration names (see
      `EslintConfig`) is a development dependency of the manifest
      written beside it, and so is the plugin. */
  lemma EslintPackagesInstalled(name: string, framework: string, linters: seq<string>)
    requires "eslint" in linters
    ensures var m := PackageJson.GeneratePackageJson(name, framework, "typescript", linters);
      && m.devDependencies.Some?
      && "@typescript-eslint/parser" in m.devDependencies.value
      && "@typescript-eslint/eslint-plugin" in m.devDependencies.value
  {
    PackageJson.GeneratedEslintPackages(name, framework, "typescript", linters);
  }

  /** For TypeScript the compiler reads `./src`, the directory the entry is
      written to, and emits to `./dist`, where the manifest's `main`
      points. */
  lemma TypeScriptLayoutAgrees(name: string, framework: string, linters: seq<string>)
    ensures EntryFile("typescript") == Some(IndexTs)
    ensures var co := TsConfigValue.fields["compilerOptions"].fields;
      && TopDirectory(PathOf(IndexTs)) == "src" && co["rootDir"] == Json.Str("./src")
      && co["outDir"] == Json.Str("./dist")
      && PackageJson.GeneratePackageJson(name, framework, "typescript", linters).main == Some("dist/index.js")
  {
    TopDirectoryOf(IndexTs);
    TsConfigDirectories();
    PackageJson.GeneratedMain(name, framework, "typescript", linters);
  }

  /** The source and output directories `tsconfig.json` names. */
  lemma TsConfigDirectories()
    ensures var co := TsConfigValue.fields["compilerOptions"].fields;
      && co["rootDir"] == Json.Str("./src")
      && co["outDir"] == Json.Str("./dist")
  {
  }

  /** The scripts the husky hooks call (see `HuskyCommands`): the manifest
      has a `lint` script only with eslint or next, and its `test` script is
      the placeholder, which exits with status 1. */
  lemma HuskyHooksAgainstScripts(name: string, framework: string, language: string, linters: seq<string>)
    ensures var scripts := PackageJson.GeneratePackageJson(name, framework, language, linters).scripts;
      && ("lint" in scripts <==> "eslint" in linters || framework == "next")
      && "test" in scripts && scripts["test"] == PackageJson.TestPlaceholder
    ensures EndsWith(PackageJson.TestPlaceholder, "exit 1")
  {
    PlaceholderFails();
    PackageJson.GeneratedScripts(name, framework, language, linters);
  }

  /** The commands the two husky hooks run. */
  lemma HuskyCommands()
    ensures HuskyConfigValue.fields["hooks"].fields["pre-commit"] == Json.Str("npm run lint")
    ensures HuskyConfigValue.fields["hooks"].fields["pre-push"] == Json.Str("npm test")
  {
  }

  /** The placeholder test script ends by exiting with status 1. */
  lemma PlaceholderFails()
    ensures EndsWith(PackageJson.TestPlaceholder, "exit 1")
  {
    var t := PackageJson.TestPlaceholder;
    assert t[|t| - 6..] == "exit 1";
  }

  /** The README's structure listing names the manifest by the name the
      plan writes it under, for every language that gets one. */
  lemma ReadmeConfigFileWritten(o: ProjectOptions)
    ensures var f := FileAt(Readme.ConfigFile(o.language, o.packageManager));
      f.Some? && f.value in ProjectFiles(o) <==> o.language in ["javascript", "typescript", "python", "go", "rust"]
  {
    ManifestsWritten(o);
  }

  /** The README's structure listing names `src/index.<ext>` as the entry
      point; the plan writes that file only for JavaScript and TypeScript
      (Python's entry is `src/main.py`, Go's `main.go`, Rust's
      `src/main.rs`). */
  lemma ReadmeEntryListed(o: ProjectOptions)
    ensures var f := FileAt("src/index." + Readme.FileExtension(o.language));
      f.Some? && f.value in ProjectFiles(o) <==> IsJsTs(o.language)
  {
    EntryWritten(o);
    ReadmeEntryPath(o.language);
  }

  /** The file, if any, at the entry path the README names. */
  lemma ReadmeEntryPath(language: string)
    ensures FileAt("src/index." + Readme.FileExtension(language)) ==
      if language == "javascript" then Some(IndexJs)
      else if language == "typescript" then Some(IndexTs)
      else None
  {
    match language
    case "javascript" => assert "src/index." + "js" == "src/index.js";
    case "typescript" => assert "src/index." + "ts" == "src/index.ts";
    case "python" => assert "src/index." + "py" == "src/index.py";
    case "go" => assert "src/index." + "go" == "src/index.go";
    case "rust" => assert "src/index." + "rs" == "src/index.rs";
    case "ruby" => assert "src/index." + "rb" == "src/index.rb";
    case "php" => assert "src/index." + "php" == "src/index.php";
    case "csharp" => assert "src/index." + "cs" == "src/index.cs";
    case _ => assert "src/index." + "txt" == "src/index.txt";
  }
}

=== FILE: init.dfy ===
/** The `init` command: it scaffolds into the current directory, named after
    the directory. A default profile with any property at all switches the
    whole wizard off; the flags still name language, framework and
    license. */
module Init {

  import opened Wrappers
  import opened Text
  import opened Options
  import opened Prompts

  /** The flags `init` registers. */
  datatype InitFlags = InitFlags(language: Option<string>, framework: Option<string>, license: Option<string>)

  /** A directory counts as empty when it has no entry, or only `.git`. */
  function IsEmptyDir(files: seq<string>): (r: bool)
    ensures r <==> |files| <= 1 && forall i :: 0 <= i < |files| ==> files[i] == ".git"
  {
    |files| == 0 || (|files| == 1 && files[0] == ".git")
  }

  /** For a listing without repeated names, "empty" means every entry is
      `.git`. */
  lemma EmptyDirOnlyGit(files: seq<string>)
    requires forall i, j :: 0 <= i < j < |files| ==> files[i] != files[j]
    ensures IsEmptyDir(files) <==> forall i :: 0 <= i < |files| ==> files[i] == ".git"
  {
    if |files| >= 2 {
      assert files[0] != files[1];
    }
  }

  /** `init` goes on in an empty directory, and elsewhere only once the
      user confirms. */
  function InitProceeds(files: seq<string>, confirmed: bool): (r: bool)
    ensures confirmed || |files| == 0 || files == [".git"] ==> r
    ensures r && !confirmed ==> forall i :: 0 <= i < |files| ==> files[i] == ".git"
    ensures (exists i :: 0 <= i < |files| && files[i] != ".git") ==> (r <==> confirmed)
  {
    IsEmptyDir(files) || confirmed
  }

  // ---------------------------------------------------------------------
  // The questions

  /** The wizard's answers, given whether each of the first three list
      questions is asked. The name is never asked; the rest are asked only
      without an active profile. */
  function Questions(flags: InitFlags, profile: Profile, files: seq<string>, replies: Replies,
                     askLanguage: bool, askFramework: bool, askLicense: bool): (r: Answers)
    ensures r.name.None? && r.openInVSCode.None?
    ensures (r.language.Some? <==> askLanguage) && (r.framework.Some? <==> askFramework) && (r.license.Some? <==> askLicense)
    ensures r.language.Some? ==> r.language.value == replies.language
    ensures ProfileActive(profile) ==>
      r.packageManager.None? && r.readme.None? && r.gitHooks.None? && r.git.None? && r.remoteRepo.None? && r.installDeps.None?
    ensures !ProfileActive(profile) ==> r.readme == Some(replies.readme) && r.installDeps == Some(replies.installDeps)
    ensures r.git.Some? <==> ".git" !in files && !ProfileActive(profile)
    ensures r.remoteRepo.Some? ==> r.git == Some(true)
  {
    var active := ProfileActive(profile);
    var lang := OrStr(flags.language, Ask(askLanguage, replies.language));
    var gitAsked := ".git" !in files && !active;
    Answer(Asked(
      false, askLanguage, askFramework, askLicense,
      NodeLanguage(lang) && !active,
      !active,
      HookLanguage(lang) && !active,
      gitAsked,
      gitAsked && replies.git && !active,
      !active,
      false), replies)
  }

  /** The questions as written: an active profile skips language, framework
      and license too, whether or not it has them. */
  function InitAnswersAsWritten(flags: InitFlags, profile: Profile, files: seq<string>, replies: Replies): Answers {
    Questions(flags, profile, files, replies,
      !TruthyStr(flags.language) && !ProfileActive(profile),
      !TruthyStr(flags.framework) && !ProfileActive(profile),
      !TruthyStr(flags.license) && !ProfileActive(profile))
  }

  /** The questions with language, framework and license asked whenever
      neither the flag nor the profile supplies a value the merge keeps. */
  function InitAnswers(flags: InitFlags, profile: Profile, files: seq<string>, replies: Replies): Answers {
    Questions(flags, profile, files, replies,
      !TruthyStr(flags.language) && !TruthyStr(profile.language),
      !TruthyStr(flags.framework) && !TruthyStr(profile.framework),
      !TruthyStr(flags.license) && !TruthyStr(profile.license))
  }

  /** An active profile silences every question but, once corrected, the
      three the profile and flags leave open; the git question is never
      asked in a directory that already has a repository. */
  lemma InitActiveProfileSilences(flags: InitFlags, profile: Profile, files: seq<string>, replies: Replies)
    ensures var a := InitAnswers(flags, profile, files, replies);
      a.name.None? && a.openInVSCode.None?
      && (ProfileActive(profile) ==> a.packageManager.None? && a.readme.None? && a.gitHooks.None?
                                     && a.git.None? && a.remoteRepo.None? && a.installDeps.None?)
      && (".git" in files ==> a.git.None? && a.remoteRepo.None?)
    ensures var a := InitAnswersAsWritten(flags, profile, files, replies);
      ProfileActive(profile) ==> a.language.None? && a.framework.None? && a.license.None?
  {
  }

  // ---------------------------------------------------------------------
  // The merge

  /** Flags, profile and answers merged as the command writes it. */
  function InitMerge(dirName: string, flags: InitFlags, profile: Profile, a: Answers): (m: Merged)
    ensures m.name == Some(dirName)
    ensures m.git.Some? && m.installDeps.Some?
  {
    Merged(
      Some(dirName),
      OrStr(OrStr(flags.language, profile.language), a.language),
      OrStr(OrStr(flags.framework, profile.framework), a.framework),
      OrStr(OrStr(flags.license, profile.license), a.license),
      OrDefault(OrStr(profile.packageManager, a.packageManager), "npm"),
      OrDefault(OrStr(profile.readme, a.readme), "standard"),
      true,
      [],
      if profile.gitHooks.Some? then profile.gitHooks.value else OrFalse(a.gitHooks),
      Some(if profile.git.Some? then profile.git.value else OrFalse(a.git)),
      OrFalse(profile.remoteRepo) || OrFalse(a.remoteRepo),
      false,
      Some(if profile.installDeps.Some? then profile.installDeps.value else OrFalse(a.installDeps)))
  }

  /** The directory name, the empty linter list, the closed editor and the
      `.gitignore` do not depend on the profile or the answers. */
  lemma InitFixedOptions(dirName: string, flags: InitFlags, p1: Profile, p2: Profile, a1: Answers, a2: Answers)
    ensures var m1, m2 := InitMerge(dirName, flags, p1, a1), InitMerge(dirName, flags, p2, a2);
      m1.name == m2.name && m1.linters == m2.linters == [] && m1.openInVSCode == m2.openInVSCode == false
      && m1.gitignore == m2.gitignore == true
  {
  }

  /** As written, the language stays undefined exactly when no flag names
      one and an active profile has no truthy language: the profile stops
      the question without supplying a value. */
  lemma InitLanguageUndefined(dirName: string, flags: InitFlags, profile: Profile, files: seq<string>, replies: Replies)
    requires replies.language != ""
    ensures var m := InitMerge(dirName, flags, profile, InitAnswersAsWritten(flags, profile, files, replies));
      m.language.None? <==> !TruthyStr(flags.language) && ProfileActive(profile) && !TruthyStr(profile.language)
  {
  }

  /** The same holds for the framework and the license. */
  lemma InitFrameworkLicenseUndefined(dirName: string, flags: InitFlags, profile: Profile, files: seq<string>, replies: Replies)
    requires replies.framework != "" && replies.license != ""
    ensures var m := InitMerge(dirName, flags, profile, InitAnswersAsWritten(flags, profile, files, replies));
      (m.framework.None? <==> !TruthyStr(flags.framework) && ProfileActive(profile) && !TruthyStr(profile.framework))
      && (m.license.None? <==> !TruthyStr(flags.license) && ProfileActive(profile) && !TruthyStr(profile.license))
  {
  }

  /** A concrete case: a default profile that only turns git on gives the
      generator no language, framework or license. */
  lemma InitGitOnlyProfileExample(dirName: string, files: seq<string>, replies: Replies)
    ensures var profile := EmptyProfile.(git := Some(true));
      var flags := InitFlags(None, None, None);
      var m := InitMerge(dirName, flags, profile, InitAnswersAsWritten(flags, profile, files, replies));
      m.language.None? && m.framework.None? && m.license.None? && Complete(m).None?
  {
    var profile := EmptyProfile.(git := Some(true));
    assert ProfileActive(profile);
  }

  /** The merged options with the corrected questions: always complete. */
  function InitOptions(dirName: string, flags: InitFlags, profile: Profile, files: seq<string>, replies: Replies): (o: ProjectOptions)
    ensures Complete(InitMerge(dirName, flags, profile, InitAnswers(flags, profile, files, replies))) == Some(o)
  {
    Complete(InitMerge(dirName, flags, profile, InitAnswers(flags, profile, files, replies))).value
  }

  /** Language, framework and license follow flag, then profile, then
      reply; git follows the profile, and without one the reply, except that
      a directory that already holds a repository is never re-initialised
      unless the profile says so. */
  lemma InitPrecedence(dirName: string, flags: InitFlags, profile: Profile, files: seq<string>, replies: Replies)
    ensures var o := InitOptions(dirName, flags, profile, files, replies);
      o.name == dirName
      && o.language == (if TruthyStr(flags.language) then flags.language.value
                        else if TruthyStr(profile.language) then profile.language.value else replies.language)
      && o.framework == (if TruthyStr(flags.framework) then flags.framework.value
                         else if TruthyStr(profile.framework) then profile.framework.value else replies.framework)
      && o.license == (if TruthyStr(flags.license) then flags.license.value
                       else if TruthyStr(profile.license) then profile.license.value else replies.license)
      && o.git == (if profile.git.Some? then profile.git.value
                   else !ProfileActive(profile) && ".git" !in files && replies.git)
  {
  }

  /** Without an active profile, or with one that names all three, the
      corrected questions and the written ones give the same options. */
  lemma InitCorrectionAgrees(dirName: string, flags: InitFlags, profile: Profile, files: seq<string>, replies: Replies)
    requires !ProfileActive(profile)
             || (TruthyStr(profile.language) && TruthyStr(profile.framework) && TruthyStr(profile.license))
    ensures Complete(InitMerge(dirName, flags, profile, InitAnswersAsWritten(flags, profile, files, replies)))
            == Some(InitOptions(dirName, flags, profile, files, replies))
  {
  }

  // ---------------------------------------------------------------------
  // After the files are written

  /** Where a step comes in `init`'s sequence: the remote before the
      install. */
  function Rank(s: Step): nat {
    match s
    case InitGit => 0
    case CreateRemote(_) => 1
    case Install(_) => 2
    case OpenEditor => 3
  }

  /** The steps `init` runs after the generator, in order; the repository
      is named after the directory. */
  function InitSteps(dirName: string, o: ProjectOptions): (r: seq<Step>)
    ensures OrderedBy(Rank, r)
  {
    Then(Rank, o.git, InitGit,
      Then(Rank, o.git && o.remoteRepo, CreateRemote(SafeName(dirName)),
        Then(Rank, o.installDeps && IsJsTs(o.language), Install(PmInstall(o.packageManager)), [])))
  }

  /** The remote repository is only created on top of the repository `init`
      just initialised, and the editor is never opened. */
  lemma InitStepsRun(dirName: string, o: ProjectOptions)
    ensures InitGit in InitSteps(dirName, o) <==> o.git
    ensures CreateRemote(SafeName(dirName)) in InitSteps(dirName, o) <==> o.git && o.remoteRepo
    ensures forall x :: x in InitSteps(dirName, o) && x.CreateRemote? ==> InitGit in InitSteps(dirName, o)
    ensures Install(PmInstall(o.packageManager)) in InitSteps(dirName, o) <==> o.installDeps && IsJsTs(o.language)
    ensures OpenEditor !in InitSteps(dirName, o)
  {
  }

  // ---------------------------------------------------------------------
  // The closing hint

  /** The "get started" line `init` prints, as written: the same command as
      `create`'s, so Python is told to run `main.py`. There is no `cd` line,
      because the project is the current directory. */
  function NextSteps(o: ProjectOptions): (r: seq<string>)
    ensures |r| <= 1
    ensures |r| == 1 <==> o.language in ["javascript", "typescript", "python", "go", "rust"]
    ensures |r| == 1 ==> r[0] == RunHintAsWritten(o.language, o.packageManager).value
    ensures o.language == "python" ==> r == ["python main.py"]
    ensures o.language == "go" ==> r == ["go run main.go"]
    ensures o.language == "rust" ==> r == ["cargo run"]
    ensures IsJsTs(o.language) && o.packageManager == "npm" ==> r == ["npm run dev"]
    ensures IsJsTs(o.language) && o.packageManager != "npm" ==> r == [o.packageManager + " dev"]
  {
    assert "npm" + " " + "run " + "dev" == "npm run dev";
    assert o.packageManager + " " + "" + "dev" == o.packageManager + " dev";
    match RunHintAsWritten(o.language, o.packageManager) case Some(h) => [h] case None => []
  }
}

=== FILE: json.dfy ===
/** JSON documents as the generator and the fork command build them before
    `JSON.stringify` writes them out. Key order and layout are not part of
    the value; a property whose value is `undefined` is simply absent, as
    `JSON.stringify` drops it. */
module Json {

  import opened Wrappers
  import Text

  datatype Value =
    | Null
    | Bool(b: bool)
    | Number(n: int)
    | Str(s: string)
    | Array(items: seq<Value>)
    | Object(fields: map<string, Value>)

  /** JavaScript truthiness of a parsed JSON value: `null`, `false`, `0` and
      the empty string are falsy; arrays and objects, even empty, are
      truthy. */
  predicate Truthy(v: Value) {
    match v
    case Null => false
    case Bool(b) => b
    case Number(n) => n != 0
    case Str(s) => s != ""
    case Array(_) => true
    case Object(_) => true
  }

  /** JavaScript's string conversion of a parsed JSON value, as template
      interpolation (`${v}`) performs it: arrays join their items with
      commas, `null` items giving nothing, and every object reads
      `[object Object]`. Numbers are the model's integers. */
  function ToText(v: Value): (r: string)
    ensures v.Str? ==> r == v.s
    ensures v.Number? && v.n >= 0 ==> r == Text.NatToString(v.n)
    ensures v.Number? && v.n < 0 ==> r == "-" + Text.NatToString(-v.n)
    ensures v.Bool? ==> (r == "true" <==> v.b) && (r == "false" <==> !v.b)
    ensures Truthy(v) && !v.Array? ==> r != ""
    decreases v
  {
    match v
    case Null => "null"
    case Bool(b) => if b then "true" else "false"
    case Number(n) => if n < 0 then "-" + Text.NatToString(-n) else Text.NatToString(n)
    case Str(s) => s
    case Array(items) =>
      Text.Join(seq(|items|, i requires 0 <= i < |items| => if items[i].Null? then "" else ToText(items[i])), ",")
    case Object(_) => "[object Object]"
  }

  /** A list of strings as a JSON array of strings, in order. */
  function Strings(xs: seq<string>): (r: seq<Value>)
    ensures |r| == |xs|
    ensures forall i :: 0 <= i < |xs| ==> r[i] == Str(xs[i])
    decreases |xs|
  {
    if |xs| == 0 then [] else [Str(xs[0])] + Strings(xs[1..])
  }
}

=== FILE: options.dfy ===
/** The option record every generator step reads, the partial record a saved
    profile holds, and the small decisions the commands share. */
module Options {

  import opened Wrappers
  import opened Text
  import opened Catalog

  /** The fully resolved options of one project. */
  datatype ProjectOptions = ProjectOptions(
    name: string,
    language: string,
    framework: string,
    license: string,
    packageManager: string,
    readme: string,
    gitignore: bool,
    linters: seq<string>,
    gitHooks: bool,
    git: bool,
    remoteRepo: bool,
    openInVSCode: bool,
    installDeps: bool)

  /** A saved profile: any subset of the project options. `None` is a
      property the profile does not have. */
  datatype Profile = Profile(
    name: Option<string>,
    language: Option<string>,
    framework: Option<string>,
    license: Option<string>,
    packageManager: Option<string>,
    readme: Option<string>,
    gitignore: Option<bool>,
    linters: Option<seq<string>>,
    gitHooks: Option<bool>,
    git: Option<bool>,
    remoteRepo: Option<bool>,
    openInVSCode: Option<bool>,
    installDeps: Option<bool>)

  const EmptyProfile: Profile :=
    Profile(None, None, None, None, None, None, None, None, None, None, None, None, None)

  /** The number of properties a profile has (`Object.keys(p).length`). */
  function FieldCount(p: Profile): nat {
    (if p.name.Some? then 1 else 0) + (if p.language.Some? then 1 else 0)
    + (if p.framework.Some? then 1 else 0) + (if p.license.Some? then 1 else 0)
    + (if p.packageManager.Some? then 1 else 0) + (if p.readme.Some? then 1 else 0)
    + (if p.gitignore.Some? then 1 else 0) + (if p.linters.Some? then 1 else 0)
    + (if p.gitHooks.Some? then 1 else 0) + (if p.git.Some? then 1 else 0)
    + (if p.remoteRepo.Some? then 1 else 0) + (if p.openInVSCode.Some? then 1 else 0)
    + (if p.installDeps.Some? then 1 else 0)
  }

  /** A profile counts as active once it has at least one property. */
  predicate ProfileActive(p: Profile) {
    FieldCount(p) > 0
  }

  lemma ProfileActiveIff(p: Profile)
    ensures ProfileActive(p) <==> p != EmptyProfile
  {
  }

  /** The languages the Node tool chain serves. */
  predicate IsJsTs(language: string) {
    language == "javascript" || language == "typescript"
  }

  /** The install command for a JavaScript package manager; any other value
      falls back to `npm install`. */
  function PmInstall(packageManager: string): (r: string)
    ensures packageManager != "yarn" && packageManager != "pnpm" ==> r == "npm install"
    ensures StartsWith(r, if packageManager in ["yarn", "pnpm"] then packageManager else "npm")
  {
    match packageManager
    case "npm" => "npm install"
    case "yarn" => "yarn"
    case "pnpm" => "pnpm install"
    case _ => "npm install"
  }

  /** A name made of letters, digits, `_` and `-` only, and at least one of
      them (the `^[a-zA-Z0-9-_]+$` test). */
  predicate ValidName(s: string) {
    |s| > 0 && forall i :: 0 <= i < |s| ==> IsWordChar(s[i]) || s[i] == '-'
  }

  /** The package managers the catalog lists for JavaScript are exactly the
      three `PmInstall` knows, and each one's command starts with its id. */
  lemma PmInstallCoversCatalog()
    ensures forall i :: 0 <= i < |PackageManagers| && "javascript" in PackageManagers[i].languages ==>
      PackageManagers[i].id in ["npm", "yarn", "pnpm"] && StartsWith(PmInstall(PackageManagers[i].id), PackageManagers[i].id)
    ensures forall i :: 0 <= i < |PackageManagers| && "javascript" !in PackageManagers[i].languages ==>
      PmInstall(PackageManagers[i].id) == "npm install"
  {
    PackageManagerIdsAre();
    forall i | 0 <= i < |PackageManagers| && "javascript" in PackageManagers[i].languages
      ensures PackageManagers[i].id in ["npm", "yarn", "pnpm"]
    {
      assert PackageManagers[i].id == PackageManagerIds()[i];
    }
  }
}

=== FILE: package_json.dfy ===
/** The `package.json` synthesizer: a record of fixed fields plus a
    `scripts` map and two dependency maps, built in layers (language
    baseline, framework rule, TypeScript typings, linters, test script).
    Each later layer overwrites the keys it writes, which is Dafny's map
    union `m + n` (the right operand wins). */
module PackageJson {

  import opened Wrappers
  import opened Text

  type Deps = map<string, string>

  /** The emitted manifest. `main`, `dependencies`, `devDependencies` and
      `type` (here `moduleType`) are the optional members of the record. */
  datatype Manifest = Manifest(
    name: string,
    version: string,
    description: string,
    main: Option<string>,
    scripts: map<string, string>,
    keywords: seq<string>,
    author: string,
    license: string,
    dependencies: Option<Deps>,
    devDependencies: Option<Deps>,
    moduleType: Option<string>)

  /** A sequence of property assignments `obj[key] = value`, in order. */
  type Writes = seq<(string, string)>

  /** What a layer assigns: runtime dependencies, development dependencies
      and scripts. */
  datatype Rule = Rule(deps: Writes, devDeps: Writes, scripts: Writes)

  /** The manifest state the layers thread through: `main` never changes
      after the baseline. */
  datatype Layers = Layers(main: string, scripts: map<string, string>, deps: Deps, devDeps: Deps)

  const TestPlaceholder: string := "echo \"Error: no test specified\" && exit 1"

  /** The frameworks that have a case in the framework switch. */
  const FrameworkCases: seq<string> := [
    "express", "nestjs", "react", "next", "vue", "nuxt", "svelte",
    "sveltekit", "angular", "fastify", "koa", "remix", "astro", "vite"
  ]

  /** The frameworks whose rule adds at least one runtime dependency. */
  const RuntimeDepFrameworks: seq<string> := [
    "express", "nestjs", "react", "next", "vue", "angular", "fastify",
    "koa", "remix", "astro"
  ]

  /** The frameworks that make the package an ES module. */
  const EsmFrameworks: seq<string> := ["vue", "svelte", "vite"]

  // ---------------------------------------------------------------------
  // Name sanitisation

  /** The characters a sanitised name may contain: `[a-z0-9-]`. */
  predicate IsNameChar(c: char) {
    IsAsciiLower(c) || IsDigit(c) || c == '-'
  }

  /** `name.toLowerCase().replace(/[^a-z0-9-]/g, '-')`, with ASCII case
      mapping. */
  function SanitizeName(name: string): (r: string)
    ensures |r| == |name|
    ensures forall i :: 0 <= i < |r| ==> IsNameChar(r[i])
    ensures forall i :: 0 <= i < |r| ==> (IsNameChar(LowerChar(name[i])) <==> r[i] == LowerChar(name[i]))
  {
    seq(|name|, i requires 0 <= i < |name| =>
      if IsNameChar(LowerChar(name[i])) then LowerChar(name[i]) else '-')
  }

  /** A name is left as it is exactly when it is already in `[a-z0-9-]*`. */
  lemma SanitizeNameFixed(name: string)
    ensures SanitizeName(name) == name <==> forall i :: 0 <= i < |name| ==> IsNameChar(name[i])
  {
    if forall i :: 0 <= i < |name| ==> IsNameChar(name[i]) {
      forall i | 0 <= i < |name|
        ensures SanitizeName(name)[i] == name[i]
      {
        assert LowerChar(name[i]) == name[i];
      }
    }
  }

  /** Sanitising twice is the same as sanitising once. */
  lemma SanitizeNameIdempotent(name: string)
    ensures SanitizeName(SanitizeName(name)) == SanitizeName(name)
  {
    SanitizeNameFixed(SanitizeName(name));
  }

  /** An ASCII letter or digit survives sanitisation as its lower-case
      form; every other character, ASCII or not, becomes `-`. */
  lemma SanitizeNameAscii(name: string)
    ensures forall i :: 0 <= i < |name| && (IsAsciiUpper(name[i]) || IsAsciiLower(name[i]) || IsDigit(name[i])) ==>
      SanitizeName(name)[i] == LowerChar(name[i]) && SanitizeName(name)[i] != '-'
    ensures forall i :: 0 <= i < |name| && !IsAscii(name[i]) ==> SanitizeName(name)[i] == '-'
  {
  }

  // ---------------------------------------------------------------------
  // Property assignment

  /** True iff `w` assigns `key`. */
  predicate Assigns(w: Writes, key: string) {
    exists i :: 0 <= i < |w| && w[i].0 == key
  }

  /** True iff no assignment after the `i`-th one has the same key. */
  predicate LastWrite(w: Writes, i: int)
    requires 0 <= i < |w|
  {
    forall j :: i < j < |w| ==> w[j].0 != w[i].0
  }

  /** Performs the assignments of `w` on `m`, in order. */
  function Write(m: map<string, string>, w: Writes): map<string, string>
    decreases |w|
  {
    if |w| == 0 then m else Write(m, w[..|w| - 1])[w[|w| - 1].0 := w[|w| - 1].1]
  }

  /** The record gains exactly the assigned keys, an assigned key holds the
      value of its last assignment, every other key keeps its value, and the
      result is empty only if nothing was there and nothing was assigned. */
  lemma WriteFacts(m: map<string, string>, w: Writes)
    ensures forall k :: k in Write(m, w) <==> k in m || Assigns(w, k)
    ensures forall k :: k in m && !Assigns(w, k) ==> Write(m, w)[k] == m[k]
    ensures forall i :: 0 <= i < |w| && LastWrite(w, i) ==> w[i].0 in Write(m, w) && Write(m, w)[w[i].0] == w[i].1
    ensures Write(m, w) == map[] <==> m == map[] && |w| == 0
  {
    WriteKeys(m, w);
    WriteKeeps(m, w);
    WriteLast(m, w);
    if |w| > 0 {
      assert w[|w| - 1].0 in Write(m, w);
    }
  }

  /** A key is assigned by `w` iff it is assigned by all of `w` but the last
      assignment, or by that last one. */
  lemma AssignsSnoc(w: Writes, k: string)
    requires |w| > 0
    ensures Assigns(w, k) <==> Assigns(w[..|w| - 1], k) || w[|w| - 1].0 == k
  {
    var init := w[..|w| - 1];
    if Assigns(w, k) {
      var i :| 0 <= i < |w| && w[i].0 == k;
      if i < |w| - 1 {
        assert init[i] == w[i];
      }
    }
    if Assigns(init, k) {
      var i :| 0 <= i < |init| && init[i].0 == k;
      assert w[i] == init[i];
    }
  }

  lemma {:induction false} WriteKeys(m: map<string, string>, w: Writes)
    ensures forall k :: k in Write(m, w) <==> k in m || Assigns(w, k)
    decreases |w|
  {
    if |w| > 0 {
      WriteKeys(m, w[..|w| - 1]);
      forall k
        ensures k in Write(m, w) <==> k in m || Assigns(w, k)
      {
        AssignsSnoc(w, k);
      }
    }
  }

  lemma {:induction false} WriteKeeps(m: map<string, string>, w: Writes)
    ensures forall k :: k in m && !Assigns(w, k) ==> k in Write(m, w) && Write(m, w)[k] == m[k]
    decreases |w|
  {
    if |w| > 0 {
      WriteKeeps(m, w[..|w| - 1]);
      forall k | k in m && !Assigns(w, k)
        ensures k in Write(m, w) && Write(m, w)[k] == m[k]
      {
        AssignsSnoc(w, k);
      }
    }
  }

  lemma {:induction false} WriteLast(m: map<string, string>, w: Writes)
    ensures forall i :: 0 <= i < |w| && LastWrite(w, i) ==> w[i].0 in Write(m, w) && Write(m, w)[w[i].0] == w[i].1
    decreases |w|
  {
    if |w| > 0 {
      var init := w[..|w| - 1];
      WriteLast(m, init);
      forall i | 0 <= i < |w| && LastWrite(w, i)
        ensures w[i].0 in Write(m, w) && Write(m, w)[w[i].0] == w[i].1
      {
        if i < |w| - 1 {
          assert init[i] == w[i];
          assert LastWrite(init, i);
        }
      }
    }
  }

  /** A key is assigned by a concatenation iff one of the parts assigns it. */
  lemma AssignsConcat(a: Writes, b: Writes, key: string)
    ensures Assigns(a + b, key) <==> Assigns(a, key) || Assigns(b, key)
  {
    if Assigns(a + b, key) {
      var i :| 0 <= i < |a + b| && (a + b)[i].0 == key;
      if i >= |a| {
        assert b[i - |a|] == (a + b)[i];
      }
    }
    if Assigns(b, key) {
      var i :| 0 <= i < |b| && b[i].0 == key;
      assert (a + b)[|a| + i] == b[i];
    }
    if Assigns(a, key) {
      var i :| 0 <= i < |a| && a[i].0 == key;
      assert (a + b)[i] == a[i];
    }
  }

  // ---------------------------------------------------------------------
  // Layers

  /** The language baseline: TypeScript compiles to `dist`, everything else
      runs `src/index.js` directly. */
  function Baseline(language: string): (r: Layers)
    ensures r.deps == map[] && r.devDeps == map[]
    ensures "start" in r.scripts && "dev" in r.scripts
    ensures "build" in r.scripts <==> language == "typescript"
    ensures "test" !in r.scripts && "lint" !in r.scripts && "format" !in r.scripts
  {
    if language == "typescript" then
      Layers("dist/index.js",
        map["build" := "tsc", "dev" := "ts-node src/index.ts",
            "start" := "node dist/index.js", "watch" := "tsc -w"],
        map[], map[])
    else
      Layers("src/index.js",
        map["start" := "node src/index.js", "dev" := "nodemon src/index.js"],
        map[], map[])
  }

  /** The `dev` script of the server frameworks, which depends on the
      language. */
  function NodeDevScript(language: string): string {
    if language == "typescript" then "ts-node-dev src/index.ts" else "nodemon src/index.js"
  }

  const VitePreview: Writes := [("dev", "vite"), ("build", "vite build"), ("preview", "vite preview")]

  /** One case of the framework switch. */
  datatype Case = Case(framework: string, rule: Rule)

  /** The cases of the framework switch, in source order; the server
      frameworks' `dev` script depends on the language. */
  function FrameworkTable(language: string): seq<Case> {
    [
      Case("express", Rule(
        [("express", "^4.18.2"), ("cors", "^2.8.5"), ("dotenv", "^16.3.1")],
        [],
        [("dev", NodeDevScript(language))])),
      Case("nestjs", Rule(
        [("@nestjs/common", "^10.0.0"), ("@nestjs/core", "^10.0.0"),
         ("@nestjs/platform-express", "^10.0.0"), ("reflect-metadata", "^0.1.13"),
         ("rxjs", "^7.8.1")],
        [],
        [("start", "nest start"), ("dev", "nest start --watch"), ("build", "nest build")])),
      Case("react", Rule(
        [("react", "^18.2.0"), ("react-dom", "^18.2.0")],
        [("vite", "^5.0.0"), ("@vitejs/plugin-react", "^4.2.0")],
        VitePreview)),
      Case("next", Rule(
        [("next", "^14.0.0"), ("react", "^18.2.0"), ("react-dom", "^18.2.0")],
        [],
        [("dev", "next dev"), ("build", "next build"), ("start", "next start"),
         ("lint", "next lint")])),
      Case("vue", Rule(
        [("vue", "^3.3.0")],
        [("vite", "^5.0.0"), ("@vitejs/plugin-vue", "^4.5.0")],
        VitePreview)),
      Case("nuxt", Rule(
        [],
        [("nuxt", "^3.8.0")],
        [("dev", "nuxt dev"), ("build", "nuxt build"), ("preview", "nuxt preview"),
         ("generate", "nuxt generate")])),
      Case("svelte", Rule(
        [],
        [("svelte", "^4.2.0"), ("vite", "^5.0.0"), ("@sveltejs/vite-plugin-svelte", "^3.0.0")],
        VitePreview)),
      Case("sveltekit", Rule(
        [],
        [("@sveltejs/adapter-auto", "^3.0.0"), ("@sveltejs/kit", "^2.0.0"),
         ("@sveltejs/vite-plugin-svelte", "^3.0.0"), ("svelte", "^4.2.0"), ("vite", "^5.0.0")],
        [("dev", "vite dev"), ("build", "vite build"), ("preview", "vite preview")])),
      Case("angular", Rule(
        [("@angular/animations", "^17.0.0"), ("@angular/common", "^17.0.0"),
         ("@angular/compiler", "^17.0.0"), ("@angular/core", "^17.0.0"),
         ("@angular/forms", "^17.0.0"), ("@angular/platform-browser", "^17.0.0"),
         ("@angular/platform-browser-dynamic", "^17.0.0"), ("@angular/router", "^17.0.0"),
         ("rxjs", "^7.8.0"), ("tslib", "^2.6.0"), ("zone.js", "^0.14.0")],
        [("@angular-devkit/build-angular", "^17.0.0"), ("@angular/cli", "^17.0.0"),
         ("@angular/compiler-cli", "^17.0.0")],
        [("ng", "ng"), ("start", "ng serve"), ("build", "ng build"), ("test", "ng test")])),
      Case("fastify", Rule(
        [("fastify", "^4.24.0"), ("@fastify/cors", "^8.4.0"), ("@fastify/helmet", "^11.1.0")],
        [],
        [("dev", NodeDevScript(language))])),
      Case("koa", Rule(
        [("koa", "^2.14.0"), ("koa-router", "^12.0.0"), ("koa-bodyparser", "^4.4.0")],
        [],
        [("dev", NodeDevScript(language))])),
      Case("remix", Rule(
        [("@remix-run/node", "^2.3.0"), ("@remix-run/react", "^2.3.0"),
         ("@remix-run/serve", "^2.3.0"), ("react", "^18.2.0"), ("react-dom", "^18.2.0")],
        [("@remix-run/dev", "^2.3.0")],
        [("dev", "remix dev"), ("build", "remix build"), ("start", "remix-serve build")])),
      Case("astro", Rule(
        [("astro", "^4.0.0")],
        [],
        [("dev", "astro dev"), ("build", "astro build"), ("preview", "astro preview")])),
      Case("vite", Rule(
        [],
        [("vite", "^5.0.0")],
        VitePreview))
    ]
  }

  /** The first case for `framework`, if any. */
  function FindCase(cases: seq<Case>, framework: string): (r: Option<Rule>)
    ensures r.None? <==> forall i :: 0 <= i < |cases| ==> cases[i].framework != framework
    ensures r.Some? ==> exists i :: 0 <= i < |cases| && cases[i] == Case(framework, r.value)
    decreases |cases|
  {
    if |cases| == 0 then None
    else if cases[0].framework == framework then Some(cases[0].rule)
    else
      var r := FindCase(cases[1..], framework);
      if r.Some? then
        assert cases[1..][0] == cases[1];
        r
      else r
  }

  /** What every case of the switch satisfies: it assigns runtime
      dependencies exactly for the frameworks listed as doing so, only
      Next.js assigns `lint`, nobody assigns `format`, and no case adds the
      prettier integration packages. */
  predicate CaseFacts(c: Case) {
    && (|c.rule.deps| > 0 <==> c.framework in RuntimeDepFrameworks)
    && (Assigns(c.rule.scripts, "lint") <==> c.framework == "next")
    && !Assigns(c.rule.scripts, "format")
    && !Assigns(c.rule.devDeps, "eslint-config-prettier")
    && !Assigns(c.rule.devDeps, "eslint-plugin-prettier")
  }

  lemma FrameworkTableIds(language: string)
    ensures |FrameworkTable(language)| == |FrameworkCases|
    ensures forall i :: 0 <= i < |FrameworkCases| ==> FrameworkTable(language)[i].framework == FrameworkCases[i]
  {
  }

  lemma FrameworkCase0Facts(language: string)
    ensures CaseFacts(FrameworkTable(language)[0])
  {
  }

  lemma FrameworkCase1Facts(language: string)
    ensures CaseFacts(FrameworkTable(language)[1])
  {
  }

  lemma FrameworkCase2Facts(language: string)
    ensures CaseFacts(FrameworkTable(language)[2])
  {
  }

  lemma FrameworkCase3Facts(language: string)
    ensures CaseFacts(FrameworkTable(language)[3])
  {
    assert FrameworkTable(language)[3].rule.scripts[3].0 == "lint";
  }

  lemma FrameworkCase4Facts(language: string)
    ensures CaseFacts(FrameworkTable(language)[4])
  {
  }

  lemma FrameworkCase5Facts(language: string)
    ensures CaseFacts(FrameworkTable(language)[5])
  {
  }

  lemma FrameworkCase6Facts(language: string)
    ensures CaseFacts(FrameworkTable(language)[6])
  {
  }

  lemma FrameworkCase7Facts(language: string)
    ensures CaseFacts(FrameworkTable(language)[7])
  {
  }

  lemma FrameworkCase8Facts(language: string)
    ensures CaseFacts(FrameworkTable(language)[8])
  {
  }

  lemma FrameworkCase9Facts(language: string)
    ensures CaseFacts(FrameworkTable(language)[9])
  {
  }

  lemma FrameworkCase10Facts(language: string)
    ensures CaseFacts(FrameworkTable(language)[10])
  {
  }

  lemma FrameworkCase11Facts(language: string)
    ensures CaseFacts(FrameworkTable(language)[11])
  {
  }

  lemma FrameworkCase12Facts(language: string)
    ensures CaseFacts(FrameworkTable(language)[12])
  {
  }

  lemma FrameworkCase13Facts(language: string)
    ensures CaseFacts(FrameworkTable(language)[13])
  {
  }

  lemma FrameworkTableFacts(language: string)
    ensures forall i :: 0 <= i < |FrameworkTable(language)| ==> CaseFacts(FrameworkTable(language)[i])
  {
    forall i | 0 <= i < |FrameworkTable(language)|
      ensures CaseFacts(FrameworkTable(language)[i])
    {
      if i == 0 {
        FrameworkCase0Facts(language);
      } else if i == 1 {
        FrameworkCase1Facts(language);
      } else if i == 2 {
        FrameworkCase2Facts(language);
      } else if i == 3 {
        FrameworkCase3Facts(language);
      } else if i == 4 {
        FrameworkCase4Facts(language);
      } else if i == 5 {
        FrameworkCase5Facts(language);
      } else if i == 6 {
        FrameworkCase6Facts(language);
      } else if i == 7 {
        FrameworkCase7Facts(language);
      } else if i == 8 {
        FrameworkCase8Facts(language);
      } else if i == 9 {
        FrameworkCase9Facts(language);
      } else if i == 10 {
        FrameworkCase10Facts(language);
      } else if i == 11 {
        FrameworkCase11Facts(language);
      } else if i == 12 {
        FrameworkCase12Facts(language);
      } else {
        FrameworkCase13Facts(language);
      }
    }
  }

  /** The case ids are pairwise distinct, so every case is reachable. */
  lemma FrameworkCasesDistinct()
    ensures forall i, j :: 0 <= i < j < |FrameworkCases| ==> FrameworkCases[i] != FrameworkCases[j]
  {
  }

  /** The rule for the `i`-th case id is the `i`-th case's rule. */
  lemma FrameworkRuleAt(language: string, i: int)
    requires 0 <= i < |FrameworkCases|
    ensures FrameworkRule(FrameworkCases[i], language) == Some(FrameworkTable(language)[i].rule)
  {
    var t := FrameworkTable(language);
    FrameworkTableIds(language);
    FrameworkCasesDistinct();
    var r := FindCase(t, FrameworkCases[i]);
    assert t[i].framework == FrameworkCases[i];
    var j :| 0 <= j < |t| && t[j] == Case(FrameworkCases[i], r.value);
    assert j == i;
  }

  /** The rule the switch applies for `framework`: there is one exactly for
      the frameworks with a case, and it satisfies `CaseFacts`. */
  function FrameworkRule(framework: string, language: string): (r: Option<Rule>)
    ensures r.Some? <==> framework in FrameworkCases
    ensures r.Some? ==> CaseFacts(Case(framework, r.value))
  {
    FrameworkTableIds(language);
    FrameworkTableFacts(language);
    FindCase(FrameworkTable(language), framework)
  }

  /** Applies a rule's assignments over a state: each of the three records
      gains the keys the rule assigns and keeps the others. */
  function Apply(l: Layers, rule: Rule): (r: Layers)
    ensures r.main == l.main
    ensures forall k :: k in r.scripts <==> k in l.scripts || Assigns(rule.scripts, k)
    ensures forall k :: k in l.scripts && !Assigns(rule.scripts, k) ==> r.scripts[k] == l.scripts[k]
    ensures forall i :: 0 <= i < |rule.scripts| && LastWrite(rule.scripts, i) ==>
      rule.scripts[i].0 in r.scripts && r.scripts[rule.scripts[i].0] == rule.scripts[i].1
    ensures forall k :: k in r.deps <==> k in l.deps || Assigns(rule.deps, k)
    ensures r.deps == map[] <==> l.deps == map[] && |rule.deps| == 0
    ensures forall k :: k in r.devDeps <==> k in l.devDeps || Assigns(rule.devDeps, k)
    ensures r.devDeps == map[] <==> l.devDeps == map[] && |rule.devDeps| == 0
  {
    WriteFacts(l.scripts, rule.scripts);
    WriteFacts(l.deps, rule.deps);
    WriteFacts(l.devDeps, rule.devDeps);
    Layers(l.main, Write(l.scripts, rule.scripts), Write(l.deps, rule.deps), Write(l.devDeps, rule.devDeps))
  }

  /** The TypeScript typings (and, for JavaScript, `nodemon`). */
  function TypingsRule(framework: string, language: string): (r: Rule)
    ensures r.deps == [] && r.scripts == []
    ensures |r.devDeps| > 0
    ensures !Assigns(r.devDeps, "eslint-config-prettier") && !Assigns(r.devDeps, "eslint-plugin-prettier")
  {
    if language == "typescript" then
      var base := [("typescript", "^5.3.0"), ("@types/node", "^20.10.0"), ("ts-node", "^10.9.0")];
      var express := if framework == "express" then
        [("@types/express", "^4.17.21"), ("@types/cors", "^2.8.17"), ("ts-node-dev", "^2.0.0")]
      else [];
      var react := if framework == "react" || framework == "next" then
        [("@types/react", "^18.2.0"), ("@types/react-dom", "^18.2.0")]
      else [];
      AssignsConcat(base, express, "eslint-config-prettier");
      AssignsConcat(base + express, react, "eslint-config-prettier");
      AssignsConcat(base, express, "eslint-plugin-prettier");
      AssignsConcat(base + express, react, "eslint-plugin-prettier");
      Rule([], base + express + react, [])
    else
      Rule([], [("nodemon", "^3.0.0")], [])
  }

  /** The eslint rule, applied only when `eslint` is among the linters. */
  function EslintRule(framework: string, language: string): (r: Rule)
    ensures r.deps == []
    ensures r.scripts == [("lint", "eslint .")]
    ensures |r.devDeps| > 0
    ensures !Assigns(r.devDeps, "eslint-config-prettier") && !Assigns(r.devDeps, "eslint-plugin-prettier")
    ensures Assigns(r.devDeps, "eslint")
    ensures language == "typescript" ==>
      Assigns(r.devDeps, "@typescript-eslint/parser") && Assigns(r.devDeps, "@typescript-eslint/eslint-plugin")
  {
    var base := [("eslint", "^8.55.0")];
    var ts := if language == "typescript" then
      [("@typescript-eslint/eslint-plugin", "^6.14.0"), ("@typescript-eslint/parser", "^6.14.0")]
    else [];
    var react := if framework == "react" || framework == "next" then
      [("eslint-plugin-react", "^7.33.0"), ("eslint-plugin-react-hooks", "^4.6.0")]
    else [];
    var vue := if framework == "vue" || framework == "nuxt" then
      [("eslint-plugin-vue", "^9.19.0")]
    else [];
    AssignsConcat(base, ts, "eslint-config-prettier");
    AssignsConcat(base + ts, react, "eslint-config-prettier");
    AssignsConcat(base + ts + react, vue, "eslint-config-prettier");
    AssignsConcat(base, ts, "eslint-plugin-prettier");
    AssignsConcat(base + ts, react, "eslint-plugin-prettier");
    AssignsConcat(base + ts + react, vue, "eslint-plugin-prettier");
    assert (base + ts + react + vue)[0].0 == "eslint";
    assert language == "typescript" ==>
      (base + ts + react + vue)[1].0 == "@typescript-eslint/eslint-plugin" && (base + ts + react + vue)[2].0 == "@typescript-eslint/parser";
    Rule([], base + ts + react + vue, [("lint", "eslint .")])
  }

  /** The prettier rule; the two integration packages come only with
      eslint. */
  function PrettierRule(withEslint: bool): (r: Rule)
    ensures r.deps == []
    ensures r.scripts == [("format", "prettier --write .")]
    ensures Assigns(r.devDeps, "eslint-config-prettier") <==> withEslint
    ensures Assigns(r.devDeps, "eslint-plugin-prettier") <==> withEslint
  {
    var base := [("prettier", "^3.1.0")];
    var integration := if withEslint then
      [("eslint-config-prettier", "^9.1.0"), ("eslint-plugin-prettier", "^5.0.0")]
    else [];
    AssignsConcat(base, integration, "eslint-config-prettier");
    AssignsConcat(base, integration, "eslint-plugin-prettier");
    assert withEslint ==> integration[0].0 == "eslint-config-prettier" && integration[1].0 == "eslint-plugin-prettier";
    Rule([], base + integration, [("format", "prettier --write .")])
  }

  /** The framework layer: a framework with no case changes nothing; one
      with a case adds runtime dependencies iff it is listed as doing so,
      assigns `lint` only for Next.js and never assigns `format`. */
  function WithFramework(l: Layers, framework: string, language: string): (r: Layers)
    ensures r.main == l.main
    ensures forall k :: k in l.scripts ==> k in r.scripts
    ensures "lint" in r.scripts <==> "lint" in l.scripts || framework == "next"
    ensures "format" in r.scripts <==> "format" in l.scripts
    ensures r.deps != map[] <==> l.deps != map[] || framework in RuntimeDepFrameworks
    ensures "eslint-config-prettier" in r.devDeps <==> "eslint-config-prettier" in l.devDeps
    ensures "eslint-plugin-prettier" in r.devDeps <==> "eslint-plugin-prettier" in l.devDeps
    ensures framework !in FrameworkCases ==> r == l
  {
    match FrameworkRule(framework, language)
    case Some(rule) => Apply(l, rule)
    case None => l
  }

  /** The typings layer: scripts and runtime dependencies are untouched and
      the development dependencies become non-empty. */
  function WithTypings(l: Layers, framework: string, language: string): (r: Layers)
    ensures r.main == l.main && r.scripts == l.scripts && r.deps == l.deps
    ensures r.devDeps != map[]
    ensures forall k :: k in r.devDeps <==> k in l.devDeps || Assigns(TypingsRule(framework, language).devDeps, k)
    ensures "eslint-config-prettier" in r.devDeps <==> "eslint-config-prettier" in l.devDeps
    ensures "eslint-plugin-prettier" in r.devDeps <==> "eslint-plugin-prettier" in l.devDeps
  {
    var rule := TypingsRule(framework, language);
    var r := Apply(l, rule);
    assert r.scripts == l.scripts;
    assert r.deps == l.deps;
    r
  }

  /** The eslint layer, when selected: `lint` becomes `eslint .`, whatever
      the framework wrote. */
  function WithEslint(l: Layers, framework: string, language: string, linters: seq<string>): (r: Layers)
    ensures r.main == l.main && r.deps == l.deps
    ensures "lint" in r.scripts <==> "lint" in l.scripts || "eslint" in linters
    ensures "eslint" in linters ==> r.scripts["lint"] == "eslint ."
    ensures forall k :: k in l.scripts && k != "lint" ==> k in r.scripts && r.scripts[k] == l.scripts[k]
    ensures "format" in r.scripts <==> "format" in l.scripts
    ensures l.devDeps != map[] ==> r.devDeps != map[]
    ensures forall k :: k in l.devDeps ==> k in r.devDeps
    ensures "eslint-config-prettier" in r.devDeps <==> "eslint-config-prettier" in l.devDeps
    ensures "eslint-plugin-prettier" in r.devDeps <==> "eslint-plugin-prettier" in l.devDeps
    ensures "eslint" in linters ==> "eslint" in r.devDeps
    ensures "eslint" in linters && language == "typescript" ==>
      "@typescript-eslint/parser" in r.devDeps && "@typescript-eslint/eslint-plugin" in r.devDeps
  {
    if "eslint" in linters then
      var rule := EslintRule(framework, language);
      assert LastWrite(rule.scripts, 0);
      Apply(l, rule)
    else l
  }

  /** The prettier layer, when selected: it assigns `format` and, with
      eslint, the two integration packages. */
  function WithPrettier(l: Layers, linters: seq<string>): (r: Layers)
    ensures r.main == l.main && r.deps == l.deps
    ensures "format" in r.scripts <==> "format" in l.scripts || "prettier" in linters
    ensures forall k :: k in l.scripts && k != "format" ==> k in r.scripts && r.scripts[k] == l.scripts[k]
    ensures "lint" in r.scripts <==> "lint" in l.scripts
    ensures l.devDeps != map[] ==> r.devDeps != map[]
    ensures forall k :: k in l.devDeps ==> k in r.devDeps
    ensures "eslint-config-prettier" in r.devDeps <==>
      "eslint-config-prettier" in l.devDeps || ("prettier" in linters && "eslint" in linters)
    ensures "eslint-plugin-prettier" in r.devDeps <==>
      "eslint-plugin-prettier" in l.devDeps || ("prettier" in linters && "eslint" in linters)
  {
    if "prettier" in linters then Apply(l, PrettierRule("eslint" in linters)) else l
  }

  /** The last layer: the test script, which overwrites any earlier one. */
  function WithTest(l: Layers): (r: Layers)
    ensures r.main == l.main && r.deps == l.deps && r.devDeps == l.devDeps
    ensures "test" in r.scripts && r.scripts["test"] == TestPlaceholder
    ensures forall k :: k in l.scripts && k != "test" ==> k in r.scripts && r.scripts[k] == l.scripts[k]
    ensures forall k :: k in r.scripts && k != "test" ==> k in l.scripts
  {
    l.(scripts := l.scripts["test" := TestPlaceholder])
  }

  /** All layers in source order. */
  function BuildLayers(framework: string, language: string, linters: seq<string>): Layers {
    var l0 := Baseline(language);
    var l1 := WithFramework(l0, framework, language);
    var l2 := WithTypings(l1, framework, language);
    var l3 := WithEslint(l2, framework, language, linters);
    var l4 := WithPrettier(l3, linters);
    WithTest(l4)
  }

  /** `generatePackageJson(name, framework, language, linters)`: the fixed
      fields, and the fields derived from the layers (see
      `GeneratedScripts` and `GeneratedDependencies`). */
  function GeneratePackageJson(name: string, framework: string, language: string, linters: seq<string>): (r: Manifest)
    ensures r.name == SanitizeName(name)
    ensures r.version == "1.0.0" && r.license == "MIT" && r.author == ""
    ensures r.keywords == [framework, language, "blazestart"]
    ensures r.moduleType.Some? <==> framework in EsmFrameworks
    ensures r.moduleType.Some? ==> r.moduleType.value == "module"
  {
    var l := BuildLayers(framework, language, linters);
    Manifest(
      SanitizeName(name),
      "1.0.0",
      "A " + (if framework == "none" then language else framework) + " project created with BlazeStart",
      Some(l.main),
      l.scripts,
      [framework, language, "blazestart"],
      "",
      "MIT",
      if l.deps != map[] then Some(l.deps) else None,
      if l.devDeps != map[] then Some(l.devDeps) else None,
      if framework in EsmFrameworks then Some("module") else None)
  }

  /** `main` points at the compiled output for TypeScript and at the source
      entry otherwise; no layer changes it. */
  lemma GeneratedMain(name: string, framework: string, language: string, linters: seq<string>)
    ensures GeneratePackageJson(name, framework, language, linters).main ==
      Some(if language == "typescript" then "dist/index.js" else "src/index.js")
  {
  }

  /** The scripts: `test` is the placeholder whatever the framework wrote,
      `dev` and `start` always exist, `lint` exists iff eslint is chosen or
      the framework is next (and is `eslint .` with eslint), and `format`
      exists iff prettier is chosen. */
  lemma GeneratedScripts(name: string, framework: string, language: string, linters: seq<string>)
    ensures var r := GeneratePackageJson(name, framework, language, linters);
      && "test" in r.scripts && r.scripts["test"] == TestPlaceholder
      && "dev" in r.scripts && "start" in r.scripts
      && ("lint" in r.scripts <==> "eslint" in linters || framework == "next")
      && ("eslint" in linters ==> r.scripts["lint"] == "eslint .")
      && ("format" in r.scripts <==> "prettier" in linters)
  {
  }

  /** The dependency records: `dependencies` is present iff the framework
      adds runtime dependencies, `devDependencies` is always present, and it
      holds the two prettier integration packages iff both linters are
      chosen. */
  lemma GeneratedDependencies(name: string, framework: string, language: string, linters: seq<string>)
    ensures var r := GeneratePackageJson(name, framework, language, linters);
      && (r.dependencies.Some? <==> framework in RuntimeDepFrameworks)
      && r.devDependencies.Some?
      && ("eslint-config-prettier" in r.devDependencies.value <==> "eslint" in linters && "prettier" in linters)
      && ("eslint-plugin-prettier" in r.devDependencies.value <==> "eslint" in linters && "prettier" in linters)
  {
  }

  /** With eslint chosen, eslint itself is a development dependency, and so
      are the TypeScript parser and plugin when the language is TypeScript. */
  lemma GeneratedEslintPackages(name: string, framework: string, language: string, linters: seq<string>)
    requires "eslint" in linters
    ensures var r := GeneratePackageJson(name, framework, language, linters);
      && r.devDependencies.Some?
      && "eslint" in r.devDependencies.value
      && (language == "typescript" ==>
            "@typescript-eslint/parser" in r.devDependencies.value
            && "@typescript-eslint/eslint-plugin" in r.devDependencies.value)
  {
  }

  /** A framework with no case in the switch adds no runtime dependency and
      leaves the baseline `main` and scripts as they were. */
  lemma UnknownFrameworkKeepsBaseline(name: string, framework: string, language: string, linters: seq<string>)
    requires framework !in FrameworkCases
    ensures var r := GeneratePackageJson(name, framework, language, linters);
      var b := Baseline(language);
      && r.dependencies == None
      && r.main == Some(b.main)
      && forall k :: k in b.scripts ==> k in r.scripts && r.scripts[k] == b.scripts[k]
  {
  }

  /** Express's case: three runtime dependencies, and `dev` chosen by the
      language. */
  lemma ExpressLayer(language: string)
    ensures var l1 := WithFramework(Baseline(language), "express", language);
      && "dev" in l1.scripts && l1.scripts["dev"] == NodeDevScript(language)
      && l1.deps == map["express" := "^4.18.2", "cors" := "^2.8.5", "dotenv" := "^16.3.1"]
  {
    FrameworkRuleAt(language, 0);
    var deps := [("express", "^4.18.2"), ("cors", "^2.8.5"), ("dotenv", "^16.3.1")];
    var rule := Rule(deps, [], [("dev", NodeDevScript(language))]);
    assert FrameworkRule("express", language) == Some(rule);
    assert deps[..2][..1][..0] == [];
    assert Write(map[], deps[..2][..1]) == map["express" := "^4.18.2"];
    assert Write(map[], deps[..2]) == map["express" := "^4.18.2", "cors" := "^2.8.5"];
    assert Write(map[], deps) == map["express" := "^4.18.2", "cors" := "^2.8.5", "dotenv" := "^16.3.1"];
    assert LastWrite(rule.scripts, 0);
  }

  /** TypeScript with Express: the server typings and `ts-node-dev` are
      added to the development dependencies. */
  lemma TypeScriptExpressTypings(name: string, linters: seq<string>)
    ensures var r := GeneratePackageJson(name, "express", "typescript", linters);
      && r.devDependencies.Some?
      && "typescript" in r.devDependencies.value
      && "@types/express" in r.devDependencies.value
      && "@types/cors" in r.devDependencies.value
      && "ts-node-dev" in r.devDependencies.value
  {
    GeneratedDependencies(name, "express", "typescript", linters);
    var l1 := WithFramework(Baseline("typescript"), "express", "typescript");
    ExpressTypings(l1);
  }

  /** The typings layer for TypeScript with Express adds the compiler, the
      server typings and `ts-node-dev`, whatever it starts from. */
  lemma ExpressTypings(l: Layers)
    ensures var r := WithTypings(l, "express", "typescript");
      && "typescript" in r.devDeps && "@types/express" in r.devDeps
      && "@types/cors" in r.devDeps && "ts-node-dev" in r.devDeps
  {
    var t := TypingsRule("express", "typescript");
    assert t.devDeps[0].0 == "typescript" && t.devDeps[3].0 == "@types/express";
    assert t.devDeps[4].0 == "@types/cors" && t.devDeps[5].0 == "ts-node-dev";
  }

  /** TypeScript with Express: `dev` runs the TypeScript entry through
      `ts-node-dev`, and the runtime dependencies are Express's three. */
  lemma TypeScriptExpressRuntime(name: string, linters: seq<string>)
    ensures var r := GeneratePackageJson(name, "express", "typescript", linters);
      && "dev" in r.scripts && r.scripts["dev"] == "ts-node-dev src/index.ts"
      && r.dependencies == Some(map["express" := "^4.18.2", "cors" := "^2.8.5", "dotenv" := "^16.3.1"])
  {
    ExpressLayer("typescript");
  }

  /** Angular's case writes `ng test`, among other scripts. */
  lemma AngularScripts(language: string)
    ensures FrameworkRule("angular", language).Some?
    ensures FrameworkRule("angular", language).value.scripts ==
      [("ng", "ng"), ("start", "ng serve"), ("build", "ng build"), ("test", "ng test")]
  {
    var scripts := [("ng", "ng"), ("start", "ng serve"), ("build", "ng build"), ("test", "ng test")];
    assert FrameworkTable(language)[8].rule.scripts == scripts;
    assert FrameworkCases[8] == "angular";
    FrameworkRuleAt(language, 8);
  }

  /** Angular's layer writes `ng test` and the `ng` script. */
  lemma AngularLayer(language: string)
    ensures var l1 := WithFramework(Baseline(language), "angular", language);
      && "test" in l1.scripts && l1.scripts["test"] == "ng test"
      && "ng" in l1.scripts && l1.scripts["ng"] == "ng"
  {
    AngularScripts(language);
    var rule := FrameworkRule("angular", language).value;
    var w := rule.scripts;
    assert LastWrite(w, 0) && LastWrite(w, 3);
    LayerWrites(Baseline(language), "angular", language, rule, 0);
    LayerWrites(Baseline(language), "angular", language, rule, 3);
  }

  /** A framework layer leaves each key at its last assigned value. */
  lemma LayerWrites(l: Layers, framework: string, language: string, rule: Rule, i: int)
    requires FrameworkRule(framework, language) == Some(rule)
    requires 0 <= i < |rule.scripts| && LastWrite(rule.scripts, i)
    ensures var r := WithFramework(l, framework, language);
      rule.scripts[i].0 in r.scripts && r.scripts[rule.scripts[i].0] == rule.scripts[i].1
  {
  }

  /** Angular's `ng test` is overwritten by the final test script, while
      its `ng` script survives. */
  lemma AngularTestOverwritten(name: string, language: string, linters: seq<string>)
    ensures var r := GeneratePackageJson(name, "angular", language, linters);
      r.scripts["test"] == TestPlaceholder && "ng" in r.scripts && r.scripts["ng"] == "ng"
  {
    AngularLayer(language);
    GeneratedScripts(name, "angular", language, linters);
  }
}

=== FILE: profile_store.dfy ===
/** The tool's saved state under `~/.blazestart`: `config.json`, one JSON
    object of settings, and the profiles directory, one `<name>.json` file per
    profile. The file system becomes a value; each operation returns the new
    state, or the error it throws. */
module ProfileStore {

  import opened Wrappers
  import opened Text
  import opened Options
  import Json

  datatype Store = Store(config: map<string, Json.Value>, profiles: map<string, Profile>)

  const PointerKey: string := "defaultProfile"

  /** The profile name the wizards follow: the `defaultProfile` setting
      whenever it is truthy, whatever its JSON type, converted to text the way
      `loadProfile` builds `${profileName}.json` from it. A setting of `123`,
      which `config set` writes as a number, names the profile `123`. */
  function DefaultProfileName(config: map<string, Json.Value>): (r: Option<string>)
    ensures r.Some? <==> PointerKey in config && Json.Truthy(config[PointerKey])
    ensures r.Some? && config[PointerKey].Str? ==> r.value == config[PointerKey].s && r.value != ""
    ensures r.Some? && config[PointerKey].Number? && config[PointerKey].n > 0 ==>
      r.value == NatToString(config[PointerKey].n)
    ensures r.Some? && config[PointerKey].Bool? ==> r.value == "true"
    ensures r.Some? && !config[PointerKey].Array? ==> r.value != ""
  {
    if PointerKey in config && Json.Truthy(config[PointerKey]) then Some(Json.ToText(config[PointerKey]))
    else None
  }

  /** The profile file's name in the profiles directory. */
  function ProfileFile(name: string): string {
    name + ".json"
  }

  function NotFound(name: string): string {
    "Profile \"" + name + "\" not found"
  }

  /** Reads a profile; throws when its file is missing. */
  function LoadProfile(s: Store, name: string): (r: Result<Profile>)
    ensures r.Ok? <==> name in s.profiles
    ensures r.Ok? ==> r.value == s.profiles[name]
    ensures r.Err? ==> r.message == NotFound(name)
  {
    if name in s.profiles then Ok(s.profiles[name]) else Err(NotFound(name))
  }

  /** Writes a profile's file, creating or replacing it. */
  function SaveProfile(s: Store, name: string, p: Profile): (r: Store)
    ensures r.config == s.config
    ensures name in r.profiles && r.profiles[name] == p
    ensures forall n :: n != name ==> (n in r.profiles <==> n in s.profiles)
    ensures forall n :: n != name && n in s.profiles ==> r.profiles[n] == s.profiles[n]
  {
    s.(profiles := s.profiles[name := p])
  }

  /** Removes a profile's file; throws when it is missing. */
  function DeleteProfile(s: Store, name: string): (r: Result<Store>)
    ensures r.Ok? <==> name in s.profiles
    ensures r.Err? ==> r.message == NotFound(name)
    ensures r.Ok? ==> r.value.config == s.config && name !in r.value.profiles
    ensures r.Ok? ==> forall n :: n != name ==> (n in r.value.profiles <==> n in s.profiles)
  {
    if name in s.profiles then Ok(s.(profiles := s.profiles - {name})) else Err(NotFound(name))
  }

  /** A saved profile reads back as saved, and saving one profile leaves
      every other readable as before. */
  lemma LoadAfterSave(s: Store, name: string, p: Profile, other: string)
    ensures LoadProfile(SaveProfile(s, name, p), name) == Ok(p)
    ensures other != name ==> LoadProfile(SaveProfile(s, name, p), other) == LoadProfile(s, other)
  {
  }

  /** A deleted profile no longer loads, and no other profile changes. */
  lemma LoadAfterDelete(s: Store, name: string, other: string)
    requires name in s.profiles
    ensures LoadProfile(DeleteProfile(s, name).value, name) == Err(NotFound(name))
    ensures other != name ==> LoadProfile(DeleteProfile(s, name).value, other) == LoadProfile(s, other)
  {
  }

  /** Reads one setting (`config[key]`, `undefined` when absent). */
  function GetValue(s: Store, key: string): (r: Option<Json.Value>)
    ensures r.Some? <==> key in s.config
    ensures r.Some? ==> r.value == s.config[key]
  {
    if key in s.config then Some(s.config[key]) else None
  }

  /** Writes one setting, keeping the others. */
  function SetValue(s: Store, key: string, v: Json.Value): (r: Store)
    ensures r.profiles == s.profiles
    ensures key in r.config && r.config[key] == v
    ensures forall k :: k != key ==> (k in r.config <==> k in s.config)
    ensures forall k :: k != key && k in s.config ==> r.config[k] == s.config[k]
  {
    s.(config := s.config[key := v])
  }

  /** A written setting reads back, and the other settings read as
      before. */
  lemma GetAfterSet(s: Store, key: string, v: Json.Value, other: string)
    ensures GetValue(SetValue(s, key, v), key) == Some(v)
    ensures other != key ==> GetValue(SetValue(s, key, v), other) == GetValue(s, other)
  {
  }

  /** Parses and saves an imported profile. `parsed` is the outcome of
      `JSON.parse`: `None` when the text is not JSON. */
  function ImportProfile(s: Store, name: string, parsed: Option<Profile>): (r: Result<Store>)
    ensures r.Err? <==> parsed.None?
    ensures r.Err? ==> r.message == "Invalid JSON format"
    ensures r.Ok? ==> r.value == SaveProfile(s, name, parsed.value)
  {
    if parsed.None? then Err("Invalid JSON format") else Ok(SaveProfile(s, name, parsed.value))
  }

  /** The profile `create` and `init` fall back on: the one the pointer
      names. A pointer to a missing profile, like no pointer, gives the empty
      profile, because the wizards ignore the error. */
  function DefaultProfile(s: Store): (r: Profile)
    ensures DefaultProfileName(s.config).Some? && DefaultProfileName(s.config).value in s.profiles ==>
      r == s.profiles[DefaultProfileName(s.config).value]
    ensures DefaultProfileName(s.config).None? || DefaultProfileName(s.config).value !in s.profiles ==>
      r == EmptyProfile
  {
    match DefaultProfileName(s.config)
    case Some(n) => (match LoadProfile(s, n) case Ok(p) => p case Err(_) => EmptyProfile)
    case None => EmptyProfile
  }

  /** The decimal text of 123. */
  lemma NumericPointerName()
    ensures NatToString(123) == "123"
  {
    assert NatToString(1) == "1";
    assert NatToString(12) == NatToString(1) + "2";
    assert NatToString(123) == NatToString(12) + "3";
  }

  /** A numeric `defaultProfile` of 123 makes the wizards load the saved
      profile `123`. */
  lemma NumericPointerFollowed(s: Store)
    requires PointerKey in s.config && s.config[PointerKey] == Json.Number(123)
    requires "123" in s.profiles
    ensures DefaultProfileName(s.config) == Some("123")
    ensures DefaultProfile(s) == s.profiles["123"]
  {
    NumericPointerName();
  }

  // ---------------------------------------------------------------------
  // Listing

  /** True iff `pat` occurs in `s` starting at `j`. */
  predicate At(s: string, pat: string, j: int) {
    0 <= j && j + |pat| <= |s| && s[j..j + |pat|] == pat
  }

  /** The first index at or after `from` where `pat` occurs in `s`, or -1
      when it occurs nowhere from there on. */
  function FindFrom(s: string, pat: string, from: nat): (r: int)
    ensures r == -1 || (from <= r && At(s, pat, r))
    ensures r == -1 ==> forall j :: from <= j ==> !At(s, pat, j)
    ensures r >= 0 ==> forall j :: from <= j < r ==> !At(s, pat, j)
    decreases |s| - from
  {
    if from + |pat| > |s| then -1
    else if s[from..from + |pat|] == pat then from
    else FindFrom(s, pat, from + 1)
  }

  /** `s.replace(pat, "")`: removes the first occurrence only, and leaves
      the text alone when there is none. */
  function RemoveFirst(s: string, pat: string): (r: string)
    ensures (forall j :: !At(s, pat, j)) ==> r == s
    ensures forall i :: At(s, pat, i) && (forall j :: 0 <= j < i ==> !At(s, pat, j)) ==>
      r == s[..i] + s[i + |pat|..]
  {
    var i := FindFrom(s, pat, 0);
    if i < 0 then s else s[..i] + s[i + |pat|..]
  }

  /** The profile names the directory listing shows: every `.json` file,
      with the first `.json` in its name removed. */
  function ListProfiles(files: seq<string>): (r: seq<string>)
    ensures |r| <= |files|
    ensures |r| == |files| <==> forall i :: 0 <= i < |files| ==> EndsWith(files[i], ".json")
    ensures (forall i :: 0 <= i < |files| ==> !EndsWith(files[i], ".json")) ==> r == []
    decreases |files|
  {
    if |files| == 0 then []
    else if EndsWith(files[0], ".json") then [RemoveFirst(files[0], ".json")] + ListProfiles(files[1..])
    else ListProfiles(files[1..])
  }

  /** Listing is a filter and a map: listing a concatenation lists each
      part in turn. */
  lemma {:induction false} ListProfilesConcat(a: seq<string>, b: seq<string>)
    ensures ListProfiles(a + b) == ListProfiles(a) + ListProfiles(b)
    decreases |a|
  {
    if |a| > 0 {
      assert (a + b)[1..] == a[1..] + b;
      ListProfilesConcat(a[1..], b);
    } else {
      assert a + b == b;
    }
  }

  /** A file that does not end in `.json` is not listed, wherever it is. */
  lemma ListProfilesSkips(a: seq<string>, f: string, b: seq<string>)
    requires !EndsWith(f, ".json")
    ensures ListProfiles(a + [f] + b) == ListProfiles(a + b)
  {
    assert ListProfiles([f]) == [] by {
      assert [f][1..] == [];
    }
    calc {
      ListProfiles(a + [f] + b);
      { ListProfilesConcat(a + [f], b); }
      ListProfiles(a + [f]) + ListProfiles(b);
      { ListProfilesConcat(a, [f]); }
      ListProfiles(a) + ListProfiles(b);
      { ListProfilesConcat(a, b); }
      ListProfiles(a + b);
    }
  }

  /** When the pattern's first character does not occur before `k` and the
      pattern sits at `k`, the search finds `k`. */
  lemma {:induction false} FindFromFirst(s: string, pat: string, from: nat, k: nat)
    requires |pat| > 0 && from <= k && k + |pat| <= |s| && s[k..k + |pat|] == pat
    requires forall j :: from <= j < k ==> s[j] != pat[0]
    ensures FindFrom(s, pat, from) == k
    decreases k - from
  {
    if from < k {
      assert s[from..from + |pat|][0] == s[from] != pat[0];
      FindFromFirst(s, pat, from + 1, k);
    }
  }

  /** A dot-free profile name survives the listing's suffix removal. */
  lemma ProfileFileName(name: string)
    requires '.' !in name
    ensures EndsWith(ProfileFile(name), ".json")
    ensures RemoveFirst(ProfileFile(name), ".json") == name
  {
    var f := ProfileFile(name);
    assert f[|name|..|name| + 5] == ".json";
    assert forall j :: 0 <= j < |name| ==> f[j] == name[j];
    FindFromFirst(f, ".json", 0, |name|);
    assert f[..|name|] == name;
  }

  /** Listing the files of dot-free profile names gives back the names, in
      directory order. */
  lemma {:induction false} ListProfilesRoundTrip(names: seq<string>, files: seq<string>)
    requires |files| == |names|
    requires forall i :: 0 <= i < |names| ==> '.' !in names[i] && files[i] == ProfileFile(names[i])
    ensures ListProfiles(files) == names
    decreases |names|
  {
    if |names| > 0 {
      ProfileFileName(names[0]);
      ListProfilesRoundTrip(names[1..], files[1..]);
    }
  }
}

=== FILE: prompts.dfy ===
/** What the `create` and `init` wizards share: the replies a user gives,
    the answers record the prompt library returns (a question that is not
    asked leaves its property undefined), the options as the commands merge
    them, the name check, the choice lists, the steps run after the files
    are written and the "get started" hint. */
module Prompts {

  import opened Wrappers
  import opened Text
  import opened Catalog
  import opened Options
  import Generator
  import Readme
  import PackageJson

  /** What the user answers to each question, were it asked. A list
      question only returns one of its choices; the name question repeats
      until `NameError` accepts the reply. */
  datatype Replies = Replies(
    name: string,
    language: string,
    framework: string,
    license: string,
    packageManager: string,
    readme: string,
    gitHooks: bool,
    git: bool,
    remoteRepo: bool,
    installDeps: bool,
    openInVSCode: bool)

  /** The record the prompt library returns: `None` for a question it did
      not ask. */
  datatype Answers = Answers(
    name: Option<string>,
    language: Option<string>,
    framework: Option<string>,
    license: Option<string>,
    packageManager: Option<string>,
    readme: Option<string>,
    gitHooks: Option<bool>,
    git: Option<bool>,
    remoteRepo: Option<bool>,
    installDeps: Option<bool>,
    openInVSCode: Option<bool>)

  /** The options as a command merges them, before the generator sees
      them: the properties the merge may leave `undefined` are options. */
  datatype Merged = Merged(
    name: Option<string>,
    language: Option<string>,
    framework: Option<string>,
    license: Option<string>,
    packageManager: string,
    readme: string,
    gitignore: bool,
    linters: seq<string>,
    gitHooks: bool,
    git: Option<bool>,
    remoteRepo: bool,
    openInVSCode: bool,
    installDeps: Option<bool>)

  /** The reply to a question, if the question is asked. */
  function Ask<T>(asked: bool, reply: T): (r: Option<T>)
    ensures r.Some? <==> asked
    ensures r.Some? ==> r.value == reply
  {
    if asked then Some(reply) else None
  }

  /** Which questions a wizard asks: each question's `when` condition. */
  datatype Asked = Asked(
    name: bool, language: bool, framework: bool, license: bool, packageManager: bool, readme: bool,
    gitHooks: bool, git: bool, remoteRepo: bool, installDeps: bool, openInVSCode: bool)

  /** The record the prompt library returns: the reply to every asked
      question, and nothing for the others. */
  function Answer(asked: Asked, replies: Replies): (r: Answers)
    ensures (r.name.Some? <==> asked.name) && (r.language.Some? <==> asked.language)
    ensures (r.framework.Some? <==> asked.framework) && (r.license.Some? <==> asked.license)
    ensures (r.packageManager.Some? <==> asked.packageManager) && (r.readme.Some? <==> asked.readme)
    ensures (r.gitHooks.Some? <==> asked.gitHooks) && (r.git.Some? <==> asked.git)
    ensures (r.remoteRepo.Some? <==> asked.remoteRepo) && (r.installDeps.Some? <==> asked.installDeps)
    ensures r.openInVSCode.Some? <==> asked.openInVSCode
    ensures (r.name.Some? ==> r.name.value == replies.name) && (r.language.Some? ==> r.language.value == replies.language)
    ensures (r.framework.Some? ==> r.framework.value == replies.framework) && (r.license.Some? ==> r.license.value == replies.license)
    ensures (r.git.Some? ==> r.git.value == replies.git) && (r.installDeps.Some? ==> r.installDeps.value == replies.installDeps)
  {
    Answers(
      Ask(asked.name, replies.name),
      Ask(asked.language, replies.language),
      Ask(asked.framework, replies.framework),
      Ask(asked.license, replies.license),
      Ask(asked.packageManager, replies.packageManager),
      Ask(asked.readme, replies.readme),
      Ask(asked.gitHooks, replies.gitHooks),
      Ask(asked.git, replies.git),
      Ask(asked.remoteRepo, replies.remoteRepo),
      Ask(asked.installDeps, replies.installDeps),
      Ask(asked.openInVSCode, replies.openInVSCode))
  }

  /** The options record the generator receives, when the merge left no
      property undefined. */
  function Complete(m: Merged): (r: Option<ProjectOptions>)
    ensures r.Some? <==> m.name.Some? && m.language.Some? && m.framework.Some? && m.license.Some?
                         && m.git.Some? && m.installDeps.Some?
    ensures r.Some? ==> r.value.language == m.language.value && r.value.framework == m.framework.value
                        && r.value.license == m.license.value && r.value.git == m.git.value
                        && r.value.installDeps == m.installDeps.value && r.value.linters == m.linters
  {
    if m.name.Some? && m.language.Some? && m.framework.Some? && m.license.Some? && m.git.Some? && m.installDeps.Some? then
      Some(ProjectOptions(m.name.value, m.language.value, m.framework.value, m.license.value, m.packageManager,
                          m.readme, m.gitignore, m.linters, m.gitHooks, m.git.value, m.remoteRepo,
                          m.openInVSCode, m.installDeps.value))
    else None
  }

  /** `['javascript', 'typescript'].includes(lang)` for a language that
      may be undefined. */
  predicate NodeLanguage(lang: Option<string>) {
    lang.Some? && IsJsTs(lang.value)
  }

  /** `['javascript', 'typescript', 'python'].includes(lang)`: the
      languages offered git hooks. */
  predicate HookLanguage(lang: Option<string>) {
    lang.Some? && (IsJsTs(lang.value) || lang.value == "python")
  }

  // ---------------------------------------------------------------------
  // The name question

  /** Every character is a letter, a digit, `_` or `-`. */
  predicate NameChars(s: string)
    decreases |s|
  {
    |s| == 0 || ((IsWordChar(s[0]) || s[0] == '-') && NameChars(s[1..]))
  }

  lemma {:induction false} NameCharsAll(s: string)
    ensures NameChars(s) <==> forall i :: 0 <= i < |s| ==> IsWordChar(s[i]) || s[i] == '-'
    decreases |s|
  {
    if |s| > 0 {
      NameCharsAll(s[1..]);
      assert forall i :: 1 <= i < |s| ==> s[i] == s[1..][i - 1];
    }
  }

  const NameMessage: string := "Project name can only contain letters, numbers, hyphens, and underscores"

  /** The name question's check: no message for a name of letters, digits,
      `-` and `_` (at least one), the explanation otherwise. */
  function NameError(input: string): (r: Option<string>)
    ensures r.None? <==> ValidName(input)
    ensures r.Some? ==> r.value == NameMessage
  {
    NameCharsAll(input);
    if |input| > 0 && NameChars(input) then None else Some(NameMessage)
  }

  // ---------------------------------------------------------------------
  // Choice lists

  /** `rows.filter(x => languages(x).includes(lang)).map(id)`: the ids of
      the table rows that list `lang`, in table order. */
  function IdsFor<T>(rows: seq<T>, id: T -> string, languages: T -> seq<string>, lang: string): (r: seq<string>)
    ensures |r| <= |rows|
    ensures forall x :: x in r <==> exists k :: 0 <= k < |rows| && id(rows[k]) == x && lang in languages(rows[k])
    decreases |rows|
  {
    if |rows| == 0 then []
    else
      var rest := IdsFor(rows[1..], id, languages, lang);
      if lang in languages(rows[0]) then [id(rows[0])] + rest else rest
  }

  /** The framework question's choices: `none` first, then the frameworks
      of the chosen language. */
  function FrameworkChoices(lang: string): seq<string> {
    ["none"] + IdsFor(Frameworks, (f: Framework) => f.id, (f: Framework) => f.languages, lang)
  }

  function PackageManagerChoices(lang: string): seq<string> {
    IdsFor(PackageManagers, (pm: PackageManager) => pm.id, (pm: PackageManager) => pm.languages, lang)
  }

  /** `none` leads the framework choices, and every other choice is a
      framework the table lists for the language. */
  lemma FrameworkChoicesSupported(lang: string)
    ensures FrameworkChoices(lang)[0] == "none"
    ensures forall c :: c in FrameworkChoices(lang) <==> c == "none" || FrameworkSupports(c, lang)
  {
  }

  /** The package-manager choices are the managers the table lists for the
      language; for JavaScript each has its own install command. */
  lemma PackageManagerChoicesServe(lang: string)
    ensures forall c :: c in PackageManagerChoices(lang) <==>
      exists k :: 0 <= k < |PackageManagers| && PackageManagers[k].id == c && lang in PackageManagers[k].languages
    ensures lang == "javascript" ==> forall c :: c in PackageManagerChoices(lang) ==> StartsWith(PmInstall(c), c)
  {
    if lang == "javascript" {
      PmInstallCoversCatalog();
      forall c | c in PackageManagerChoices(lang)
        ensures StartsWith(PmInstall(c), c)
      {
        var k :| 0 <= k < |PackageManagers| && PackageManagers[k].id == c && lang in PackageManagers[k].languages;
      }
    }
  }

  // ---------------------------------------------------------------------
  // After the files are written

  /** A step a command runs once the files are written. */
  datatype Step = InitGit | Install(command: string) | CreateRemote(repo: string) | OpenEditor

  /** Steps in the order `rank` gives, none repeated. */
  predicate OrderedBy(rank: Step -> nat, r: seq<Step>) {
    forall i, j :: 0 <= i < j < |r| ==> rank(r[i]) < rank(r[j])
  }

  /** `rest` with `s` in front when `cond` holds; `s` ranks before every
      step of `rest`. */
  function Then(rank: Step -> nat, cond: bool, s: Step, rest: seq<Step>): (r: seq<Step>)
    requires OrderedBy(rank, rest) && forall i :: 0 <= i < |rest| ==> rank(s) < rank(rest[i])
    ensures OrderedBy(rank, r)
    ensures forall i :: 0 <= i < |r| ==> rank(s) <= rank(r[i])
    ensures forall x :: x in r <==> (cond && x == s) || x in rest
  {
    if cond then [s] + rest else rest
  }

  /** The repository name `gh repo create` receives: lower case, with every
      character outside `[a-z0-9_-]` turned into `-`. */
  function SafeName(name: string): (r: string)
    ensures |r| == |name|
    ensures forall i :: 0 <= i < |r| ==> IsRepoChar(r[i])
    ensures forall i :: 0 <= i < |r| ==> (IsRepoChar(LowerChar(name[i])) <==> r[i] == LowerChar(name[i]))
    ensures forall i :: 0 <= i < |r| && !IsRepoChar(LowerChar(name[i])) ==> r[i] == '-'
    decreases |name|
  {
    if |name| == 0 then ""
    else
      var c := LowerChar(name[0]);
      [if IsRepoChar(c) then c else '-'] + SafeName(name[1..])
  }

  predicate IsRepoChar(c: char) {
    IsAsciiLower(c) || IsDigit(c) || c == '-' || c == '_'
  }

  /** The repository name differs from the manifest name only in keeping
      `_`. */
  lemma SafeNameAgainstManifest(name: string)
    ensures forall i :: 0 <= i < |name| ==>
      PackageJson.SanitizeName(name)[i] == (if SafeName(name)[i] == '_' then '-' else SafeName(name)[i])
  {
    var safe, manifest := SafeName(name), PackageJson.SanitizeName(name);
    forall i | 0 <= i < |name|
      ensures manifest[i] == (if safe[i] == '_' then '-' else safe[i])
    {
      SafeCharAgainstManifest(LowerChar(name[i]), safe[i], manifest[i]);
    }
  }

  lemma SafeCharAgainstManifest(c: char, safe: char, manifest: char)
    requires IsRepoChar(c) <==> safe == c
    requires !IsRepoChar(c) ==> safe == '-'
    requires PackageJson.IsNameChar(c) <==> manifest == c
    requires PackageJson.IsNameChar(manifest)
    requires !PackageJson.IsNameChar(c) ==> manifest == '-'
    ensures manifest == (if safe == '_' then '-' else safe)
  {
  }

  /** A valid project name only has its letters lowered. */
  lemma SafeNameOfValid(name: string)
    requires ValidName(name)
    ensures SafeName(name) == Lower(name)
  {
    var safe := SafeName(name);
    forall i | 0 <= i < |name|
      ensures safe[i] == Lower(name)[i]
    {
      assert IsWordChar(name[i]) || name[i] == '-';
      assert IsRepoChar(LowerChar(name[i]));
    }
  }

  /** The "get started" command, as the commands print it. */
  function RunHintAsWritten(language: string, packageManager: string): (r: Option<string>)
    ensures r.Some? <==> language in ["javascript", "typescript", "python", "go", "rust"]
  {
    if IsJsTs(language) then Some(packageManager + " " + (if packageManager == "npm" then "run " else "") + "dev")
    else if language == "python" then Some("python main.py")
    else if language == "go" then Some("go run main.go")
    else if language == "rust" then Some("cargo run")
    else None
  }

  /** The "get started" command with Python's entry at the path the
      generator writes it to. */
  function RunHint(language: string, packageManager: string): (r: Option<string>)
    ensures r.Some? <==> language in ["javascript", "typescript", "python", "go", "rust"]
    ensures language != "python" ==> r == RunHintAsWritten(language, packageManager)
  {
    if language == "python" then Some("python src/main.py") else RunHintAsWritten(language, packageManager)
  }

  /** As printed, the Python hint runs `main.py`, a file the generator does
      not write: its entry is `src/main.py`, which the README also runs. */
  lemma RunHintMissesPythonEntry(packageManager: string, o: ProjectOptions)
    requires o.language == "python"
    ensures RunHintAsWritten("python", packageManager) == Some("python main.py")
    ensures Generator.FileAt("main.py") == None
    ensures Generator.EntryFile("python") == Some(Generator.MainPy) && Generator.MainPy in Generator.ProjectFiles(o)
    ensures Generator.PathOf(Generator.MainPy) == "src/main.py"
    ensures Readme.DevCommand("python", "none") == "python src/main.py"
  {
    Generator.EntryWritten(o);
  }

  /** The corrected hint agrees with the project: for Python and Go it runs
      the entry file the generator writes, for Rust and Python it is the
      README's command, and for JavaScript and TypeScript it is the README's
      run prefix followed by `dev`, a script every generated manifest
      has. */
  lemma RunHintAgrees(language: string, packageManager: string)
    ensures language == "python" ==> RunHint(language, packageManager) == Some("python " + Generator.PathOf(Generator.MainPy))
    ensures language == "go" ==> RunHint(language, packageManager) == Some("go run " + Generator.PathOf(Generator.MainGo))
    ensures language in ["python", "go", "rust"] ==> RunHint(language, packageManager) == Some(Readme.DevCommand(language, "none"))
    ensures IsJsTs(language) ==> RunHint(language, packageManager) == Some(Readme.RunPrefix(packageManager) + " dev")
  {
    assert "python " + "src/main.py" == "python src/main.py";
    assert "go run " + "main.go" == "go run main.go";
    if IsJsTs(language) {
      if packageManager == "npm" {
        assert "npm" + " " + "run " + "dev" == "npm run" + " dev";
      } else {
        assert packageManager + " " + "" + "dev" == packageManager + " dev";
      }
    }
  }

  /** Every generated manifest has the `dev` script the JavaScript hint
      runs. */
  lemma RunHintScriptExists(name: string, framework: string, language: string, linters: seq<string>)
    ensures "dev" in PackageJson.GeneratePackageJson(name, framework, language, linters).scripts
  {
    PackageJson.GeneratedScripts(name, framework, language, linters);
  }
}

=== FILE: readme.dfy ===
/** The README generator: three styles (standard, minimal, AI-flavoured)
    assembled from fixed text and a handful of per-language lookups. Every
    README is modelled as its list of lines joined with a line feed, which is
    what the template literals of the source spell out. */
module Readme {

  import opened Wrappers
  import opened Text
  import opened Catalog
  import opened Options

  // ---------------------------------------------------------------------
  // Pieces shared by the styles

  /** What the descriptions call the project: the framework when there is
      one, else the language. */
  function Subject(language: string, framework: string): string {
    if framework != "none" then framework else language
  }

  /** `framework !== 'none' ? joiner + framework : ''`. */
  function WithFramework(joiner: string, framework: string): string {
    if framework != "none" then joiner + framework else ""
  }

  /** A quick-start command of the minimal style: the Node command for the
      Node languages, a placeholder comment otherwise. */
  function QuickStartLine(language: string, command: string): string {
    if IsJsTs(language) then command else "# See documentation"
  }

  /** The languages the per-language lookups know. */
  const KnownLanguages: seq<string> :=
    ["javascript", "typescript", "python", "go", "rust", "ruby", "php", "csharp"]

  // ---------------------------------------------------------------------
  // Badges

  /** The badge colour of a language; unknown languages (and Rust) get
      black. */
  function LanguageColor(language: string): string {
    match language
    case "javascript" => "F7DF1E"
    case "typescript" => "3178C6"
    case "python" => "3776AB"
    case "go" => "00ADD8"
    case "rust" => "000000"
    case "ruby" => "CC342D"
    case "php" => "777BB4"
    case "csharp" => "239120"
    case _ => "000000"
  }

  /** The image of a badge: its alternative text, then its link. */
  function LanguageBadge(language: string): string {
    ("![" + language + "]")
    + ("(https://img.shields.io/badge/" + language + "-" + LanguageColor(language)
       + "?style=for-the-badge&logo=" + language + "&logoColor=white)")
  }

  function FrameworkBadge(framework: string): string {
    ("![" + framework + "]")
    + ("(https://img.shields.io/badge/" + framework
       + "-000000?style=for-the-badge&logo=" + framework + "&logoColor=white)")
  }

  function LicenseBadge(license: string): string {
    "![License](https://img.shields.io/badge/" + ("license-" + license + "-blue") + "?style=for-the-badge)"
  }

  const BuildBadge: string :=
    "![Build Status](https://img.shields.io/badge/build-passing-brightgreen?style=for-the-badge)"

  /** The badges in the order they are pushed: language, the framework when
      there is one, license, build status. */
  function BadgeList(language: string, framework: string, license: string): (r: seq<string>)
    ensures |r| == if framework != "none" then 4 else 3
    ensures r[0] == LanguageBadge(language)
    ensures framework != "none" ==> r[1] == FrameworkBadge(framework)
    ensures r[|r| - 2] == LicenseBadge(license) && r[|r| - 1] == BuildBadge
  {
    [LanguageBadge(language)]
    + (if framework != "none" then [FrameworkBadge(framework)] else [])
    + [LicenseBadge(license), BuildBadge]
  }

  /** `generateBadges`: the badges separated by single spaces. The project
      name is accepted and not used, as in the source. */
  function Badges(name: string, language: string, framework: string, license: string): string {
    Join(BadgeList(language, framework, license), " ")
  }

  // ---------------------------------------------------------------------
  // Per-language lookups

  function FileExtension(language: string): string {
    match language
    case "javascript" => "js"
    case "typescript" => "ts"
    case "python" => "py"
    case "go" => "go"
    case "rust" => "rs"
    case "ruby" => "rb"
    case "php" => "php"
    case "csharp" => "cs"
    case _ => "txt"
  }

  /** The manifest file the project-structure listing names. C# has none and
      falls back to `config`; the package manager is not consulted. */
  function ConfigFile(language: string, packageManager: string): string {
    if IsJsTs(language) then "package.json"
    else if language == "python" then "pyproject.toml"
    else if language == "go" then "go.mod"
    else if language == "rust" then "Cargo.toml"
    else if language == "ruby" then "Gemfile"
    else if language == "php" then "composer.json"
    else "config"
  }

  /** A shell code block: the fence lines around `body`. */
  function ShellBlock(body: seq<string>): string {
    Join(["```bash"] + body + ["```"], "\n")
  }

  const CloneLines: seq<string> := [
    "# Clone the repository",
    "git clone https://github.com/yourusername/projectname.git",
    "cd projectname",
    ""
  ]

  function InstallInstructions(language: string, packageManager: string): string {
    if IsJsTs(language) then
      ShellBlock(CloneLines + ["# Install dependencies", PmInstall(packageManager)])
    else if language == "python" then
      ShellBlock(CloneLines + [
        "# Create virtual environment",
        "python -m venv venv",
        "source venv/bin/activate  # On Windows: venv\\Scripts\\activate",
        "",
        "# Install dependencies",
        "pip install -r requirements.txt"])
    else if language == "go" then
      ShellBlock(CloneLines + ["# Download dependencies", "go mod download"])
    else if language == "rust" then
      ShellBlock(CloneLines + ["# Build the project", "cargo build"])
    else "# See documentation for installation instructions"
  }

  /** How scripts are run: `npm run` for npm, the manager's own name for any
      other value. */
  function RunPrefix(packageManager: string): string {
    if packageManager == "npm" then "npm run" else packageManager
  }

  function NodeRunLines(run: string): seq<string> {
    [
      "# Development mode", run + " dev", "",
      "# Production build", run + " build", "",
      "# Start production server", run + " start"
    ]
  }

  function RunInstructions(language: string, framework: string, packageManager: string): string {
    if IsJsTs(language) then ShellBlock(NodeRunLines(RunPrefix(packageManager)))
    else if language == "python" then
      if framework == "flask" || framework == "fastapi" then
        ShellBlock([
          "# Run the application", "python src/main.py", "",
          "# Or with uvicorn (FastAPI)", "uvicorn src.main:app --reload"])
      else
        ShellBlock(["# Run the application", "python src/main.py"])
    else if language == "go" then
      ShellBlock([
        "# Run the application", "go run main.go", "",
        "# Build and run", "go build && ./projectname"])
    else if language == "rust" then
      ShellBlock([
        "# Run the application", "cargo run", "",
        "# Build for release", "cargo build --release"])
    else "# See documentation for usage instructions"
  }

  /** The test command. For the Node languages both branches of the source
      come to `<manager> test`. */
  function TestCommand(language: string, packageManager: string): (r: string)
    ensures IsJsTs(language) ==> r == packageManager + " test"
  {
    if IsJsTs(language) then
      if packageManager == "npm" then "npm test" else packageManager + " test"
    else if language == "python" then "pytest"
    else if language == "go" then "go test ./..."
    else if language == "rust" then "cargo test"
    else "# Run tests"
  }

  function Prerequisites(language: string): string {
    match language
    case "javascript" => "Node.js (v16 or higher)"
    case "typescript" => "Node.js (v16 or higher)"
    case "python" => "Python 3.8+"
    case "go" => "Go 1.19+"
    case "rust" => "Rust 1.70+"
    case "ruby" => "Ruby 3.0+"
    case "php" => "PHP 8.0+"
    case "csharp" => ".NET 6.0+"
    case _ => "Required runtime"
  }

  /** The install command of the AI style; C# is missing from its table. */
  function InstallCommand(language: string): string {
    match language
    case "javascript" => "npm install"
    case "typescript" => "npm install"
    case "python" => "pip install -r requirements.txt"
    case "go" => "go mod download"
    case "rust" => "cargo build"
    case "ruby" => "bundle install"
    case "php" => "composer install"
    case _ => "# Install dependencies"
  }

  function DevCommand(language: string, framework: string): string {
    if IsJsTs(language) then "npm run dev"
    else if language == "python" then
      if framework == "flask" then "flask run"
      else if framework == "fastapi" then "uvicorn src.main:app --reload"
      else "python src/main.py"
    else if language == "go" then "go run main.go"
    else if language == "rust" then "cargo run"
    else "# Start development server"
  }

  // ---------------------------------------------------------------------
  // The three styles. Runs of fixed lines are named constants; each README
  // is its lines joined with line feeds.

  const StandardFeatures: seq<string> := [
    "",
    "## \U{1F680} Features",
    "",
    "- **Lightning Fast Setup**: Zero to production-ready in seconds",
    "- **Battle-Tested Structure**: Industry-standard project organization",
    "- **Pre-configured Tools**: Linters, formatters, and git hooks ready to go"
  ]

  const StandardSourceDir: seq<string> := [
    "\U{251C}\U{2500}\U{2500} src/              # Source code"
  ]

  const StandardTree: seq<string> := [
    "\U{2502}   \U{2514}\U{2500}\U{2500} ...",
    "\U{251C}\U{2500}\U{2500} tests/            # Test files",
    "\U{251C}\U{2500}\U{2500} docs/             # Documentation",
    "\U{251C}\U{2500}\U{2500} README.md         # Project documentation"
  ]

  const StandardContributing: seq<string> := [
    "```",
    "",
    "## \U{1F91D} Contributing",
    "",
    "Contributions are welcome! Please feel free to submit a Pull Request.",
    "",
    "1. Fork the project",
    "2. Create your feature branch (`git checkout -b feature/AmazingFeature`)",
    "3. Commit your changes (`git commit -m 'Add some AmazingFeature'`)",
    "4. Push to the branch (`git push origin feature/AmazingFeature`)",
    "5. Open a Pull Request",
    "",
    "## \U{1F4C4} License",
    ""
  ]

  const StandardAcknowledgments: seq<string> := [
    "",
    "## \U{1F64F} Acknowledgments",
    "",
    "- Built with [BlazeStart](https://github.com/yourusername/blazestart) \U{26A1}"
  ]

  const StandardContact: seq<string> := [
    "",
    "## \U{1F4DE} Contact",
    "",
    "Your Name - [@yourtwitter](https://twitter.com/yourtwitter)",
    ""
  ]

  const StandardFooter: seq<string> := [
    "",
    "---",
    "",
    "<p align=\"center\">Made with \U{2764}\U{FE0F} and BlazeStart</p>"
  ]

  /** The fixed runs of lines of the standard README, gathered so that the
      properties below can be stated for any wording of them. */
  datatype StandardProse = StandardProse(
    features: seq<string>, sourceDir: seq<string>, tree: seq<string>, contributing: seq<string>,
    acknowledgments: seq<string>, contact: seq<string>, footer: seq<string>)

  const StandardText: StandardProse := StandardProse(
    StandardFeatures, StandardSourceDir, StandardTree, StandardContributing,
    StandardAcknowledgments, StandardContact, StandardFooter)

  /** The values the standard README interpolates that come from the
      per-language lookups. */
  datatype StandardParts = StandardParts(
    badges: string, install: string, run: string, extension: string, configFile: string, test: string)

  function StandardPartsOf(name: string, language: string, framework: string, license: string, packageManager: string): StandardParts {
    StandardParts(
      Badges(name, language, framework, license),
      InstallInstructions(language, packageManager),
      RunInstructions(language, framework, packageManager),
      FileExtension(language),
      ConfigFile(language, packageManager),
      TestCommand(language, packageManager))
  }

  /** The lines of the standard README around the given fixed runs and
      looked-up parts. */
  function StandardLinesWith(p: StandardProse, q: StandardParts, name: string, language: string, framework: string, license: string): seq<string> {
    [
      "# " + name,
      "",
      q.badges,
      "", "## \U{1F4CB} Description", "",
      "A " + Subject(language, framework) + " project scaffolded with BlazeStart \U{26A1}"
    ]
    + p.features
    + [
      "- **Modern Stack**: Built with " + language + WithFramework(" and ", framework),
      "", "## \U{1F4E6} Installation", "",
      q.install,
      "", "## \U{1F527} Usage", "",
      q.run,
      "", "## \U{1F4C1} Project Structure", "", "```",
      name + "/"
    ]
    + p.sourceDir
    + ["\U{2502}   \U{251C}\U{2500}\U{2500} index." + q.extension + "    # Entry point"]
    + p.tree
    + [
      "\U{251C}\U{2500}\U{2500} LICENSE           # " + Upper(license) + " license",
      "\U{2514}\U{2500}\U{2500} " + q.configFile,
      "```", "", "## \U{1F9EA} Testing", "", "```bash",
      q.test
    ]
    + p.contributing
    + ["This project is licensed under the " + Upper(license) + " License - see the [LICENSE](LICENSE) file for details."]
    + p.acknowledgments
    + ["- Powered by " + language + WithFramework(" and ", framework)]
    + p.contact
    + ["Project Link: [https://github.com/yourusername/" + name + "](https://github.com/yourusername/" + name + ")"]
    + p.footer
  }

  const MinimalQuickStartHead: seq<string> := [
    "",
    "## Quick Start",
    "",
    "```bash",
    "# Install dependencies"
  ]

  const MinimalClosing: seq<string> := [
    "```",
    "",
    "## License",
    "",
    "See LICENSE file for details."
  ]

  /** The lines of the minimal README. */
  function MinimalLines(name: string, language: string, framework: string): seq<string> {
    [
      "# " + name,
      "",
      "A " + Subject(language, framework) + " project."
    ]
    + MinimalQuickStartHead
    + [
      QuickStartLine(language, "npm install"),
      "", "# Run the project",
      QuickStartLine(language, "npm start")
    ]
    + MinimalClosing
  }

  const AiFeatures: seq<string> := [
    "",
    "## \U{1F4A1} Key Features",
    "",
    "### Core Capabilities",
    "- **High Performance**: Optimized for speed and efficiency",
    "- **Scalable Architecture**: Built to grow with your needs",
    "- **Developer Friendly**: Clean code, great documentation",
    "- **Production Ready**: Battle-tested and reliable",
    "",
    "### Technical Highlights"
  ]

  const AiQuickStart: seq<string> := [
    "- CI/CD ready",
    "- Docker support",
    "",
    "## \U{1F680} Quick Start",
    "",
    "### Prerequisites"
  ]

  const AiInstallation: seq<string> := [
    "- Git",
    "",
    "### Installation",
    "",
    "```bash",
    "# Clone the repository"
  ]

  const AiArchitecture: seq<string> := [
    "```",
    "",
    "## \U{1F3D7}\U{FE0F} Architecture",
    "",
    "This project follows industry best practices:",
    "- **Clean Architecture**: Separation of concerns",
    "- **SOLID Principles**: Maintainable and extensible code",
    "- **Design Patterns**: Proven solutions to common problems",
    "",
    "## \U{1F9EA} Testing",
    "",
    "```bash",
    "# Run tests"
  ]

  const AiClosing: seq<string> := [
    "```",
    "",
    "## \U{1F4C8} Performance",
    "",
    "- \U{26A1} Lightning fast startup",
    "- \U{1F3AF} Optimized bundle size",
    "- \U{1F504} Efficient state management",
    "- \U{1F4E6} Smart code splitting",
    "",
    "## \U{1F510} Security",
    "",
    "- Regular dependency updates",
    "- Security best practices",
    "- Input validation",
    "- Error handling",
    "",
    "## \U{1F91D} Contributing",
    "",
    "We love contributions! See [CONTRIBUTING.md](CONTRIBUTING.md) for guidelines.",
    "",
    "## \U{1F4DC} License",
    "",
    "Licensed under the terms specified in the LICENSE file.",
    "",
    "---",
    "",
    "<div align=\"center\">",
    "  <b>Built with BlazeStart \U{26A1}</b><br>",
    "  <sub>The fastest way to start a new project</sub>",
    "</div>"
  ]

  /** The fixed runs of lines of the AI-flavoured README. */
  datatype AiProse = AiProse(
    features: seq<string>, quickStart: seq<string>, installation: seq<string>,
    architecture: seq<string>, closing: seq<string>)

  const AiText: AiProse := AiProse(AiFeatures, AiQuickStart, AiInstallation, AiArchitecture, AiClosing)

  /** The values the AI-flavoured README interpolates that come from the
      per-language lookups; its test command always assumes npm. */
  datatype AiParts = AiParts(prerequisites: string, install: string, dev: string, test: string)

  function AiPartsOf(language: string, framework: string): AiParts {
    AiParts(Prerequisites(language), InstallCommand(language), DevCommand(language, framework), TestCommand(language, "npm"))
  }

  /** The lines of the AI-flavoured README around the given fixed runs and
      looked-up parts. */
  function AiLinesWith(p: AiProse, q: AiParts, name: string, language: string, framework: string): seq<string> {
    [
      "# " + name + " \U{1F680}",
      "",
      "> An intelligent " + Subject(language, framework) + " application built for modern development",
      "", "## \U{1F3AF} Mission", "",
      "This project leverages the power of " + language + WithFramework(" with ", framework) + " to deliver exceptional performance and developer experience."
    ]
    + p.features
    + ["- Modern " + language + " implementation", (if framework != "none" then "- " + framework + " framework integration\n" else "") + "- Comprehensive testing suite"]
    + p.quickStart
    + ["- " + q.prerequisites]
    + p.installation
    + [
      "git clone https://github.com/yourusername/" + name + ".git",
      "", "# Navigate to project",
      "cd " + name,
      "", "# Install dependencies",
      q.install,
      "", "# Start development server",
      q.dev
    ]
    + p.architecture
    + [
      q.test,
      "", "# Run with coverage",
      q.test + " --coverage"
    ]
    + p.closing
  }


  function StandardReadme(name: string, language: string, framework: string, license: string, packageManager: string): (r: string)
    ensures '\n' !in name ==> HeadLine(r) == "# " + name
    ensures Contains(r, Subject(language, framework))
  {
    StandardTitled(name, language, framework, license, packageManager);
    Join(StandardLinesWith(StandardText, StandardPartsOf(name, language, framework, license, packageManager), name, language, framework, license), "\n")
  }

  function MinimalReadme(name: string, language: string, framework: string): (r: string)
    ensures '\n' !in name ==> HeadLine(r) == "# " + name
    ensures Contains(r, Subject(language, framework))
  {
    MinimalTitled(name, language, framework);
    Join(MinimalLines(name, language, framework), "\n")
  }

  function AiReadme(name: string, language: string, framework: string): (r: string)
    ensures '\n' !in name ==> HeadLine(r) == "# " + name + " \U{1F680}"
    ensures Contains(r, Subject(language, framework))
  {
    AiTitled(name, language, framework);
    Join(AiLinesWith(AiText, AiPartsOf(language, framework), name, language, framework), "\n")
  }

  /** `generateReadme`: `minimal` and `ai` select their styles; every other
      value, including an unknown one, selects the standard style. Every
      style titles the README with the project name, the AI style adding a
      rocket, and names what the project is built on. */
  function GenerateReadme(o: ProjectOptions): (r: string)
    ensures '\n' !in o.name && o.readme != "ai" ==> HeadLine(r) == "# " + o.name
    ensures '\n' !in o.name && o.readme == "ai" ==> HeadLine(r) == "# " + o.name + " \U{1F680}"
    ensures Contains(r, Subject(o.language, o.framework))
  {
    if o.readme == "minimal" then MinimalReadme(o.name, o.language, o.framework)
    else if o.readme == "ai" then AiReadme(o.name, o.language, o.framework)
    else StandardReadme(o.name, o.language, o.framework, o.license, o.packageManager)
  }

  lemma MinimalTitled(name: string, language: string, framework: string)
    ensures '\n' !in name ==> HeadLine(Join(MinimalLines(name, language, framework), "\n")) == "# " + name
    ensures Contains(Join(MinimalLines(name, language, framework), "\n"), Subject(language, framework))
  {
    var lines := MinimalLines(name, language, framework);
    LineShown(lines, "A " + Subject(language, framework) + " project.", "A ", Subject(language, framework), " project.");
    if '\n' !in name {
      FirstLine(lines);
    }
  }

  lemma AiTitled(name: string, language: string, framework: string)
    ensures var r := Join(AiLinesWith(AiText, AiPartsOf(language, framework), name, language, framework), "\n");
      && ('\n' !in name ==> HeadLine(r) == "# " + name + " \U{1F680}")
      && Contains(r, Subject(language, framework))
  {
    AiSubjectWith(AiText, AiPartsOf(language, framework), name, language, framework);
    if '\n' !in name {
      AiTitleWith(AiText, AiPartsOf(language, framework), name, language, framework);
    }
  }

  lemma StandardTitled(name: string, language: string, framework: string, license: string, packageManager: string)
    ensures var r := Join(StandardLinesWith(StandardText, StandardPartsOf(name, language, framework, license, packageManager), name, language, framework, license), "\n");
      && ('\n' !in name ==> HeadLine(r) == "# " + name)
      && Contains(r, Subject(language, framework))
  {
    var q := StandardPartsOf(name, language, framework, license, packageManager);
    StandardSubjectWith(StandardText, q, name, language, framework, license);
    if '\n' !in name {
      StandardTitleWith(StandardText, q, name, language, framework, license);
    }
  }

  // ---------------------------------------------------------------------
  // Properties. Each is first proved for any fixed wording and any looked-up
  // parts (the `...With` lemmas), then read off for the actual text.

  /** The first line of a joined text is its first piece, when that piece
      holds no line feed. */
  lemma FirstLine(lines: seq<string>)
    requires |lines| >= 2 && '\n' !in lines[0]
    ensures HeadLine(Join(lines, "\n")) == lines[0]
  {
    assert Join(lines, "\n") == lines[0] + ['\n'] + Join(lines[1..], "\n");
    SplitAfter(lines[0], '\n', Join(lines[1..], "\n"));
  }

  /** A line shown in a joined text, and anything inside that line, occurs
      in the text. */
  lemma LineShown(lines: seq<string>, line: string, a: string, x: string, b: string)
    requires line in lines && line == a + x + b
    ensures Contains(Join(lines, "\n"), x)
  {
    JoinContainsMember(lines, "\n", line);
    ContainsInfix(a, x, b);
    ContainsTrans(Join(lines, "\n"), line, x);
  }

  lemma StandardTitleWith(p: StandardProse, q: StandardParts, name: string, language: string, framework: string, license: string)
    requires '\n' !in name
    ensures HeadLine(Join(StandardLinesWith(p, q, name, language, framework, license), "\n")) == "# " + name
  {
    FirstLine(StandardLinesWith(p, q, name, language, framework, license));
  }

  lemma StandardSubjectWith(p: StandardProse, q: StandardParts, name: string, language: string, framework: string, license: string)
    ensures Contains(Join(StandardLinesWith(p, q, name, language, framework, license), "\n"), Subject(language, framework))
  {
    LineShown(StandardLinesWith(p, q, name, language, framework, license),
      "A " + Subject(language, framework) + " project scaffolded with BlazeStart \U{26A1}",
      "A ", Subject(language, framework), " project scaffolded with BlazeStart \U{26A1}");
  }

  lemma StandardSetupShownWith(p: StandardProse, q: StandardParts, name: string, language: string, framework: string, license: string)
    ensures var r := Join(StandardLinesWith(p, q, name, language, framework, license), "\n");
      Contains(r, q.badges) && Contains(r, q.install)
  {
    var lines := StandardLinesWith(p, q, name, language, framework, license);
    JoinContainsMember(lines, "\n", q.badges);
    JoinContainsMember(lines, "\n", q.install);
  }

  lemma StandardUsageShownWith(p: StandardProse, q: StandardParts, name: string, language: string, framework: string, license: string)
    ensures var r := Join(StandardLinesWith(p, q, name, language, framework, license), "\n");
      Contains(r, q.run) && Contains(r, q.test)
  {
    var lines := StandardLinesWith(p, q, name, language, framework, license);
    JoinContainsMember(lines, "\n", q.run);
    JoinContainsMember(lines, "\n", q.test);
  }

  /** The standard README opens with the line `# <name>`, names what the
      project is built on, and shows the badges, the install and run
      instructions and the test command for the chosen manager. */
  lemma StandardContents(name: string, language: string, framework: string, license: string, packageManager: string)
    requires '\n' !in name
    ensures var r := StandardReadme(name, language, framework, license, packageManager);
      && HeadLine(r) == "# " + name
      && Contains(r, Subject(language, framework))
      && Contains(r, Badges(name, language, framework, license))
      && Contains(r, InstallInstructions(language, packageManager))
      && Contains(r, RunInstructions(language, framework, packageManager))
      && Contains(r, TestCommand(language, packageManager))
  {
    var q := StandardPartsOf(name, language, framework, license, packageManager);
    StandardTitleWith(StandardText, q, name, language, framework, license);
    StandardSubjectWith(StandardText, q, name, language, framework, license);
    StandardSetupShownWith(StandardText, q, name, language, framework, license);
    StandardUsageShownWith(StandardText, q, name, language, framework, license);
  }

  lemma AiTitleWith(p: AiProse, q: AiParts, name: string, language: string, framework: string)
    requires '\n' !in name
    ensures HeadLine(Join(AiLinesWith(p, q, name, language, framework), "\n")) == "# " + name + " \U{1F680}"
  {
    FirstLine(AiLinesWith(p, q, name, language, framework));
  }

  lemma AiSubjectWith(p: AiProse, q: AiParts, name: string, language: string, framework: string)
    ensures Contains(Join(AiLinesWith(p, q, name, language, framework), "\n"), Subject(language, framework))
  {
    LineShown(AiLinesWith(p, q, name, language, framework),
      "> An intelligent " + Subject(language, framework) + " application built for modern development",
      "> An intelligent ", Subject(language, framework), " application built for modern development");
  }

  lemma AiPartsShownWith(p: AiProse, q: AiParts, name: string, language: string, framework: string)
    ensures var r := Join(AiLinesWith(p, q, name, language, framework), "\n");
      Contains(r, q.prerequisites) && Contains(r, q.install) && Contains(r, q.dev) && Contains(r, q.test)
  {
    var lines := AiLinesWith(p, q, name, language, framework);
    LineShown(lines, "- " + q.prerequisites, "- ", q.prerequisites, "");
    JoinContainsMember(lines, "\n", q.install);
    JoinContainsMember(lines, "\n", q.dev);
    JoinContainsMember(lines, "\n", q.test);
  }

  /** The AI-flavoured README puts a rocket after the name on its title
      line, names what the project is built on, and shows the prerequisites
      and the install, development and test commands of the language; the
      test command is npm's whatever the chosen manager. */
  lemma AiContents(name: string, language: string, framework: string)
    requires '\n' !in name
    ensures var r := AiReadme(name, language, framework);
      && HeadLine(r) == "# " + name + " \U{1F680}"
      && Contains(r, Subject(language, framework))
      && Contains(r, Prerequisites(language))
      && Contains(r, InstallCommand(language))
      && Contains(r, DevCommand(language, framework))
      && Contains(r, TestCommand(language, "npm"))
  {
    var q := AiPartsOf(language, framework);
    AiTitleWith(AiText, q, name, language, framework);
    AiSubjectWith(AiText, q, name, language, framework);
    AiPartsShownWith(AiText, q, name, language, framework);
  }

  /** The minimal README, split into lines, gives back exactly the lines it
      was built from; its title line is `# <name>` and its two quick-start
      commands are the Node commands for the Node languages and a
      placeholder for every other language. */
  lemma MinimalQuickStart(name: string, language: string, framework: string)
    requires '\n' !in name && '\n' !in Subject(language, framework)
    ensures Split(MinimalReadme(name, language, framework), '\n') == MinimalLines(name, language, framework)
    ensures var lines := Split(MinimalReadme(name, language, framework), '\n');
      && |lines| == 17
      && lines[0] == "# " + name
      && lines[8] == (if IsJsTs(language) then "npm install" else "# See documentation")
      && lines[11] == (if IsJsTs(language) then "npm start" else "# See documentation")
  {
    MinimalLinesSingle(name, language, framework);
    SplitJoin(MinimalLines(name, language, framework), '\n');
  }

  /** No line of the minimal README holds a line feed of its own. */
  lemma MinimalLinesSingle(name: string, language: string, framework: string)
    requires '\n' !in name && '\n' !in Subject(language, framework)
    ensures var lines := MinimalLines(name, language, framework);
      |lines| >= 1 && forall k :: 0 <= k < |lines| ==> '\n' !in lines[k]
  {
    var top := ["# " + name, "", "A " + Subject(language, framework) + " project."];
    var mid := [QuickStartLine(language, "npm install"), "", "# Run the project", QuickStartLine(language, "npm start")];
    MinimalHeadSingle(name, language, framework);
    MinimalMiddleSingle(language);
    MinimalConstantsSingle();
    SingleLinesConcat(top, MinimalQuickStartHead);
    SingleLinesConcat(top + MinimalQuickStartHead, mid);
    SingleLinesConcat(top + MinimalQuickStartHead + mid, MinimalClosing);
  }

  lemma MinimalHeadSingle(name: string, language: string, framework: string)
    requires '\n' !in name && '\n' !in Subject(language, framework)
    ensures SingleLines(["# " + name, "", "A " + Subject(language, framework) + " project."])
  {
  }

  lemma MinimalMiddleSingle(language: string)
    ensures SingleLines([QuickStartLine(language, "npm install"), "", "# Run the project", QuickStartLine(language, "npm start")])
  {
  }

  lemma MinimalConstantsSingle()
    ensures SingleLines(MinimalQuickStartHead) && SingleLines(MinimalClosing)
  {
  }

  /** No element of `lines` holds a line feed. */
  predicate SingleLines(lines: seq<string>) {
    forall k :: 0 <= k < |lines| ==> '\n' !in lines[k]
  }

  lemma SingleLinesConcat(a: seq<string>, b: seq<string>)
    requires SingleLines(a) && SingleLines(b)
    ensures SingleLines(a + b)
  {
    assert forall k :: 0 <= k < |a + b| ==> (a + b)[k] == if k < |a| then a[k] else b[k - |a|];
  }

  /** Each line of a shell block occurs in it. */
  lemma ShellBlockShows(body: seq<string>, line: string)
    requires line in body
    ensures Contains(ShellBlock(body), line)
  {
    JoinContainsMember(["```bash"] + body + ["```"], "\n", line);
  }

  /** For the Node languages the run instructions call the `dev`, `build`
      and `start` scripts through the manager's run prefix: `npm run` for
      npm, the manager's own name otherwise. */
  lemma NodeRunInstructions(language: string, framework: string, packageManager: string)
    requires IsJsTs(language)
    ensures var r := RunInstructions(language, framework, packageManager);
      && Contains(r, RunPrefix(packageManager) + " dev")
      && Contains(r, RunPrefix(packageManager) + " build")
      && Contains(r, RunPrefix(packageManager) + " start")
  {
    var run := RunPrefix(packageManager);
    ShellBlockShows(NodeRunLines(run), run + " dev");
    ShellBlockShows(NodeRunLines(run), run + " build");
    ShellBlockShows(NodeRunLines(run), run + " start");
  }

  /** For the Node languages the install instructions end with the
      manager's install command, npm's for an unknown manager. */
  lemma NodeInstallInstructions(language: string, packageManager: string)
    requires IsJsTs(language)
    ensures Contains(InstallInstructions(language, packageManager), PmInstall(packageManager))
    ensures packageManager !in ["npm", "yarn", "pnpm"] ==>
      Contains(InstallInstructions(language, packageManager), "npm install")
  {
    ShellBlockShows(CloneLines + ["# Install dependencies", PmInstall(packageManager)], PmInstall(packageManager));
  }

  /** The badge line names the language, the framework when there is one,
      and the license. */
  lemma BadgesNameChoices(name: string, language: string, framework: string, license: string)
    ensures var r := Badges(name, language, framework, license);
      && Contains(r, "![" + language + "]")
      && (framework != "none" ==> Contains(r, "![" + framework + "]"))
      && Contains(r, "license-" + license + "-blue")
  {
    var list := BadgeList(language, framework, license);
    var r := Join(list, " ");
    JoinContains(list, " ", 0);
    ContainsPrefixPart("![" + language + "]", LanguageBadge(language)[|"![" + language + "]"|..]);
    assert ("![" + language + "]") + LanguageBadge(language)[|"![" + language + "]"|..] == LanguageBadge(language);
    ContainsTrans(r, list[0], "![" + language + "]");
    if framework != "none" {
      JoinContains(list, " ", 1);
      ContainsPrefixPart("![" + framework + "]", FrameworkBadge(framework)[|"![" + framework + "]"|..]);
      assert ("![" + framework + "]") + FrameworkBadge(framework)[|"![" + framework + "]"|..] == FrameworkBadge(framework);
      ContainsTrans(r, list[1], "![" + framework + "]");
    }
    JoinContains(list, " ", |list| - 2);
    ContainsInfix("![License](https://img.shields.io/badge/", "license-" + license + "-blue", "?style=for-the-badge)");
    ContainsTrans(r, list[|list| - 2], "license-" + license + "-blue");
  }

  /** Only catalog languages get a colour of their own. */
  lemma LanguageColorsKnown()
    ensures forall l :: LanguageColor(l) != "000000" ==> l in LanguageIds()
  {
    LanguageIdsAre();
    forall l | LanguageColor(l) != "000000"
      ensures l in LanguageIds()
    {
      assert l in ["javascript", "typescript", "python", "go", "ruby", "php", "csharp"];
    }
  }

  /** Exactly the languages the lookups know get a real file extension,
      and all of them are catalog languages. */
  lemma FileExtensionsKnown()
    ensures forall l :: FileExtension(l) != "txt" <==> l in KnownLanguages
    ensures forall l :: l in KnownLanguages ==> l in LanguageIds()
  {
    LanguageIdsAre();
    forall l | FileExtension(l) != "txt"
      ensures l in KnownLanguages
    {
      assert l in ["javascript", "typescript", "python", "go", "rust", "ruby", "php", "csharp"];
    }
  }

  /** The extension the project-structure listing shows is the first one
      the catalog lists for the language. */
  lemma FileExtensionsMatchCatalog()
    ensures forall i :: 0 <= i < |Languages| && Languages[i].id in KnownLanguages ==>
      Languages[i].extensions[0] == "." + FileExtension(Languages[i].id)
  {
    forall i | 0 <= i < |Languages| && Languages[i].id in KnownLanguages
      ensures Languages[i].extensions[0] == "." + FileExtension(Languages[i].id)
    {
      assert i < 8 by {
        LanguageIdsAre();
        assert Languages[i].id == LanguageIds()[i];
      }
      FileExtensionAt(i);
    }
  }

  lemma FileExtensionAt(i: nat)
    requires i < 8
    ensures Languages[i].extensions[0] == "." + FileExtension(Languages[i].id)
  {
    if i == 0 {} else if i == 1 {} else if i == 2 {} else if i == 3 {}
    else if i == 4 {} else if i == 5 {} else if i == 6 {} else {}
  }

  /** A language the lookups do not know gets every fallback text. */
  lemma UnknownLanguageFallbacks(language: string, framework: string, packageManager: string)
    requires language !in KnownLanguages
    ensures FileExtension(language) == "txt" && LanguageColor(language) == "000000"
    ensures ConfigFile(language, packageManager) == "config"
    ensures InstallInstructions(language, packageManager) == "# See documentation for installation instructions"
    ensures RunInstructions(language, framework, packageManager) == "# See documentation for usage instructions"
    ensures TestCommand(language, packageManager) == "# Run tests"
    ensures Prerequisites(language) == "Required runtime"
    ensures InstallCommand(language) == "# Install dependencies"
    ensures DevCommand(language, framework) == "# Start development server"
  {
  }
}

=== FILE: text.dfy ===
/** String helpers with the semantics of the JavaScript built-ins the tool
    uses: ASCII case mapping, `Array.prototype.join`, `String.prototype.split`
    with a one-character separator, `trim`, and the character classes of the
    regular expressions that appear in the commands. */
module Text {

  // ---------------------------------------------------------------------
  // Character classes

  predicate IsAsciiUpper(c: char) { 'A' <= c <= 'Z' }

  predicate IsAsciiLower(c: char) { 'a' <= c <= 'z' }

  predicate IsDigit(c: char) { '0' <= c <= '9' }

  predicate IsAscii(c: char) { c <= '\U{7F}' }

  predicate AllAscii(s: string) {
    forall i :: 0 <= i < |s| ==> IsAscii(s[i])
  }

  /** The regular-expression class `\w`: `[A-Za-z0-9_]`. */
  predicate IsWordChar(c: char) {
    IsAsciiUpper(c) || IsAsciiLower(c) || IsDigit(c) || c == '_'
  }

  /** The line terminators of ECMAScript: `.` does not match them and, in
      multiline mode, `^` and `$` match next to them. */
  predicate IsLineTerminator(c: char) {
    c == '\n' || c == '\r' || c == '\U{2028}' || c == '\U{2029}'
  }

  /** The regular-expression class `\s`, which is also the set of characters
      `String.prototype.trim` removes: white space and line terminators. */
  predicate IsJsSpace(c: char) {
    || c == '\t' || c == '\U{B}' || c == '\U{C}' || c == ' ' || c == '\U{A0}'
    || c == '\U{1680}' || ('\U{2000}' <= c <= '\U{200A}') || c == '\U{202F}'
    || c == '\U{205F}' || c == '\U{3000}' || c == '\U{FEFF}'
    || IsLineTerminator(c)
  }

  // ---------------------------------------------------------------------
  // Case mapping (ASCII letters only)

  function LowerChar(c: char): char {
    if IsAsciiUpper(c) then (c as int + 32) as char else c
  }

  function UpperChar(c: char): char {
    if IsAsciiLower(c) then (c as int - 32) as char else c
  }

  /** `toLowerCase` on ASCII letters: the same length, each character
      mapped on its own. */
  function Lower(s: string): (r: string)
    ensures |r| == |s|
    ensures forall i :: 0 <= i < |s| ==> r[i] == LowerChar(s[i])
    decreases |s|
  {
    if |s| == 0 then "" else [LowerChar(s[0])] + Lower(s[1..])
  }

  /** `toUpperCase` on ASCII letters. */
  function Upper(s: string): (r: string)
    ensures |r| == |s|
    ensures forall i :: 0 <= i < |s| ==> r[i] == UpperChar(s[i])
    decreases |s|
  {
    if |s| == 0 then "" else [UpperChar(s[0])] + Upper(s[1..])
  }

  // ---------------------------------------------------------------------
  // Prefixes and suffixes

  predicate StartsWith(s: string, prefix: string) {
    |prefix| <= |s| && s[..|prefix|] == prefix
  }

  predicate EndsWith(s: string, suffix: string) {
    |suffix| <= |s| && s[|s| - |suffix|..] == suffix
  }

  /** True iff `sub` occurs in `s` at some position. */
  predicate Contains(s: string, sub: string) {
    exists i :: 0 <= i <= |s| && StartsWith(s[i..], sub)
  }

  // ---------------------------------------------------------------------
  // join / split

  /** `parts.join(sep)`. */
  function Join(parts: seq<string>, sep: string): string
    decreases |parts|
  {
    if |parts| == 0 then ""
    else if |parts| == 1 then parts[0]
    else parts[0] + sep + Join(parts[1..], sep)
  }

  /** `s.split(c)` for a one-character separator: the maximal pieces of `s`
      free of `c`, in order; always at least one piece (`"".split(c)` is
      `[""]`). */
  function Split(s: string, c: char): (r: seq<string>)
    ensures |r| >= 1
    ensures forall k :: 0 <= k < |r| ==> c !in r[k]
    decreases |s|
  {
    if |s| == 0 then [""]
    else
      var rest := Split(s[1..], c);
      if s[0] == c then [""] + rest
      else [[s[0]] + rest[0]] + rest[1..]
  }

  /** The text before the first line feed: `s.split('\n')[0]`. */
  function HeadLine(s: string): string {
    Split(s, '\n')[0]
  }

  /** Splitting and re-joining with the same separator gives back the input,
      so `split` loses no character. */
  lemma {:induction false} JoinSplit(s: string, c: char)
    ensures Join(Split(s, c), [c]) == s
    decreases |s|
  {
    if |s| > 0 {
      var rest := Split(s[1..], c);
      JoinSplit(s[1..], c);
      if s[0] == c {
        assert Split(s, c) == [""] + rest;
        assert ([""] + rest)[1..] == rest;
      } else {
        var r := Split(s, c);
        assert r == [[s[0]] + rest[0]] + rest[1..];
        if |rest| == 1 {
          assert r == [[s[0]] + rest[0]];
          assert Join(rest, [c]) == rest[0];
        } else {
          assert r[1..] == rest[1..];
          assert Join(rest, [c]) == rest[0] + [c] + Join(rest[1..], [c]);
        }
      }
    }
  }

  /** The index of the first occurrence of `c` in `s`, if any. */
  function IndexOf(s: string, c: char): (r: int)
    ensures -1 <= r < |s|
    ensures r == -1 <==> c !in s
    ensures r >= 0 ==> s[r] == c && c !in s[..r]
    decreases |s|
  {
    if |s| == 0 then -1
    else if s[0] == c then 0
    else
      var k := IndexOf(s[1..], c);
      if k == -1 then -1
      else
        assert s[..k + 1] == [s[0]] + s[1..][..k];
        k + 1
  }

  /** In `a + [c] + b` with `c` absent from `a`, the first `c` is the one
      right after `a`. */
  lemma {:induction false} IndexOfAfter(a: string, c: char, b: string)
    requires c !in a
    ensures IndexOf(a + [c] + b, c) == |a|
    decreases |a|
  {
    if |a| > 0 {
      assert (a + [c] + b)[1..] == a[1..] + [c] + b;
      IndexOfAfter(a[1..], c, b);
    }
  }

  /** Without the separator, splitting yields the input as its only piece. */
  lemma {:induction false} SplitNone(s: string, c: char)
    requires c !in s
    ensures Split(s, c) == [s]
    decreases |s|
  {
    if |s| > 0 {
      assert c !in s[1..];
      SplitNone(s[1..], c);
      assert [s[0]] + s[1..] == s;
    }
  }

  /** The first piece of a split is the text before the first separator,
      and the remaining pieces re-joined are the text after it. */
  lemma {:induction false} SplitSome(s: string, c: char)
    requires c in s
    ensures Split(s, c)[0] == s[..IndexOf(s, c)]
    ensures Join(Split(s, c)[1..], [c]) == s[IndexOf(s, c) + 1..]
    decreases |s|
  {
    var rest := Split(s[1..], c);
    if s[0] == c {
      assert Split(s, c)[1..] == rest;
      JoinSplit(s[1..], c);
    } else {
      assert s == [s[0]] + s[1..];
      assert c in s[1..];
      SplitSome(s[1..], c);
      var k := IndexOf(s[1..], c);
      assert IndexOf(s, c) == k + 1;
      assert Split(s, c)[1..] == rest[1..];
      assert s[..k + 1] == [s[0]] + s[1..][..k];
      assert s[k + 2..] == s[1..][k + 1..];
    }
  }

  /** Both cases of `SplitNone` and `SplitSome`, keyed on `IndexOf`. */
  lemma SplitHead(s: string, c: char)
    ensures var i := IndexOf(s, c);
      && (i == -1 ==> Split(s, c) == [s])
      && (i >= 0 ==> Split(s, c)[0] == s[..i] && Join(Split(s, c)[1..], [c]) == s[i + 1..])
  {
    if c in s {
      SplitSome(s, c);
    } else {
      SplitNone(s, c);
    }
  }

  /** Splitting `a + [c] + b` with `c` absent from `a` yields `a` and then
      the pieces of `b`. */
  lemma {:induction false} SplitAfter(a: string, c: char, b: string)
    requires c !in a
    ensures Split(a + [c] + b, c) == [a] + Split(b, c)
    decreases |a|
  {
    if |a| == 0 {
      assert a + [c] + b == [c] + b;
      assert ([c] + b)[1..] == b;
    } else {
      assert (a + [c] + b)[1..] == a[1..] + [c] + b;
      SplitAfter(a[1..], c, b);
      assert [a[0]] + a[1..] == a;
    }
  }

  /** Joining pieces free of the separator and splitting again gives the
      pieces back: the inverse direction of `JoinSplit`. */
  lemma {:induction false} SplitJoin(parts: seq<string>, c: char)
    requires |parts| >= 1
    requires forall k :: 0 <= k < |parts| ==> c !in parts[k]
    ensures Split(Join(parts, [c]), c) == parts
    decreases |parts|
  {
    if |parts| == 1 {
      SplitNone(parts[0], c);
    } else {
      SplitJoin(parts[1..], c);
      assert Join(parts, [c]) == parts[0] + [c] + Join(parts[1..], [c]);
      SplitAfter(parts[0], c, Join(parts[1..], [c]));
      assert [parts[0]] + parts[1..] == parts;
    }
  }

  /** A joined text starts with its first piece. */
  lemma JoinStartsWith(parts: seq<string>, sep: string)
    requires |parts| >= 1
    ensures StartsWith(Join(parts, sep), parts[0])
  {
    if |parts| > 1 {
      assert Join(parts, sep) == parts[0] + (sep + Join(parts[1..], sep));
    }
  }

  /** Text that occurs in `b` occurs in `a + b`. */
  lemma ContainsAfter(a: string, b: string, sub: string)
    requires Contains(b, sub)
    ensures Contains(a + b, sub)
  {
    var i :| 0 <= i <= |b| && StartsWith(b[i..], sub);
    assert (a + b)[|a| + i..] == b[i..];
  }

  /** Every piece of a joined text occurs in it. */
  lemma {:induction false} JoinContains(parts: seq<string>, sep: string, i: int)
    requires 0 <= i < |parts|
    ensures Contains(Join(parts, sep), parts[i])
    decreases |parts|
  {
    if i == 0 {
      JoinStartsWith(parts, sep);
      assert Join(parts, sep)[0..] == Join(parts, sep);
    } else {
      JoinContains(parts[1..], sep, i - 1);
      assert Join(parts, sep) == (parts[0] + sep) + Join(parts[1..], sep);
      ContainsAfter(parts[0] + sep, Join(parts[1..], sep), parts[i]);
    }
  }

  /** Occurrence is transitive: what occurs in `t` occurs wherever `t`
      does. */
  lemma ContainsTrans(s: string, t: string, sub: string)
    requires Contains(s, t) && Contains(t, sub)
    ensures Contains(s, sub)
  {
    var i :| 0 <= i <= |s| && StartsWith(s[i..], t);
    var j :| 0 <= j <= |t| && StartsWith(t[j..], sub);
    assert forall k :: 0 <= k < |sub| ==> s[i + j + k] == s[i..][..|t|][j + k] == t[j + k] == t[j..][..|sub|][k];
    assert s[i + j..][..|sub|] == sub;
  }

  /** The middle of a concatenation occurs in it. */
  lemma ContainsInfix(a: string, x: string, b: string)
    ensures Contains(a + x + b, x)
  {
    assert (a + x + b)[|a|..][..|x|] == x;
  }

  /** A text occurs at the start of any extension of it. */
  lemma ContainsPrefixPart(x: string, b: string)
    ensures Contains(x + b, x)
  {
    assert (x + b)[0..][..|x|] == x;
  }

  /** Every member of the pieces occurs in the joined text. */
  lemma JoinContainsMember(parts: seq<string>, sep: string, x: string)
    requires x in parts
    ensures Contains(Join(parts, sep), x)
  {
    var i :| 0 <= i < |parts| && parts[i] == x;
    JoinContains(parts, sep, i);
  }

  // ---------------------------------------------------------------------
  // trim

  /** Drops the leading white space: the result is a suffix of `s` that does
      not start with white space, and everything dropped was white space. */
  function TrimStart(s: string): (r: string)
    ensures |r| <= |s| && r == s[|s| - |r|..]
    ensures |r| > 0 ==> !IsJsSpace(r[0])
    ensures forall i :: 0 <= i < |s| - |r| ==> IsJsSpace(s[i])
    decreases |s|
  {
    if |s| > 0 && IsJsSpace(s[0]) then TrimStart(s[1..]) else s
  }

  /** Drops the trailing white space: the result is a prefix of `s` that does
      not end with white space, and everything dropped was white space. */
  function TrimEnd(s: string): (r: string)
    ensures |r| <= |s| && r == s[..|r|]
    ensures |r| > 0 ==> !IsJsSpace(r[|r| - 1])
    ensures forall i :: |r| <= i < |s| ==> IsJsSpace(s[i])
    decreases |s|
  {
    if |s| > 0 && IsJsSpace(s[|s| - 1]) then TrimEnd(s[..|s| - 1]) else s
  }

  /** `s.trim()`. */
  function Trim(s: string): string {
    TrimEnd(TrimStart(s))
  }

  /** `trim` yields the empty string exactly when every character is white
      space. */
  lemma TrimEmpty(s: string)
    ensures Trim(s) == "" <==> forall i :: 0 <= i < |s| ==> IsJsSpace(s[i])
  {
  }

  // ---------------------------------------------------------------------
  // Numbers

  function DigitChar(d: nat): char
    requires d < 10
  {
    ('0' as int + d) as char
  }

  /** Decimal rendering of a natural number, as template interpolation of a
      year produces it. */
  function NatToString(n: nat): (r: string)
    ensures |r| >= 1
    ensures forall i :: 0 <= i < |r| ==> IsDigit(r[i])
    decreases n
  {
    if n < 10 then [DigitChar(n)] else NatToString(n / 10) + [DigitChar(n % 10)]
  }

  /** The number a string of decimal digits denotes, most significant digit
      first. */
  function DigitsValue(s: string): int
    decreases |s|
  {
    if |s| == 0 then 0 else DigitsValue(s[..|s| - 1]) * 10 + (s[|s| - 1] as int - '0' as int)
  }

  /** The rendering denotes `n` and has no leading zero, so it is the
      decimal text of `n`. */
  lemma {:induction false} NatToStringValue(n: nat)
    ensures DigitsValue(NatToString(n)) == n
    ensures n > 0 ==> NatToString(n)[0] != '0'
    decreases n
  {
    if n >= 10 {
      NatToStringValue(n / 10);
      var r := NatToString(n);
      assert r[..|r| - 1] == NatToString(n / 10);
    }
  }

  /** Different numbers render differently. */
  lemma NatToStringInjective(a: nat, b: nat)
    ensures NatToString(a) == NatToString(b) ==> a == b
  {
    NatToStringValue(a);
    NatToStringValue(b);
  }
}

=== FILE: wrappers.dfy ===
/** Failure-compatible wrappers used throughout the model.
    `Option` stands for a JavaScript value that may be `undefined`;
    `Result` stands for an operation that either yields a value or throws. */
module Wrappers {

  datatype Option<+T> = None | Some(value: T) {

    /** The `!== undefined ? value : default` pattern of the source. */
    function GetOr(default: T): T {
      match this
      case Some(v) => v
      case None => default
    }
  }

  datatype Result<+T> = Ok(value: T) | Err(message: string)

  /** JavaScript truthiness of a string that may be `undefined`: only a
      defined, non-empty string is truthy. */
  predicate TruthyStr(o: Option<string>) {
    o.Some? && o.value != ""
  }

  /** JavaScript `a || b` on two possibly-undefined strings. */
  function OrStr(a: Option<string>, b: Option<string>): Option<string> {
    if TruthyStr(a) then a else b
  }

  /** JavaScript `a || "literal"` where the literal is non-empty, so the
      result is always a defined string. */
  function OrDefault(a: Option<string>, default: string): string {
    if TruthyStr(a) then a.value else default
  }

  /** JavaScript `flag || false` on a possibly-undefined boolean. */
  function OrFalse(a: Option<bool>): bool {
    a.Some? && a.value
  }

  /** JavaScript `a !== undefined ? a : b`. */
  function Defined<T>(a: Option<T>, b: Option<T>): Option<T> {
    if a.Some? then a else b
  }
}
